=== FILE: README.md ===
# ConsoleSokoban: a verified model of the game core

ConsoleSokoban is a Sokoban game for the terminal. The player walks over a grid of tiles and pushes
boxes onto goals, and keys into goals or into locked doors. The grid also holds walls, one-way
tiles and secret tiles. A level is won when no goal is left open. Levels come in level packs. For
every level the game keeps the best time and the best move count in a save game, and a pack shows
the sums of both. The game exists three times: a Rust version (`src/`), an earlier C version
(`game/level/level.c` with `gameField.c`), and an older single-file C version (`main.c`) that
knows boxes only.

This project models the following parts of the game. For each one it proves what the code
promises.

- **Tiles** (`tiles.dfy`, module `Tiles`): `Tile::from_ascii`, and the character each tile is
  stored as.
- **Levels** (`levels.dfy`, module `Levels`):
  - the `Level` grid: `new`, `get_tile`, `set_tile`, `clone`;
  - the push rule `move_box_or_key` and its win scan;
  - the level parser `from_str`.
- **Level packs** (`level_pack.dfy`, module `LevelPacks`):
  - the pack-text parser and the save-line decoder of `read_from_save_game`;
  - the save-game format `save_save_game` writes;
  - `update_stats`, `add_level` and `calculate_stats_sum`.
- **Undo history** (`undo_history.dfy`, module `UndoHistories`): the bounded undo/redo history
  `UndoHistory<T>` of `src/collections.rs`, and the `clear` of its earlier revision in
  `src/utils.rs`.
- **In-game screen** (`in_game.dfy`, module `InGame`): `ScreenInGame`, which covers:
  - `start_level` and its player scan;
  - the arrow-key step (restore the player's cell, walk or push, stamp the player);
  - the one-step undo `z` and the move counter;
  - the level-end bookkeeping;
  - the whole `on_key_pressed`.
- **Selection screens** (`selection.dfy`, module `Selection`): the level-pack and level selection
  screens, and the cursor of their C counterparts.
- **Help page** (`help_page.dfy`, module `HelpPages`): the numbered table of contents, and paging
  by key and by mouse.
- **C field** (`game_field.dfy`, module `CFields`): the C `struct field`, a column-major 2D
  array, covering:
  - `initField` and `getCharFromField`;
  - the cell-by-cell copy and swap loops;
  - the tile loop of `readLevelData`.
- **C key handler** (`level_c.dfy`, module `LevelC`):
  - `moveBoxOrKey`, `updateKeyInGame`, `setLevel`;
  - the tile decoding of `readLevelData`.
- **Oldest C version** (`main_c.dfy`, module `MainC`):
  - `moveBox` and the IN_GAME arrow-key branch of `updateKey`;
  - the tile decoding of `readLevelData`.
- **C stats** (`c_stats.dfy`, module `CStats`): the best-stat update at level end, and the
  pack-sum fold and the old-format time conversion of `updateLevelPackStats`.
- Supporting modules:
  - `text.dfy` (`Text`): the string functions of the Rust standard library that the parsers use
    (`lines`, `trim`, `split`, `find`, integer `from_str` and `{}` formatting);
  - `game_state.dfy` (`GameStates`): the part of `GameState` the screens touch;
  - `keys.dfy` (`Keys`): key codes;
  - `wrappers.dfy` (`Wrappers`): `Option` and `Result`.

How the pieces are modelled:

- **Levels and screens are classes.** The code mutates them in place, so `Level`, `LevelPack`,
  `UndoHistory`, `TableOfContents`, `HelpPage`, `ScreenInGame` and `ScreenSelectLevel` are
  classes. Their methods are proved against specification functions on values:
  - `Levels.Push` is the push;
  - `InGame.Step` is an arrow key on the tile vector;
  - `UndoHistories.Committed` / `Undone` / `Redone` are the history operations;
  - `LevelPacks.ParsePack` is the pack parser.
- **The C versions work on a 2D array.** `LevelC.Game` and `MainC.Game` hold the global fields as
  `array2`s. Each C method is proved against the tile vector the field stands for
  (`CFields.Contents`), and agreement lemmas relate the C step to the Rust step on that vector.
- **Integer widths are explicit.** The `u32` move counter and the `u64`/`u32` stat sums wrap
  around, as a release build does.

The Rust player step does not bounds-check the destination. The model therefore requires that the
cell stepped onto lies inside the grid, and that the cell beyond it lies inside the grid whenever
the destination holds a box or a key (see `InGame.CanStep`). `move_box_or_key` itself keeps the
Rust flat-index check: a push whose target index is past the end of the tile vector is refused.
Past the right edge, a read reaches into the next row (`Levels.GetTileWrapsToNextRow`).

## Model

| member | source | states |
|---|---|---|
| Tiles.FromAscii | src/game/level.rs:34-59 | a character that is not a tile character is refused with the invalid-tile error |
| Tiles.FromAsciiAccepts | src/game/level.rs:34-59 | `from_ascii` accepts exactly the fourteen characters `- < ^ > v # P * ~ = @ + x s` |
| Tiles.FromAsciiOfToAscii | src/game/level.rs:34-59 | every tile has a character that decodes back to that tile, so the fourteen characters reach all fourteen tiles |
| Tiles.FromAsciiInjective | src/game/level.rs:34-59 | two accepted characters never decode to the same tile |
| Levels.FlatIndexInGrid | src/game/level.rs:161-163 | a cell inside a width × height grid has its flat index x + y*width inside the tile vector |
| Levels.FlatIndexInjective | src/game/level.rs:161-167 | two cells of the grid never share a flat index |
| Levels.Level.constructor | src/game/level.rs:135-147 | with a nonzero width and height, the level holds exactly width*height tiles, all Empty |
| Levels.Level.Clone | src/game/level.rs:127 | a clone is a new level with the same dimensions and tiles |
| Levels.Level.FromGrid | src/game/level.rs:309 | the level built from a parsed grid holds exactly that grid |
| Levels.Level.GetTile | src/game/level.rs:161-163 | the read is Some exactly when x + y*width is inside the tile vector, and is then the tile at that index |
| Levels.Level.SetTile | src/game/level.rs:165-167 | the tile at x + y*width is replaced and every other tile is unchanged |
| Levels.GetTileInGrid | src/game/level.rs:161-163 | inside the columns, a read succeeds exactly for the rows of the grid |
| Levels.GetTileWrapsToNextRow | src/game/level.rs:161-163 | reading one column past the right edge reads the first cell of the next row |
| Levels.Level.MoveBoxOrKey | src/game/level.rs:169-240 | the method returns true exactly when `Push` accepts the push, and then writes the pushed tiles, otherwise leaving the level unchanged; `has_won` is overwritten only by a box-into-goal push, with the verdict of the win scan |
| Levels.ScanForWin | src/game/level.rs:193-215 | the scan with its two `break`s decides `WinsAfterPush`: no other cell is Goal or KeyInGoal, and the original pushed-from cell is not goal-derived |
| Levels.PushBlocked | src/game/level.rs:174-239 | a push is refused exactly when one of the two indices is outside the vector, or the target is neither Empty nor Goal nor, for anything but a box, LockedDoor |
| Levels.PushChangesTwoCells | src/game/level.rs:233-234 | an accepted push changes no cell but the pushed-from cell and the target cell |
| Levels.PushResults | src/game/level.rs:189-231 | what lands on the target: Box→Goal gives BoxInGoal, Box→Empty gives Box, and for anything but a box Goal gives KeyInGoal, LockedDoor gives Empty, Empty gives Key; the pushed-from cell becomes Empty after Box or Key and Goal otherwise |
| Levels.PushWritesWinOnlyForBoxIntoGoal | src/game/level.rs:189-225 | the win flag is written if and only if a box is pushed onto a goal; key pushes never write it |
| Levels.PushWinMeaning | src/game/level.rs:190-215 | a written win flag is true iff no cell except the pushed-from one is left an open goal in the new grid and the original pushed-from cell had no goal |
| Levels.PushKeepsBoxCount | src/game/level.rs:189-234 | a push neither creates nor destroys a box (Box plus BoxInGoal is preserved) |
| Levels.PushKeepsGoalCount | src/game/level.rs:189-234 | a push neither creates nor destroys a goal (Goal, BoxInGoal and KeyInGoal together are preserved) |
| Levels.ParseHeader | src/game/level.rs:268-289 | a header that parses names two positive dimensions |
| Levels.DecodeLine | src/game/level.rs:300-302 | the byte loop decodes a row as the recursive row decoder does, failing on the first bad character |
| Levels.DecodeTiles | src/game/level.rs:293-303 | the row loop trims each row, checks its length against the width and decodes it, as the recursive rows decoder does |
| Levels.DecodeRowShape | src/game/level.rs:300-302 | a decoded row has one tile per character, each the `from_ascii` of that character |
| Levels.DecodeRowsShape | src/game/level.rs:293-303 | decoded rows hold width tiles per row, and column j of row k lands at index k*width + j |
| Levels.RowsMatchGrid | src/game/level.rs:293-307 | rows that decode to exactly width*height tiles are exactly height rows, read row-major |
| Levels.ReadLevel | src/game/level.rs:263-307 | the steps of `from_str` compute the parser function, and a success is a well-formed grid |
| Levels.Level.FromStr | src/game/level.rs:262-310 | `from_str` fails exactly when the parser fails, with the same error, and otherwise returns a new level holding the parsed grid |
| Levels.ParseLevelWellFormed | src/game/level.rs:287-307 | a parsed level has positive dimensions and exactly width*height tiles |
| Levels.ParseLevelSound | src/game/level.rs:262-310 | a parsed level has exactly height lines after the header, each trimmed to width tile characters, stored row-major in input order |
| Levels.DecodeEncodeRow | src/game/level.rs:300-302 | decoding the characters of a row of tiles gives the tiles back |
| Levels.DecodeEncodeRows | src/game/level.rs:293-303 | decoding rows written from width*n tiles gives the tiles back |
| Levels.ParseHeaderOfHeader | src/game/level.rs:268-289 | the header "w: W, h: H" parses back to (W, H) |
| Levels.ParseLevelRoundTrip | src/game/level.rs:262-310 | every well-formed grid written in the level-file format is read back by `from_str` as that grid |
| LevelPacks.Improve | src/game/level.rs:618-628 | the kept stat is either the stored one or the new one |
| LevelPacks.ImproveIsMinimum | src/game/level.rs:618-628 | the kept stat is set, is at most the new one, and is at most the stored one when there was one |
| LevelPacks.StatSum | src/game/level.rs:650-664 | the fold of one stat stays below the integer type's limit |
| LevelPacks.StatSumMeaning | src/game/level.rs:650-664 | the fold is Some exactly when every level has the stat, and is then the wrapped total |
| LevelPacks.PackSum | src/game/level.rs:642-669 | a pack sum stays below the integer type's limit |
| LevelPacks.PackSumMeaning | src/game/level.rs:642-669 | a pack sum is Some iff the pack has levels and every level has the stat, and is then the wrapped total |
| LevelPacks.PackSumExact | src/game/level.rs:642-669 | when the true total fits the integer type, the pack sum is that total |
| LevelPacks.PackSumOfUnset | src/game/level.rs:653-663 | one level without the stat makes the pack sum None |
| LevelPacks.LevelPack.constructor | src/game/level.rs:375-385 | a new pack has its id and path, no levels, nothing completed and no sums |
| LevelPacks.LevelPack.CalculateStatsSum | src/game/level.rs:642-669 | the fold loop leaves both sums equal to the pack sums of the current levels and changes nothing else |
| LevelPacks.LevelPack.UpdateStats | src/game/level.rs:616-634 | an index past the end gives None and changes nothing; otherwise only that level changes, each stat improved independently, and the sums stay those of the levels |
| LevelPacks.LevelPack.SetMinLevelNotCompleted | src/game/level.rs:608-610 | the first uncompleted level becomes the given one |
| LevelPacks.LevelPack.AddLevel | src/game/level.rs:636-640 | the level is appended without stats, and the sums stay those of the levels |
| LevelPacks.AddedLevelUnsetsSums | src/game/level.rs:636-640 | after `add_level` both pack sums are None |
| LevelPacks.NonBlank | src/game/level.rs:425-427 | the filtered lines keep their order and are exactly the non-blank ones |
| LevelPacks.LevelCount | src/game/level.rs:394-423 | an accepted "Levels: N" line announces at most 192 levels |
| LevelPacks.LevelEnd | src/game/level.rs:429-465 | a level's span ends after its first line and within the lines left |
| LevelPacks.CollectLevelLines | src/game/level.rs:437-465 | the loop collects the level's header line and the height lines it announces, or fails as the span does |
| LevelPacks.ReadLevelAt | src/game/level.rs:429-476 | one level is read as the pack specification reads it, and a success ends where its span ends |
| LevelPacks.LevelsFromStep | src/game/level.rs:428-477 | after one level has been read, the remaining levels are that level followed by the levels after it |
| LevelPacks.LevelsFromError | src/game/level.rs:470-475 | a level that fails to read is the error of the whole pack |
| LevelPacks.LevelsFromShape | src/game/level.rs:428-477 | a successful read yields exactly the announced number of levels, each of them well formed |
| LevelPacks.ReadPackLevels | src/game/level.rs:392-484 | the line-by-line pack reader computes the pack parser's result, including every error |
| LevelPacks.ParsePackShape | src/game/level.rs:392-484 | a pack that parses holds the announced number of levels, at most 192, each well formed |
| LevelPacks.SavedState | src/game/level.rs:490-540 | the save data yields a first uncompleted level inside `usize` and exactly 192 stat entries |
| LevelPacks.StatsOfLines | src/game/level.rs:513-538 | the stats table always has 192 entries; lines past it and lines that do not decode leave entries unset |
| LevelPacks.ReadSaveGame | src/game/level.rs:490-540 | the save-game reader computes the saved state, with defaults for a missing or unreadable save |
| LevelPacks.ReadSaveStats | src/game/level.rs:513-538 | the loop over the save lines computes the stats table |
| LevelPacks.LevelPack.ReadFromSaveGame | src/game/level.rs:387-560 | fails exactly when the pack text does not parse, with that error; otherwise a new valid pack whose levels are the parsed grids, each paired with the saved stats at its index |
| LevelPacks.LevelPack.FromParts | src/game/level.rs:542-559 | the pack built from the grids and stats has them at the same indices, the given progress, and sums that agree with its levels |
| LevelPacks.LevelPack.WithStats | src/game/level.rs:542-546 | the `zip` pairs every grid with the stats at its index, each as a new level |
| LevelPacks.SaveLines | src/game/level.rs:571-578 | one save line is written per level before the first uncompleted one, and no more |
| LevelPacks.SaveLineShape | src/game/level.rs:573-577 | a save line is non-empty, trimmed and ends in a digit |
| LevelPacks.ParseSigned | src/game/level.rs:528-535 | reading a formatted signed number as unsigned gives the number if it is not negative, and fails otherwise |
| LevelPacks.DecodeNewFormat | src/game/level.rs:518-535 | a line "ms{a},{b}" reads as the unsigned values of a and b |
| LevelPacks.OldSaveLineInSeconds | src/game/level.rs:528-534 | an old-format line "{s},{m}" reads as time s*1000 + 999 (wrapped in u64) and moves m |
| LevelPacks.SaveLineRoundTrip | src/game/level.rs:518-537 | reading a written save line gives back the saved stats, except those the signed cast made negative |
| LevelPacks.SaveGameLines | src/game/level.rs:569-578 | the lines of a written save game are the progress line followed by the save lines |
| LevelPacks.StatsOfSaveLines | src/game/level.rs:513-538 | the stats read from written save lines are the saved stats, up to the sign cast, and none for later levels |
| LevelPacks.SaveGameRoundTrip | src/game/level.rs:562-582 | reading back a written save game gives the same first uncompleted level, and for each level before it the stats that were saved |
| UndoHistories.Init | src/collections.rs:13-25 | with a nonzero capacity, the history is [initial] with the cursor on it |
| UndoHistories.Undone | src/collections.rs:27-35 | undo gives None iff the cursor is at 1, changing nothing; otherwise it moves the cursor back one and returns the new current value |
| UndoHistories.Redone | src/collections.rs:37-47 | redo gives None iff the cursor is at the end, changing nothing; otherwise it moves the cursor on one and returns the new current value |
| UndoHistories.ClearedWithNewInitial | src/collections.rs:72-76 | the history becomes [initial] with the cursor on it and the same capacity |
| UndoHistories.SwapRemoveBack | src/collections.rs:67 | `swap_remove_back(i)` removes one element when i is in range, and nothing otherwise |
| UndoHistories.UndoHistory.constructor | src/collections.rs:13-25 | a new history is `Init(capacity, initial)` and valid |
| UndoHistories.UndoHistory.Undo | src/collections.rs:27-35 | the new state and the result are those of `Undone`, and the history stays valid |
| UndoHistories.UndoHistory.Redo | src/collections.rs:37-47 | the new state and the result are those of `Redone`, and the history stays valid |
| UndoHistories.UndoHistory.CommitChange | src/collections.rs:49-59 | the new state is that of `Committed`, and the history stays valid |
| UndoHistories.UndoHistory.Clear | src/collections.rs:65-70 | the history keeps only its last value, the cursor goes to 1, and the history stays valid, also when it held a single value |
| UndoHistories.UndoHistory.ClearKeepingOldest | src/utils.rs:62-65 | the history of the earlier revision keeps only its oldest value, with the cursor on it |
| UndoHistories.UndoHistory.ClearWithNewInitial | src/collections.rs:72-76 | the new state is that of `ClearedWithNewInitial`, and the history stays valid |
| UndoHistories.CommitKeepsValid | src/collections.rs:49-59 | after a commit the value is current, the cursor is at the end, the length stays within capacity, and the values before it are the last ones up to the old cursor |
| UndoHistories.CommitEvictsOnlyWhenFull | src/collections.rs:49-59 | a full history drops its oldest value and keeps the cursor; otherwise the redo tail goes and the cursor moves on one |
| UndoHistories.CommitDiscardsRedo | src/collections.rs:49-59 | after any commit, redo returns None |
| UndoHistories.RedoUndoes | src/collections/tests.rs:212-326 | redo after undo restores the history exactly and returns the value that was current |
| UndoHistories.UndoRedoes | src/collections.rs:27-47 | undo after redo restores the history exactly and returns the value that was current |
| UndoHistories.UndoTimes | src/collections/tests.rs:80-157 | n undos move the cursor back n values, but never before the first |
| UndoHistories.CommitAllWindow | src/collections.rs:49-59 | committing without undo keeps the last `capacity` values of everything committed, with the cursor at the end |
| UndoHistories.CommitSlidingWindow | src/collections/tests.rs:10-77 | committing 2..7 into `new(5, 1)` leaves [3, 4, 5, 6, 7] with the cursor at 5 |
| UndoHistories.ClearKeepsLast | src/collections/tests.rs:402-448 | after 1..5 and two undos the current value is 3, and `clear` keeps 5, the last value |
| UndoHistories.ClearKeepingOldestKeepsFirst | src/utils.rs:477-523 | the same steps with the earlier `clear` leave [1] |
| UndoHistories.ClearLeavesOneValue | src/collections.rs:65-70 | both `clear`s leave exactly one value (the last one, and the oldest one) with nothing to undo or redo |
| UndoHistories.ClearAsWrittenKeepsLast | src/collections.rs:65-70 | as written, `clear` on two or more values agrees with the corrected `clear` |
| UndoHistories.ClearAsWrittenEmptiesSingleValue | src/collections.rs:65-70 | as written, `clear` on a history of one value empties it, and the history has no current value |
| UndoHistories.ClearWithNewInitialHasNoSteps | src/collections/tests.rs:451-497 | after `clear_with_new_initial(v)` the current value is v and both undo and redo return None |
| InGame.RestoredTile | src/game/screen.rs:1031-1040 | the restored tile is Goal iff the original is goal-derived; it is never a box, key, player or door, and is the original, Empty or Goal |
| InGame.EnterableTiles | src/game/screen.rs:1046-1112 | a tile enterable in two directions is Empty or Goal, so a one-way tile lets the player through in its own direction only |
| InGame.StepRules | src/game/screen.rs:1046-1112 | the player moves iff the cell ahead is enterable in that direction, or holds a box or key whose push succeeds |
| InGame.StepStampsPlayer | src/game/screen.rs:1114-1115 | after a step the grid keeps its size, the player stands where it moved to or where it was, and a cell left behind shows its restored tile |
| InGame.StepBlockedKeepsGrid | src/game/screen.rs:1031-1124 | a blocked move leaves the grid unchanged when the player stood stamped on its cell |
| InGame.PushWinOnceStamped | src/game/level.rs:190-215 | a box-into-goal push wins iff, with the player stamped on the pushed-from cell, no goal is open, and that cell had no goal in the original |
| InGame.StepWinRule | src/game/screen.rs:1046-1112 | a step wins iff it moves a box onto a goal, no goal is left open in the resulting grid, and the cell the player now stands on had no goal in the original |
| InGame.NextMoveCount | src/game/screen.rs:1120 | the move counter goes up by one and wraps to 0 after the largest u32 |
| InGame.ToggleTwice | src/game/screen.rs:1010-1019 | pressing `z` twice restores the whole play state |
| InGame.ToggleKeepsStamped | src/game/screen.rs:1010-1019 | `z` keeps the player stamped in both grids |
| InGame.ArrowKeyBookkeeping | src/game/screen.rs:1117-1124 | a move counts one more move and keeps the previous grid, count and position as the last step; a blocked move changes nothing and does not win |
| InGame.ToggleUndoesMove | src/game/screen.rs:1117-1124 | `z` right after a move restores the grid, the move count and the position from before the move |
| InGame.LevelEndMin | src/game/screen.rs:979-986 | at level end the first uncompleted level never decreases and ends past the level just won |
| InGame.FindPlayerMeaning | src/game/screen.rs:677-691 | the scan finds the first Player cell in column-then-row order, and finds nothing exactly when no cell holds the player |
| InGame.StartedStamped | src/game/screen.rs:666-692 | a started level with a player has the player stamped in both grids, and `z` on it changes nothing |
| InGame.ScreenInGame.constructor | src/game/screen.rs:643-664 | a new screen has no level, zero counts and positions, and all flags cleared |
| InGame.ScreenInGame.FindPlayerIn | src/game/screen.rs:677-691 | the nested loop with its labelled break computes the scan function |
| InGame.ScreenInGame.StartLevel | src/game/screen.rs:666-692 | both grids become fresh copies of the level, both counts become 0, and the positions come from the scan (or stay when no player is found) |
| InGame.ScreenInGame.ToggleLastStep | src/game/screen.rs:1010-1019 | the grids, the move counts and the positions swap, which is the toggle on the play state |
| InGame.StepLevel | src/game/screen.rs:1031-1115 | restore, step and stamp on the screen's grid give exactly the tiles, position and win flag of `Step` |
| InGame.RestorePlayerCell | src/game/screen.rs:1031-1040 | only the player's cell changes, to the restored tile of the original level |
| InGame.MovePlayer | src/game/screen.rs:1044-1115 | the walk, push or stay and the stamp give the tiles, position and win flag of `Moved` |
| InGame.PushNext | src/game/screen.rs:1046-1112 | a step onto a box or key is `move_box_or_key` followed by the stamp, as `Moved` says |
| InGame.ScreenInGame.OnArrowKey | src/game/screen.rs:1026-1124 | the new play state and the win flag are those of `ArrowKey` on the original level |
| InGame.ScreenInGame.RecordWin | src/game/screen.rs:1126-1138 | a win sets both flags, and level idx's stats take the run's when better, as `update_stats` does |
| InGame.ScreenInGame.PlayArrowKey | src/game/screen.rs:1026-1139 | the arrow key gives `ArrowKey`'s play state, and a win records the stats of the level played |
| InGame.ScreenInGame.OnLevelEnd | src/game/screen.rs:978-1008 | at level end the progress moves past the level won; ENTER goes to the next level or sets game over after the last, `r` replays it, and any other key changes nothing else; the grid in play keeps its tiles unless a level is started |
| InGame.ScreenInGame.OnPlayKey | src/game/screen.rs:1010-1139 | in play, `z` sets the play state to `Toggle` of the old one, `r` restarts the level, an arrow key steps as `ArrowKey` says, and any other key changes nothing, the grid's tiles included; only an arrow key writes to the grid in play |
| InGame.ScreenInGame.OnSetScreen | src/game/screen.rs:1153-1156 | entering the screen starts the selected level of the selected pack |
| InGame.ScreenInGame.OnKeyPressed | src/game/screen.rs:928-1140 | with the dialog open, `y` goes to the level selection and `n` closes the dialog; ESC leaves after game over and otherwise opens the dialog; F1 opens help and changes nothing else; otherwise the key goes to the level end or to the level in play, with the effects `OnLevelEnd` and `OnPlayKey` state. Only an arrow key in play writes to the grid in play. Only F1 touches the help flag, and the dialog, ESC and F1 keys keep the current pack's levels, progress and sums and the grid in play |
| Selection.Cursor | src/game/screen.rs:560-591 | an arrow key keeps the level cursor among the entries |
| Selection.CursorMeaning | src/game/screen.rs:560-591 | the cursor takes the key's move (±1, ±24) exactly when that lands on an entry, and stays put otherwise |
| Selection.CursorBack | src/game/screen.rs:560-591 | a move the cursor makes is undone by the opposite key |
| Selection.PackCursorAsWritten | src/game/screen.rs:352-381 | as written, the pack cursor differs from the level cursor only on UP |
| Selection.PackUpAsWrittenStuck | src/game/screen.rs:361-366 | with 25 packs, UP on pack 24 stays on 24 as written, although pack 0 is right above it |
| Selection.CCursorAgrees | game/level/level.c:156-184 | on a cursor among the entries, the C cursor (step, then revert when outside) moves exactly as the Rust level cursor |
| Selection.FirstLevelToPlay | src/game/screen.rs:383-393 | ENTER on a pack selects the first uncompleted level, or level 0 when every level is completed |
| Selection.EntryAt | src/game/screen.rs:405 | a click at (column, row) names the entry in column column/3 of line (row-1)/2 |
| Selection.SelectLevelPackKey | src/game/screen.rs:339-398 | ESC goes to the start menu, F1 opens help, arrows move the pack cursor, and ENTER selects the first level to play and opens the level selection; only F1 touches the help flag, and ESC and F1 keep the level index; it implements the corrected rule (see ## Findings), so UP moves by 24 whenever that lands on a pack (`< 24`, where src/game/screen.rs:361 tests `<= 24`) |
| Selection.SelectLevelPackMouse | src/game/screen.rs:400-411 | a click on a pack selects it and acts as ENTER; any other click changes nothing; no click touches the help flag |
| Selection.ScreenSelectLevel.constructor | src/game/screen.rs:418-422 | the cursor starts at level 0 |
| Selection.ScreenSelectLevel.OnSetScreen | src/game/screen.rs:616-618 | the cursor is set to the game's selected level |
| Selection.ScreenSelectLevel.OnKeyPressed | src/game/screen.rs:547-602 | ESC goes back, F1 opens help, arrows move the cursor, and ENTER plays the level under the cursor only when its index is at most the first uncompleted one; only F1 touches the help flag, and ESC and F1 keep the level index |
| Selection.ScreenSelectLevel.OnMousePressed | src/game/screen.rs:604-614 | a click on a level puts the cursor there and acts as ENTER; a click elsewhere changes nothing; no click touches the help flag |
| HelpPages.NextCounters | src/game/help_page.rs:72-106 | adding a heading raises its level's counter and resets the deeper ones, keeping the higher ones |
| HelpPages.NumberingCountsSections | src/game/help_page.rs:72-82 | the section counter equals the number of sections added |
| HelpPages.SubSectionAfterSection | src/game/help_page.rs:84-94 | a sub-section added right after section n is numbered n.1 |
| HelpPages.AddNumbersAsLayersOf | src/game/help_page.rs:72-106 | the k-th heading carries the counters as they stand once it is added |
| HelpPages.AddOneLevel | src/game/help_page.rs:72-106 | adding one more heading steps the counters by `NextCounters` and numbers the new heading from them |
| HelpPages.TableOfContents.constructor | src/game/help_page.rs:62-69 | a new table has no headings and all counters 0, so its numbering is that of no levels added |
| HelpPages.TableOfContents.AddSection | src/game/help_page.rs:72-82 | the section counter goes up, the deeper counters go to 0, and the numbered heading is appended; the counters and the headings' numbers stay those `CountersAfter` and `LayersOf` give for the levels added so far |
| HelpPages.TableOfContents.AddSubSection | src/game/help_page.rs:84-94 | the sub-section counter goes up, the sub-sub counter goes to 0, the section counter is kept, and the heading is appended; the counters and the headings' numbers stay those `CountersAfter` and `LayersOf` give for the levels added so far |
| HelpPages.TableOfContents.AddSubSubSection | src/game/help_page.rs:96-106 | only the sub-sub counter goes up, and the heading is appended; the counters and the headings' numbers stay those `CountersAfter` and `LayersOf` give for the levels added so far |
| HelpPages.TableOfContents.PageClicked | src/game/help_page.rs:120-122 | the result is Some iff height*page + row indexes a heading, and is then that heading's page |
| HelpPages.HeadingOnRow | src/game/help_page.rs:170 | the table is drawn from row 2, so row r shows heading r - 2 |
| HelpPages.FirstHeadingNotClickable | src/game/help_page.rs:497-503 | row 2 shows heading 0, yet as written a click there does not look up the table |
| HelpPages.TableClickIsTableRow | src/game/help_page.rs:497-503 | the corrected click looks up the table exactly on the rows it is drawn on |
| HelpPages.TurnPage | src/game/help_page.rs:481-495 | UP and DOWN move one page back or on, wrapping round the six pages |
| HelpPages.TurnPageBack | src/game/help_page.rs:481-495 | UP undoes DOWN and DOWN undoes UP |
| HelpPages.AddControlHeadings | src/game/help_page.rs:136-141 | section 1 and its keyboard headings are appended, numbered 1, 1.1 and 1.1.1 to 1.1.4 |
| HelpPages.AddMouseHeadings | src/game/help_page.rs:142-145 | the mouse headings are appended, numbered 1.2 and 1.2.1 to 1.2.3 |
| HelpPages.AddMenuHeadings | src/game/help_page.rs:146-150 | sections 2 and 3 are appended, with sub-sections 3.1 to 3.3 |
| HelpPages.AddGameplayHeadings | src/game/help_page.rs:151-153 | section 4 is appended, with sub-sections 4.1 and 4.2 |
| HelpPages.NewHelpTable | src/game/help_page.rs:134-155 | the new table holds the eighteen headings, numbered and paged as listed, and their numbers are `LayersOf` the levels added |
| HelpPages.HelpPage.constructor | src/game/help_page.rs:134-159 | the help page opens on page 0 with the eighteen headings, numbered and paged as listed, and numbered as `LayersOf` their levels |
| HelpPages.HelpPage.OnKeyPressed | src/game/help_page.rs:481-495 | UP and DOWN turn the page as `TurnPage` says, any other key keeps it, and the page stays below 6 |
| HelpPages.HelpPage.OnMousePressed | src/game/help_page.rs:497-507 | implements the corrected rule (see ## Findings): a click on any row the table is drawn on, row 2 included, goes to its heading's page if there is one; as written, a click on the bottom row left of column 8 then acts as DOWN |
| GameStates.GameState.constructor | src/game.rs:72-130 | the game starts on the start menu with no dialog or help open, and with pack 0 and level 0 selected |
| CStats.BestAfterIsImprove | game/level/level.c:206-210 | with -1 standing for "none", the C best-stat update is the Rust `update_stats` rule |
| CStats.BestAfterNeverWorse | main.c:393-397 | the stored best is never worse than before, is at most the run's, and is always set |
| CStats.OldFormatMillis | game/level/level.c:1045-1052 | an old-format time of s seconds becomes the last millisecond of that second |
| CStats.OldFormatMillisAsRust | src/game/level.rs:528-534 | within the `u64` range, the C conversion is the Rust decoder's |
| CStats.SumStats | game/level/level.c:1237-1241 | the sum fold is the total of the stats when every one is set, and -1 from the first unset one on |
| CStats.SumStatsAsRust | main.c:1249-1253 | on a non-empty pack without wrap-around, the C sum and the Rust pack sum agree: a sum exactly when every level has the stat |
| CFields.InitField | gameField.c:5-15 | a new width × height field has every cell EMPTY |
| CFields.GetCharFromFieldCollides | gameField.c:22-60 | two ids are drawn alike exactly when they are equal, or are BOX and BOX_IN_GOAL |
| CFields.CopyField | game/level/level.c:272-274 | the copy loop leaves the target standing for the same tile vector as the source |
| CFields.SwapFields | game/level/level.c:241-249 | the swap loop exchanges every cell, so each field stands for the other's former vector |
| CFields.DecodeField | game/level/level.c:1080-1122 | cell [x, y] of the new field is the decoding of character x + y*width, and EMPTY where the decoder knows nothing |
| LevelC.DecodeLevelCAsRust | game/level/level.c:1080-1122 | the C loader reads each character as `from_ascii` does, except the secret tile, which it leaves EMPTY |
| LevelC.WinAfterLanding | game/level/level.c:417-443 | after the box landed, the scan's verdict is the Rust win rule on the vector before the push |
| LevelC.PushWrites | game/level/level.c:414-458 | an accepted push writes the target and then the pushed-from cell, which is `Push` on the vector |
| LevelC.StepWalks | game/level/level.c:289-366 | a step onto an enterable cell moves the player there |
| LevelC.StepPushes | game/level/level.c:289-366 | a step onto a box or key moves the player iff the push succeeds, and the push decides the win |
| LevelC.StepStays | game/level/level.c:289-366 | a step onto anything else leaves the player in place |
| LevelC.Undone | game/level/level.c:241-262 | `z` exchanges each value with its last-step twin |
| LevelC.UndoneTwice | game/level/level.c:241-262 | pressing `z` twice changes nothing |
| LevelC.UndoneIsToggle | game/level/level.c:241-262 | the C `z` is the Rust toggle on the same state, with counts in the `u32` range |
| LevelC.Game.CheckWin | game/level/level.c:417-443 | both flags end set exactly when no cell is GOAL or KEY_IN_GOAL and the original pushed-from cell has no goal |
| LevelC.Game.Land | game/level/level.c:414-453 | the target cell gets the tile `Landed` names, and a box on a goal runs the win scan |
| LevelC.Game.Vacate | game/level/level.c:455-458 | the pushed-from cell gets the tile `Vacated` names |
| LevelC.Game.MoveBoxOrKey | game/level/level.c:407-464 | the C push is `Push` on the vectors: refused with the field unchanged, or the two cells written, and on a box-into-goal push the flags are set exactly when the win rule holds |
| LevelC.Game.RestorePlayerCell | game/level/level.c:276-282 | the player's cell gets the original tile without the player, box, key or door, as `Restore` does |
| LevelC.Game.Walk | game/level/level.c:289-366 | on EMPTY, GOAL or the matching one-way tile the player steps ahead |
| LevelC.Game.PushAhead | game/level/level.c:289-366 | on a box or key the player steps ahead iff `moveBoxOrKey` pushes |
| LevelC.Game.Stay | game/level/level.c:289-366 | on any other tile the player stays |
| LevelC.Game.PushNext | game/level/level.c:289-366 | the push case of the switch is the push case of the Rust move |
| LevelC.Game.Advance | game/level/level.c:289-369 | the player takes the step the switch allowed and is stamped where it stands |
| LevelC.Game.Switch | game/level/level.c:289-369 | the switch and the stamp give the Rust `Moved` on the vector |
| LevelC.Game.MovePlayer | game/level/level.c:276-369 | restore, switch and stamp give the Rust `Step` on the vector |
| LevelC.Game.RecordMove | game/level/level.c:371-380 | when the position changed, the move is counted and the kept copy becomes the last step |
| LevelC.Game.StepAndRecord | game/level/level.c:276-380 | the step followed by the move bookkeeping |
| LevelC.Game.OnArrowKey | game/level/level.c:268-382 | an arrow key is the Rust step on the vector, followed by the move bookkeeping |
| LevelC.Game.Undo | game/level/level.c:241-262 | `z` swaps the fields cell by cell, the move counts and the positions |
| LevelC.Game.FindPlayerInField | game/level/level.c:931-943 | the scan finds the first PLAYER cell in column-then-row order, as the Rust scan does |
| LevelC.Game.NewFields | game/level/level.c:914-929 | three new fields shaped like the level, the first two a copy of it and the third EMPTY |
| LevelC.Game.PlacePlayer | game/level/level.c:931-943 | both player positions go to the first PLAYER cell of the scan |
| LevelC.Game.SetLevel | game/level/level.c:907-944 | the level is copied into the play and last-step fields, the move count is cleared and the player is found |
| LevelC.Game.RecordWin | game/level/level.c:200-216 | progress moves past the level won, and each best stat takes the run's when unset or larger |
| LevelC.Game.LevelEndKey | game/level/level.c:218-237 | ENTER goes to the next level, or to GAME_OVER after the last one, `r` replays the level, and other keys change nothing |
| LevelC.Game.PlayKey | game/level/level.c:241-382 | in play, `z` undoes, `r` restarts, and an arrow key steps as `Step` on the vectors; any other key changes neither the level nor the fields, and only an arrow key can end the level |
| LevelC.Game.OnLevelEnd | game/level/level.c:199-237 | a win not yet recorded moves progress past the level and updates both best stats by `BestAfter`; then ENTER starts the next level or ends the game after the last, `r` restarts the level, and any other key changes nothing |
| LevelC.Game.UpdateKeyInGame | game/level/level.c:197-383 | at level end, `OnLevelEnd`'s effects. In play, `z` undoes, `r` restarts, an arrow key steps as `Step`, and any other key changes neither the level nor the fields; only an arrow key can end the level, and progress, stats and the game-over flag stay as they were |
| MainC.DecodeOfDrawnChar | gameField.c:22-56 | reading back the character drawn for an id gives that id, except BOX_IN_GOAL, which reads back as BOX |
| MainC.DecodeMainCAsLevelC | main.c:1147-1180 | the two C loaders agree on every character the older one knows |
| MainC.RestoredIdAsRust | main.c:464-469 | restoring an id restores the tile it stands for |
| MainC.EnterableIdAsRust | main.c:474-543 | the ids walked onto and pushed are the tiles the Rust step walks onto and pushes |
| MainC.WinsAsRust | main.c:667-693 | the `moveBox` win check is the Rust win rule on the tile vectors |
| MainC.WritesAsRust | main.c:695-702 | the two writes of `moveBox` are those of `move_box_or_key` |
| MainC.PushAsRust | main.c:660-707 | `moveBox` refuses the same pushes as the Rust push, writes the same cells and reaches the same verdict |
| MainC.RestoreAsRust | main.c:464-469 | the main.c restore is the Rust restore on the tile vectors |
| MainC.MovedAsRust | main.c:474-546 | the main.c switch and stamp are the Rust move on the tile vectors |
| MainC.StepAsRust | main.c:464-546 | a main.c arrow key is the Rust step on the tile vectors: same grid, same move, same win verdict |
| MainC.WinAfterLanding | main.c:667-693 | after the box landed, the scan's verdict is `WinsAfterPush` on the vector before the push |
| MainC.StepWalks | main.c:474-543 | a step onto an enterable cell moves the player there |
| MainC.StepPushes | main.c:474-543 | a step onto a box moves the player iff `moveBox` pushes, and the push decides the win |
| MainC.StepStays | main.c:474-543 | a step onto anything else leaves the player in place |
| MainC.Game.CheckWin | main.c:667-693 | both flags end set iff no cell is GOAL and the original pushed-from cell is neither GOAL nor BOX_IN_GOAL; the inner-only `break` does not change this |
| MainC.Game.Land | main.c:662-697 | the target becomes BOX_IN_GOAL on a goal and BOX otherwise, and a box on a goal runs the win scan |
| MainC.Game.Vacate | main.c:699-702 | the pushed-from cell becomes EMPTY where a BOX stood and GOAL otherwise |
| MainC.Game.MoveBox | main.c:660-707 | returns 1 and writes the two cells exactly when the target is EMPTY or GOAL, otherwise 0 with the field unchanged; on a goal the flags record the win rule |
| MainC.Game.RestorePlayerCell | main.c:464-469 | PLAYER and BOX become EMPTY and BOX_IN_GOAL becomes GOAL on the player's cell |
| MainC.Game.Walk | main.c:474-543 | on EMPTY, GOAL or the matching one-way tile the player steps ahead |
| MainC.Game.PushAhead | main.c:474-543 | on BOX or BOX_IN_GOAL the player steps ahead iff `moveBox` pushes |
| MainC.Game.Stay | main.c:474-543 | on any other tile the player stays |
| MainC.Game.PushNext | main.c:474-543 | the push case of the switch is the push case of `Moved` |
| MainC.Game.Advance | main.c:474-546 | the player takes the step the switch allowed and is stamped where it stands |
| MainC.Game.Switch | main.c:474-546 | the switch and the stamp give `Moved` on the id vector |
| MainC.Game.MovePlayer | main.c:464-546 | restore, switch and stamp give `Step` on the id vector |
| MainC.Game.RecordMove | main.c:549-558 | when the position changed, `oldMoves` takes `moves`, `moves` goes up by one and the kept copy becomes the last step |
| MainC.Game.StepAndRecord | main.c:464-558 | the step followed by the move bookkeeping |
| MainC.Game.OnArrowKey | main.c:455-559 | an arrow key is `Step` on the id vector, followed by the move bookkeeping |
| Text.TrimStartSpec | src/game/level.rs:268 | `trim` removes all of the leading whitespace and nothing more |
| Text.TrimEndSpec | src/game/level.rs:295 | `trim` removes all of the trailing whitespace and nothing more |
| Text.TrimEmptyIffBlank | src/game/level.rs:427 | a line trims to empty exactly when it is all whitespace |
| Text.Lines | src/game/level.rs:263 | no line holds a '\n', and only the empty text has no lines |
| Text.LinesOfJoin | src/game/level.rs:467 | joining lines with "\n" and splitting them again gives the lines back |
| Text.LinesOfUnlines | src/game/level.rs:569-578 | a text written line by line splits back into those lines |
| Text.FindFrom | src/game/level.rs:273 | the search finds the first occurrence at or after the start, or reports that there is none |
| Text.FindFirstOccurrence | src/game/level.rs:273 | `find` returns the first position where the pattern occurs |
| Text.Split | src/game/level.rs:523 | `split` gives at least one piece, and no piece holds the separator |
| Text.SplitPair | src/game/level.rs:523-526 | two pieces joined by one separator split back into those two pieces |
| Text.ParseUnsigned | src/game/level.rs:276-285 | an accepted number is below the type's limit and is not empty or a lone '+' |
| Text.NatToDecimal | src/game/level.rs:569 | a formatted natural number is a non-empty string of digits |
| Text.IntToDecimal | src/game/level.rs:573-576 | a formatted signed number is the digits of its magnitude, with a '-' before a negative one |
| Text.ParseDecimal | src/game/level.rs:505 | `from_str` gives back every value of the type that `{}` formats |
| Text.ParseNegativeFails | src/game/level.rs:528 | a formatted negative number never parses as unsigned |

## Left out

- Drawing and terminal I/O are not modelled: every `draw*` function, colours, underlining, and `Tile::draw`. The `setColor` side effect of `getCharFromField` is left out too, so `GetCharFromField` is only the character mapping.
- Clocks are not modelled; play times are parameters. The time fields of `update()`, `time_start`, the `n` key's `on_continue` time shift and `gettimeofday` are left out. The C run time passed to `LevelC.Game.RecordWin` is a parameter.
- File I/O is not modelled.
  - `read_from_save_game` takes the save-game text as a parameter (None when there is no file).
  - `save_save_game` is modelled as the text it writes (`SaveGameText`), without the file write and without its `expect`.
  - `readLevelData`, `saveLevelData` and `updateLevelPackStats` are modelled only in their tile decoding, their old-format time conversion and their sum fold.
- Only the parts of `GameState` (src/game.rs) that the screens touch are modelled. Screen dispatch, the `RefCell`s, the help-page and dialog plumbing, and the save-folder lookup are left out. So is the start menu screen (src/game/screen.rs:113-224).
- The ENTER branch of the C selection screens is left out: `readLevelData`, the draw-function switch and `selectedLevel = 0`. So are the C mouse handlers `updateMouseSelectLevelPack` and `updateMouseSelectLevel`. Of the C selection, only the cursor is modelled (`Selection.CCursorAgrees`).
- main.c has its own level-end code, `z` key, `setLevel` and selection. They take the same steps as level.c's, so they are modelled once, in `LevelC`, on level.c's set of field ids. The one difference is the run time recorded at level end:
  - main.c records `timeSec + 60 * timeMin` seconds in an `int` (main.c:392);
  - level.c records `timeMilliSec + 1000 * timeSec + 60000 * timeMin` milliseconds in a `long` (game/level/level.c:205).
  Both versions update the best time by the same rule, `CStats.BestAfter`. `LevelC.Game.RecordWin` takes the run time as a parameter, so it covers either unit. The seconds main.c saves are the old save format, which `CStats.OldFormatMillis` converts to milliseconds.
- `removeField` (memory release) is not modelled. In Dafny the new fields are fresh arrays.
- Panics become preconditions. These are:
  - `Level::new` with a zero dimension;
  - `UndoHistory::new` with capacity 0;
  - `set_tile` past the end;
  - the dimension check in `move_box_or_key`;
  - the `unwrap`s and `usize` underflows of the arrow-key code (`InGame.CanStep`).
- The C code indexes its arrays without bounds checks. Its callers are assumed to keep the player and the cells ahead inside the field (`LevelC.CanStepIn`, `MainC.CanStepIn`).
- The C `setLevel` does not reset `oldMoves`; the model keeps that behaviour (`LevelC.Game.SetLevel` leaves it as it was).
- Levels.Level.FromStr: does not model `usize` overflow of `width * height` (src/game/level.rs:291 and 305) or a failing allocation. For a header such as `w: 4294967296, h: 4294967296` with no rows, a 64-bit release build wraps the product to 0 and accepts a level with no tiles, and a debug build panics. The model compares against the exact product and reports the error.
- Levels.ParseLevelWellFormed: "exactly width * height tiles" holds for the model's parser with the exact product. It does not hold for the source on inputs whose product overflows `usize`, as above.
- Levels.ParseLevelSound: speaks of the model's parser. The source also accepts the overflowing header above with no rows, which no decoding of the rows accounts for.
- Levels.ReadLevel: computes the model's parser with the exact product, so the `usize` overflow above is not modelled here either.
- LevelPacks.ReadLevelAt: does not model the `Vec::with_capacity(1 + height)` of src/game/level.rs:454. With a huge announced height that call overflows or fails to allocate and panics. The model instead reads on and reports the early end of file.
- Integer overflow is modelled as wrap-around, as a release build behaves; a debug build would panic instead. This covers the `u32` move counter, the `u64`/`u32` pack sums, and the old-format `*1000 + 999` in `u64`. The C `int`/`long` stats are unbounded in the model.
- Text is modelled as sequences of characters, not bytes. The byte-length check of `from_str` and the character-length check of the model differ only on non-ASCII lines, and `from_ascii` refuses those lines either way.
- The `VecDeque` capacity is modelled as exactly the requested capacity, which the tests in src/collections/tests.rs rely on.
- src/collections/tests.rs reads a field `current_index`, which is `next_index - 1` of the history. The test lemmas state the cursor in terms of `nextIndex`.
- The player-background blink counter and the audio are not modelled.

## Findings

| source | as written | input that shows it | evidently intended | confidence | as-written member | corrected member |
|---|---|---|---|---|---|---|
| src/collections.rs:65-70 | `clear` calls `swap_remove_back(0)` and then `truncate(1)`; on a history of one value the swap removes that value | `new(5, 1)` then `clear()`: the history is empty and `current()` indexes an empty deque | keep the last value as the only one, also when it is the only value (the earlier `clear` in src/utils.rs:62-65 is safe at length 1) | high, not executed | UndoHistories.ClearAsWrittenEmptiesSingleValue | UndoHistories.UndoHistory.Clear |
| src/game/screen.rs:361-366 | the pack selection's UP stays put when the index is `<= 24` | 25 packs, cursor on pack 24, UP: the cursor stays on 24 although pack 0 is right above it | `< 24`, as the level selection checks (src/game/screen.rs:569-574) and as the C cursor behaves | medium, not executed | Selection.PackUpAsWrittenStuck | Selection.SelectLevelPackKey |
| src/game/help_page.rs:498 | the table of contents is consulted only for `row > 2` | page 0, click on row 2, where the table's first heading "Control" is drawn (src/game/help_page.rs:170): nothing happens | `row >= 2`, the rows the table is drawn on | medium, not executed | HelpPages.FirstHeadingNotClickable | HelpPages.HelpPage.OnMousePressed |

=== FILE: c_stats.dfy ===
/**
 * The best-stat bookkeeping of the C versions (main.c, game/level/level.c): -1 stands for
 * "no stat yet", a finished run replaces a larger stat, and a pack's sum is -1 once a level
 * has no stat.
 */
module CStats {
  import opened Wrappers
  import opened Text
  import LevelPacks

  /** The stat a C int holds: none when it is negative, the value otherwise. */
  function AsStat(v: int): Option<nat> {
    if v < 0 then None else Some(v)
  }

  function AsStats(values: seq<int>): (r: seq<Option<nat>>)
    ensures |r| == |values|
    ensures forall i | 0 <= i < |values| :: r[i] == AsStat(values[i])
  {
    if values == [] then [] else AsStats(values[..|values| - 1]) + [AsStat(values[|values| - 1])]
  }

  /**
   * The level-end update of one best stat (level.c:206-210, main.c:393-397): the new value
   * when none is stored (-1) or the stored one is larger, the stored one otherwise.
   */
  function BestAfter(best: int, candidate: int): int {
    if best == -1 || best > candidate then candidate else best
  }

  /** With -1 for "none", the C update is the Rust one: keep the smaller, or take the first. */
  lemma BestAfterIsImprove(best: int, candidate: nat)
    requires best >= -1
    ensures AsStat(BestAfter(best, candidate)) == LevelPacks.Improve(AsStat(best), candidate)
  {
  }

  /** A stored stat never gets larger, and a missing one is filled in. */
  lemma BestAfterNeverWorse(best: int, candidate: nat)
    requires best >= -1
    ensures BestAfter(best, candidate) >= 0
    ensures BestAfter(best, candidate) <= candidate
    ensures best >= 0 ==> BestAfter(best, candidate) <= best
  {
  }

  /**
   * The old save format's time, in seconds, read as milliseconds (level.c:1045-1052,
   * 1226-1234): the last millisecond of that second.
   */
  function OldFormatMillis(seconds: int): (r: int)
    ensures seconds >= 0 ==> r / 1000 == seconds && r % 1000 == 999
  {
    seconds * 1000 + 999
  }

  /** Within the range of a Rust `u64`, the C conversion gives what the Rust save-line decoder gives. */
  lemma OldFormatMillisAsRust(seconds: nat)
    requires seconds * 1000 + 999 < U64_LIMIT
    ensures OldFormatMillis(seconds) == (seconds * 1000 + 999) % U64_LIMIT
  {
    LevelPacks.ModUnique(seconds * 1000 + 999, U64_LIMIT, 0, seconds * 1000 + 999);
  }

  /**
   * The sum fold of `updateLevelPackStats` (level.c:1237-1241, main.c:1249-1253): the stats of
   * the pack's levels added up while none is negative, -1 from the first negative one on.
   */
  method SumStats(values: seq<int>) returns (sum: int)
    ensures sum == if LevelPacks.AllSet(AsStats(values)) then LevelPacks.Total(AsStats(values)) else -1
  {
    sum := 0;
    var i := 0;
    while i < |values|
      invariant 0 <= i <= |values|
      invariant sum == if LevelPacks.AllSet(AsStats(values[..i])) then LevelPacks.Total(AsStats(values[..i])) else -1
    {
      SumStep(values, i);
      if sum >= 0 {
        sum := if values[i] < 0 then -1 else sum + values[i];
      }
      i := i + 1;
    }
    assert values[..i] == values;
  }

  /** One more level: the stats so far and that level's. */
  lemma SumStep(values: seq<int>, i: nat)
    requires i < |values|
    ensures AsStats(values[..i + 1]) == AsStats(values[..i]) + [AsStat(values[i])]
    ensures LevelPacks.AllSet(AsStats(values[..i + 1])) <==> LevelPacks.AllSet(AsStats(values[..i])) && values[i] >= 0
    ensures LevelPacks.Total(AsStats(values[..i + 1]))
         == LevelPacks.Total(AsStats(values[..i])) + (if values[i] >= 0 then values[i] else 0)
  {
    assert values[..i + 1][..i] == values[..i];
    var s := AsStats(values[..i + 1]);
    assert s[..i] == AsStats(values[..i]);
  }

  /**
   * The C pack sum and the Rust one agree on a pack with levels and no wrap-around: a sum
   * exactly when every level has the stat.
   */
  lemma SumStatsAsRust(values: seq<int>, limit: nat)
    requires values != [] && limit > 0
    requires LevelPacks.Total(AsStats(values)) < limit
    ensures LevelPacks.PackSum(AsStats(values), limit)
         == if LevelPacks.AllSet(AsStats(values)) then Some(LevelPacks.Total(AsStats(values))) else None
  {
    if LevelPacks.AllSet(AsStats(values)) {
      LevelPacks.PackSumExact(AsStats(values), limit);
    } else {
      LevelPacks.PackSumMeaning(AsStats(values), limit);
    }
  }
}

=== FILE: game_field.dfy ===
/**
 * The C versions' field (gameField.h, gameField.c): a width × height array of tile ids
 * indexed `field[x][y]`, and the helpers both C versions use on it.
 */
module CFields {
  import opened Wrappers
  import Tiles
  import Levels
  import LevelPacks

  /** `enum fieldIDs` of gameField.h. */
  datatype FieldId = Empty | OneWayLeft | OneWayUp | OneWayRight | OneWayDown | Wall | Player | Box | Goal | BoxInGoal

  /** `initField`: a new width × height field, every cell set to the tile enumeration's EMPTY. */
  method InitField<T(0)>(width: nat, height: nat, empty: T) returns (field: array2<T>)
    ensures fresh(field) && field.Length0 == width && field.Length1 == height
    ensures forall x, y | 0 <= x < width && 0 <= y < height :: field[x, y] == empty
  {
    field := new T[width, height];
    var i := 0;
    while i < width
      invariant 0 <= i <= width
      invariant forall x, y | 0 <= x < i && 0 <= y < height :: field[x, y] == empty
    {
      var j := 0;
      while j < height
        invariant 0 <= j <= height
        invariant forall x, y | 0 <= x < i && 0 <= y < height :: field[x, y] == empty
        invariant forall y | 0 <= y < j :: field[i, y] == empty
      {
        field[i, j] := empty;
        j := j + 1;
      }
      i := i + 1;
    }
  }

  /** `getCharFromField` on the id at the cell: the character the cell is drawn as (its colour is not modelled). */
  function GetCharFromField(id: FieldId): char {
    match id
    case Empty => '-'
    case OneWayLeft => '<'
    case OneWayUp => '^'
    case OneWayRight => '>'
    case OneWayDown => 'v'
    case Wall => '#'
    case Player => 'P'
    case Box => '@'
    case Goal => 'x'
    case BoxInGoal => '@'
  }

  /** A box and a box on a goal are drawn alike; every other pair of ids is drawn differently. */
  lemma GetCharFromFieldCollides(a: FieldId, b: FieldId)
    ensures GetCharFromField(a) == GetCharFromField(b) <==> a == b || ({a, b} == {Box, BoxInGoal})
  {
  }

  /** The Rust tile each C id stands for. */
  function ToTile(id: FieldId): (t: Tiles.Tile)
    ensures t != Tiles.Key && t != Tiles.KeyInGoal && t != Tiles.LockedDoor && t != Tiles.Secret
  {
    match id
    case Empty => Tiles.Empty
    case OneWayLeft => Tiles.OneWayLeft
    case OneWayUp => Tiles.OneWayUp
    case OneWayRight => Tiles.OneWayRight
    case OneWayDown => Tiles.OneWayDown
    case Wall => Tiles.Wall
    case Player => Tiles.Player
    case Box => Tiles.Box
    case Goal => Tiles.Goal
    case BoxInGoal => Tiles.BoxInGoal
  }

  /** Two ids never stand for the same tile. */
  lemma ToTileInjective(a: FieldId, b: FieldId)
    requires ToTile(a) == ToTile(b)
    ensures a == b
  {
  }

  /** Every index of a width × height vector is the flat index of one cell. */
  lemma CellOfIndex(k: nat, width: nat, height: nat) returns (x: nat, y: nat)
    requires k < width * height
    ensures x == k % width && y == k / width
    ensures x < width && y < height && Levels.FlatIndex(x, y, width) == k
  {
    x, y := k % width, k / width;
    if y >= height {
      Levels.MulMonotone(height, y, width);
    }
  }

  /** The column and row of an index of a width × height vector are inside the field. */
  lemma IndexInGrid(k: nat, width: nat, height: nat)
    requires k < width * height
    ensures width > 0 && k % width < width && k / width < height
  {
    var x, y := CellOfIndex(k, width, height);
  }

  /** A cell's flat index gives back its column and row. */
  lemma IndexOfCell(x: nat, y: nat, width: nat)
    requires x < width
    ensures Levels.FlatIndex(x, y, width) % width == x && Levels.FlatIndex(x, y, width) / width == y
  {
    LevelPacks.ModUnique(Levels.FlatIndex(x, y, width), width, y, x);
  }

  /** The cell at index `k` of the row-major vector of a field. */
  ghost function CellAt<T>(field: array2<T>, k: nat): T
    reads field
    requires k < field.Length0 * field.Length1
  {
    IndexInGrid(k, field.Length0, field.Length1);
    field[k % field.Length0, k / field.Length0]
  }

  /**
   * The row-major vector a field stands for: cell [x, y] at x + y*width, as the Rust
   * versions store a level.
   */
  ghost function Contents<T>(field: array2<T>): (r: seq<T>)
    reads field
    ensures |r| == field.Length0 * field.Length1
  {
    CellsUpTo(field, field.Length0 * field.Length1)
  }

  /** The first `n` cells of the field in row-major order. */
  ghost function CellsUpTo<T>(field: array2<T>, n: nat): (r: seq<T>)
    reads field
    requires n <= field.Length0 * field.Length1
    ensures |r| == n
  {
    if n == 0 then [] else CellsUpTo(field, n - 1) + [CellAt(field, n - 1)]
  }

  /** Element k of the first `n` cells is cell k. */
  lemma {:induction false} CellsUpToIndex<T>(field: array2<T>, n: nat)
    requires n <= field.Length0 * field.Length1
    ensures forall k | 0 <= k < n :: CellsUpTo(field, n)[k] == CellAt(field, k)
  {
    if n > 0 {
      CellsUpToIndex(field, n - 1);
    }
  }

  /** Element k of the vector is cell k in row-major order. */
  lemma ContentsIndex<T>(field: array2<T>)
    ensures forall k | 0 <= k < |Contents(field)| :: Contents(field)[k] == CellAt(field, k)
  {
    CellsUpToIndex(field, field.Length0 * field.Length1);
  }

  /** Cell [x, y] of the field is element x + y*width of its vector. */
  lemma ContentsAt<T>(field: array2<T>, x: nat, y: nat)
    requires x < field.Length0 && y < field.Length1
    ensures Levels.FlatIndex(x, y, field.Length0) < |Contents(field)|
    ensures Contents(field)[Levels.FlatIndex(x, y, field.Length0)] == field[x, y]
  {
    ContentsIndex(field);
    Levels.FlatIndexInGrid(x, y, field.Length0, field.Length1);
    IndexOfCell(x, y, field.Length0);
  }

  /** Two fields of one shape that agree cell by cell stand for the same vector. */
  lemma SameCellsSameContents<T>(a: array2<T>, b: array2<T>)
    requires a.Length0 == b.Length0 && a.Length1 == b.Length1
    requires forall x, y | 0 <= x < a.Length0 && 0 <= y < a.Length1 :: a[x, y] == b[x, y]
    ensures Contents(a) == Contents(b)
  {
    ContentsIndex(a);
    ContentsIndex(b);
    forall k | 0 <= k < |Contents(a)|
      ensures Contents(a)[k] == Contents(b)[k]
    {
      var x, y := CellOfIndex(k, a.Length0, a.Length1);
    }
  }

  /**
   * One write `field[x][y] = value`: of the vector the field stands for it changes the element
   * at the cell's flat index and no other.
   */
  method SetCell<T>(field: array2<T>, x: nat, y: nat, value: T)
    requires x < field.Length0 && y < field.Length1
    modifies field
    ensures Levels.FlatIndex(x, y, field.Length0) < |old(Contents(field))|
    ensures Contents(field) == old(Contents(field))[Levels.FlatIndex(x, y, field.Length0) := value]
  {
    ghost var before := Contents(field);
    ContentsIndex(field);
    ContentsAt(field, x, y);
    field[x, y] := value;
    ContentsIndex(field);
    var w := field.Length0;
    ghost var i := Levels.FlatIndex(x, y, w);
    forall k | 0 <= k < |before|
      ensures Contents(field)[k] == before[i := value][k]
    {
      var a, b := CellOfIndex(k, w, field.Length1);
      assert Contents(field)[k] == field[a, b];
      assert before[k] == old(field[a, b]);
      if k == i {
        Levels.FlatIndexInjective(a, b, x, y, w);
      }
    }
  }

  /** Every cell of a width × height grid has its flat index inside the vector. */
  lemma CellsInGrid(width: nat, height: nat)
    ensures forall x, y | 0 <= x < width && 0 <= y < height :: Levels.FlatIndex(x, y, width) < width * height
  {
    forall x, y | 0 <= x < width && 0 <= y < height
      ensures Levels.FlatIndex(x, y, width) < width * height
    {
      Levels.FlatIndexInGrid(x, y, width, height);
    }
  }

  /**
   * Copies `source` cell by cell into `target`, as the C versions' nested copy loops do; the
   * copy stands for the same tile vector.
   */
  method CopyField<T>(source: array2<T>, target: array2<T>)
    requires source != target
    requires target.Length0 == source.Length0 && target.Length1 == source.Length1
    modifies target
    ensures Contents(target) == Contents(source)
  {
    var i := 0;
    while i < source.Length0
      invariant 0 <= i <= source.Length0
      invariant forall x, y | 0 <= x < i && 0 <= y < source.Length1 :: target[x, y] == source[x, y]
    {
      var j := 0;
      while j < source.Length1
        invariant 0 <= j <= source.Length1
        invariant forall x, y | 0 <= x < i && 0 <= y < source.Length1 :: target[x, y] == source[x, y]
        invariant forall y | 0 <= y < j :: target[i, y] == source[i, y]
      {
        target[i, j] := source[i, j];
        j := j + 1;
      }
      i := i + 1;
    }
    SameCellsSameContents(target, source);
  }

  /** Swaps two fields cell by cell, as the C versions' `z` key does. */
  method SwapFields<T>(a: array2<T>, b: array2<T>)
    requires a != b && a.Length0 == b.Length0 && a.Length1 == b.Length1
    modifies a, b
    ensures forall x, y | 0 <= x < a.Length0 && 0 <= y < a.Length1 :: a[x, y] == old(b[x, y]) && b[x, y] == old(a[x, y])
    ensures Contents(a) == old(Contents(b)) && Contents(b) == old(Contents(a))
  {
    ghost var ca, cb := Contents(a), Contents(b);
    ContentsIndex(a);
    ContentsIndex(b);
    var i := 0;
    while i < a.Length0
      invariant 0 <= i <= a.Length0
      invariant forall x, y | 0 <= x < a.Length0 && 0 <= y < a.Length1 ::
        if x < i then a[x, y] == old(b[x, y]) && b[x, y] == old(a[x, y])
        else a[x, y] == old(a[x, y]) && b[x, y] == old(b[x, y])
    {
      var j := 0;
      while j < a.Length1
        invariant 0 <= j <= a.Length1
        invariant forall x, y | 0 <= x < a.Length0 && 0 <= y < a.Length1 ::
          if x < i || (x == i && y < j) then a[x, y] == old(b[x, y]) && b[x, y] == old(a[x, y])
          else a[x, y] == old(a[x, y]) && b[x, y] == old(b[x, y])
      {
        var tmp := a[i, j];
        a[i, j] := b[i, j];
        b[i, j] := tmp;
        j := j + 1;
      }
      i := i + 1;
    }
    ContentsIndex(a);
    ContentsIndex(b);
    forall k | 0 <= k < |ca|
      ensures Contents(a)[k] == cb[k] && Contents(b)[k] == ca[k]
    {
      var x, y := CellOfIndex(k, a.Length0, a.Length1);
      assert Contents(a)[k] == a[x, y] && Contents(b)[k] == b[x, y];
      assert ca[k] == old(a[x, y]) && cb[k] == old(b[x, y]);
    }
  }

  /**
   * The tile loop of `readLevelData`: a new width × height field whose cell [x, y] is what
   * `decode` makes of character `x + y*width` of the level's rows, and EMPTY where it
   * recognises nothing.
   */
  method DecodeField<T(0)>(rows: seq<char>, width: nat, height: nat, empty: T, decode: char -> Option<T>)
    returns (field: array2<T>)
    requires |rows| >= width * height
    ensures fresh(field) && field.Length0 == width && field.Length1 == height
    ensures forall x, y | 0 <= x < width && 0 <= y < height ::
      Levels.FlatIndex(x, y, width) < |rows| && field[x, y] == Decoded(decode(rows[Levels.FlatIndex(x, y, width)]), empty)
    ensures forall k | 0 <= k < width * height :: Contents(field)[k] == Decoded(decode(rows[k]), empty)
  {
    field := InitField(width, height, empty);
    CellsInGrid(width, height);
    var j := 0;
    while j < width
      invariant 0 <= j <= width
      invariant forall x, y | 0 <= x < width && 0 <= y < height ::
        field[x, y] == if x < j then Decoded(decode(rows[Levels.FlatIndex(x, y, width)]), empty) else empty
    {
      var k := 0;
      while k < height
        invariant 0 <= k <= height
        invariant forall x, y | 0 <= x < width && 0 <= y < height ::
          field[x, y] == if x < j || (x == j && y < k) then Decoded(decode(rows[Levels.FlatIndex(x, y, width)]), empty) else empty
      {
        var c := rows[Levels.FlatIndex(j, k, width)];
        var t := decode(c);
        if t.Some? {
          field[j, k] := t.value;
        }
        k := k + 1;
      }
      j := j + 1;
    }
    ContentsIndex(field);
    forall k | 0 <= k < width * height
      ensures Contents(field)[k] == Decoded(decode(rows[k]), empty)
    {
      var x, y := CellOfIndex(k, width, height);
      assert Contents(field)[k] == field[x, y];
    }
  }

  /** The id a decoded character leaves in a cell: the one it names, or EMPTY. */
  function Decoded<T>(t: Option<T>, empty: T): T {
    if t.Some? then t.value else empty
  }
}

=== FILE: game_state.dfy ===
/**
 * The part of `GameState` (src/game.rs) that the screens read and write: the current screen,
 * whether a dialog or the help page is open, the level packs and the selected pack and level.
 */
module GameStates {
  import opened Text
  import opened LevelPacks

  /** `ScreenId`. */
  datatype ScreenId = StartMenu | SelectLevelPack | SelectLevel | InGame

  class GameState {
    var screen: ScreenId
    var dialogOpen: bool
    var helpOpen: bool
    const levelPacks: seq<LevelPack>
    var levelPackIndex: USize
    var levelIndex: USize

    /** A game on the start menu with the given packs, the first pack and level selected. */
    constructor(levelPacks: seq<LevelPack>)
      ensures this.levelPacks == levelPacks
      ensures screen == StartMenu && !dialogOpen && !helpOpen
      ensures levelPackIndex == 0 && levelIndex == 0
    {
      this.levelPacks := levelPacks;
      screen := StartMenu;
      dialogOpen := false;
      helpOpen := false;
      levelPackIndex := 0;
      levelIndex := 0;
    }
  }
}

=== FILE: help_page.dfy ===
/**
 * The help page (src/game/help_page.rs): a table of contents whose headings are numbered
 * "1", "1.1", "1.1.1" as they are added, and six pages the arrow keys and the mouse turn.
 */
module HelpPages {
  import opened Wrappers
  import opened Text
  import opened Keys

  /** A heading's level and number: "n", "n.m" or "n.m.k". */
  datatype SectionLayer =
    | Section(section: nat)
    | SubSection(section: nat, subSection: nat)
    | SubSubSection(section: nat, subSection: nat, subSubSection: nat)

  /** An entry of the table of contents: the heading and the page it is on. */
  datatype Heading = Heading(layer: SectionLayer, name: string, page: U32)

  /** The three counters of the table of contents: the numbers of the last heading of each level. */
  datatype Counters = Counters(section: nat, subSection: nat, subSubSection: nat)

  /** The level of a heading to add. */
  datatype Level = SectionLevel | SubSectionLevel | SubSubSectionLevel

  /** The counters after adding a heading of the given level: that level's counter goes up, the deeper ones restart. */
  function NextCounters(c: Counters, level: Level): (r: Counters)
    ensures level == SectionLevel ==> r == Counters(c.section + 1, 0, 0)
    ensures level == SubSectionLevel ==> r == Counters(c.section, c.subSection + 1, 0)
    ensures level == SubSubSectionLevel ==> r == Counters(c.section, c.subSection, c.subSubSection + 1)
  {
    match level
    case SectionLevel => Counters(c.section + 1, 0, 0)
    case SubSectionLevel => c.(subSection := c.subSection + 1, subSubSection := 0)
    case SubSubSectionLevel => c.(subSubSection := c.subSubSection + 1)
  }

  /** The number a heading of the given level gets from the counters after adding it. */
  function LayerOf(c: Counters, level: Level): SectionLayer {
    match level
    case SectionLevel => Section(c.section)
    case SubSectionLevel => SubSection(c.section, c.subSection)
    case SubSubSectionLevel => SubSubSection(c.section, c.subSection, c.subSubSection)
  }

  /** The counters after adding headings of the given levels, one after the other, to a new table. */
  function CountersAfter(levels: seq<Level>): Counters {
    if levels == [] then Counters(0, 0, 0)
    else NextCounters(CountersAfter(levels[..|levels| - 1]), levels[|levels| - 1])
  }

  /** The numbers the headings of the given levels get, one after the other, in a new table. */
  function LayersOf(levels: seq<Level>): (r: seq<SectionLayer>)
    ensures |r| == |levels|
  {
    if levels == [] then []
    else LayersOf(levels[..|levels| - 1]) + [LayerOf(CountersAfter(levels), levels[|levels| - 1])]
  }

  /**
   * Numbering restarts where it should: a heading's first number counts the sections so far,
   * and a sub-section right after a section is numbered 1 within it.
   */
  lemma {:induction false} NumberingCountsSections(levels: seq<Level>)
    ensures CountersAfter(levels).section == |set k | 0 <= k < |levels| && levels[k] == SectionLevel|
  {
    if levels != [] {
      var prefix := levels[..|levels| - 1];
      NumberingCountsSections(prefix);
      var before := set k | 0 <= k < |prefix| && prefix[k] == SectionLevel;
      var after := set k | 0 <= k < |levels| && levels[k] == SectionLevel;
      if levels[|levels| - 1] == SectionLevel {
        assert after == before + {|levels| - 1};
      } else {
        assert after == before;
      }
    }
  }

  /** A sub-section right after a section is that section's first: "n.1". */
  lemma SubSectionAfterSection(levels: seq<Level>)
    requires levels != [] && levels[|levels| - 1] == SectionLevel
    ensures LayersOf(levels + [SubSectionLevel])[|levels|]
         == SubSection(CountersAfter(levels).section, 1)
  {
    assert (levels + [SubSectionLevel])[..|levels|] == levels;
  }

  /** The numbers of the given headings, in order. */
  function NumbersOf(headings: seq<Heading>): (r: seq<SectionLayer>)
    ensures |r| == |headings|
    ensures forall k | 0 <= k < |headings| :: r[k] == headings[k].layer
  {
    if headings == [] then []
    else NumbersOf(headings[..|headings| - 1]) + [headings[|headings| - 1].layer]
  }

  /** Adding one more heading: the counters step by `NextCounters`, and the new heading is numbered from them. */
  lemma AddOneLevel(levels: seq<Level>, level: Level)
    ensures CountersAfter(levels + [level]) == NextCounters(CountersAfter(levels), level)
    ensures LayersOf(levels + [level])
         == LayersOf(levels) + [LayerOf(NextCounters(CountersAfter(levels), level), level)]
  {
    assert (levels + [level])[..|levels|] == levels;
  }

  /** `TableOfContents`: the counters and the headings added so far. */
  class TableOfContents {
    var nextSection: U32
    var nextSubSection: U32
    var nextSubSubSection: U32
    var sections: seq<Heading>
    /** The levels of the headings added so far, in order. */
    ghost var added: seq<Level>

    function Counts(): Counters
      reads this
    {
      Counters(nextSection, nextSubSection, nextSubSubSection)
    }

    /** The counters and the numbers of the headings are those of adding `added` to a new table. */
    ghost predicate Numbered()
      reads this
    {
      Counts() == CountersAfter(added) && NumbersOf(sections) == LayersOf(added)
    }

    /** Every heading points at a page below `n`. */
    ghost predicate PagesBelow(n: nat)
      reads this
    {
      forall k | 0 <= k < |sections| :: sections[k].page < n
    }

    /** `TableOfContents::new`: no headings, all counters zero. */
    constructor()
      ensures Counts() == Counters(0, 0, 0) && sections == []
      ensures added == [] && Numbered()
    {
      nextSection, nextSubSection, nextSubSubSection := 0, 0, 0;
      sections := [];
      added := [];
    }

    /** `add_section`: the next section number, its sub-section counters back to zero. */
    method AddSection(name: string, page: U32)
      requires nextSection + 1 < U32_LIMIT
      modifies this
      ensures Counts() == NextCounters(old(Counts()), SectionLevel)
      ensures sections == old(sections) + [Heading(LayerOf(Counts(), SectionLevel), name, page)]
      ensures added == old(added) + [SectionLevel]
      ensures old(Numbered()) ==> Numbered()
    {
      nextSection := nextSection + 1;
      nextSubSection := 0;
      nextSubSubSection := 0;
      sections := sections + [Heading(Section(nextSection), name, page)];
      AddOneLevel(added, SectionLevel);
      assert old(sections) == sections[..|sections| - 1];
      added := added + [SectionLevel];
    }

    /** `add_sub_section`: the next sub-section number within the current section. */
    method AddSubSection(name: string, page: U32)
      requires nextSubSection + 1 < U32_LIMIT
      modifies this
      ensures Counts() == NextCounters(old(Counts()), SubSectionLevel)
      ensures sections == old(sections) + [Heading(LayerOf(Counts(), SubSectionLevel), name, page)]
      ensures added == old(added) + [SubSectionLevel]
      ensures old(Numbered()) ==> Numbered()
    {
      nextSubSection := nextSubSection + 1;
      nextSubSubSection := 0;
      sections := sections + [Heading(SubSection(nextSection, nextSubSection), name, page)];
      AddOneLevel(added, SubSectionLevel);
      assert old(sections) == sections[..|sections| - 1];
      added := added + [SubSectionLevel];
    }

    /** `add_sub_sub_section`: the next sub-sub-section number within the current sub-section. */
    method AddSubSubSection(name: string, page: U32)
      requires nextSubSubSection + 1 < U32_LIMIT
      modifies this
      ensures Counts() == NextCounters(old(Counts()), SubSubSectionLevel)
      ensures sections == old(sections) + [Heading(LayerOf(Counts(), SubSubSectionLevel), name, page)]
      ensures added == old(added) + [SubSubSectionLevel]
      ensures old(Numbered()) ==> Numbered()
    {
      nextSubSubSection := nextSubSubSection + 1;
      sections := sections + [Heading(SubSubSection(nextSection, nextSubSection, nextSubSubSection), name, page)];
      AddOneLevel(added, SubSubSectionLevel);
      assert old(sections) == sections[..|sections| - 1];
      added := added + [SubSubSectionLevel];
    }

    /** `get_page_mouse_clicked`: the page of the heading `row` lines into page `page` of `height` lines, if there is one. */
    function PageClicked(height: nat, page: nat, row: nat): (r: Option<U32>)
      reads this
      ensures r.Some? <==> height * page + row < |sections|
      ensures r.Some? ==> r.value == sections[height * page + row].page
    {
      var index := height * page + row;
      if index < |sections| then Some(sections[index].page) else None
    }
  }

  /** The `k`-th heading is numbered from the counters as they stand once it is added. */
  lemma {:induction false} AddNumbersAsLayersOf(levels: seq<Level>, k: nat)
    requires k < |levels|
    ensures LayersOf(levels)[k] == LayerOf(CountersAfter(levels[..k + 1]), levels[k])
  {
    var prefix := levels[..|levels| - 1];
    if k < |levels| - 1 {
      AddNumbersAsLayersOf(prefix, k);
      assert prefix[..k + 1] == levels[..k + 1];
    } else {
      assert levels[..k + 1] == levels;
    }
  }

  const PAGE_COUNT: U32 := 6

  /** The rows the table of contents is drawn on: from row 2, `height - 4` headings of page 0. */
  predicate TableRow(height: nat, row: nat) {
    2 <= row < 2 + (height - 4)
  }

  /** The heading drawn on a table row: the one `row - 2` lines into the table. */
  function HeadingOnRow(row: nat): (r: nat)
    requires row >= 2
    ensures r + 2 == row
  {
    row - 2
  }

  /** The rows `on_mouse_pressed` looks up in the table, as written: from row 3 on. */
  predicate TableClickAsWritten(height: nat, row: nat) {
    row > 2 && row + 2 < height
  }

  /** The first heading is drawn on row 2, where a click does not reach it. */
  lemma FirstHeadingNotClickable(height: nat)
    requires height > 4
    ensures TableRow(height, 2) && HeadingOnRow(2) == 0
    ensures !TableClickAsWritten(height, 2)
  {
  }

  /** The rows a click looks the table up on, from row 2 where the first heading is drawn. */
  predicate TableClick(height: nat, row: nat) {
    row >= 2 && row + 2 < height
  }

  /** A click looks up the table exactly on the rows the table is drawn on. */
  lemma TableClickIsTableRow(height: nat, row: nat)
    ensures TableClick(height, row) <==> TableRow(height, row)
  {
  }

  /** The page after UP or DOWN: one page back or on, wrapping round the six pages. */
  function TurnPage(page: U32, down: bool): (r: U32)
    requires page < PAGE_COUNT
    ensures r < PAGE_COUNT
    ensures r == (if down then (page + 1) % PAGE_COUNT else (page + PAGE_COUNT - 1) % PAGE_COUNT)
  {
    if down then (if page == PAGE_COUNT - 1 then 0 else page + 1)
    else (if page == 0 then PAGE_COUNT - 1 else page - 1)
  }

  /** UP undoes DOWN and DOWN undoes UP. */
  lemma TurnPageBack(page: U32, down: bool)
    requires page < PAGE_COUNT
    ensures TurnPage(TurnPage(page, down), !down) == page
  {
  }

  /** Adds the first part of `HelpPage::new`: section 1 and its keyboard sub-section, on page 1. */
  method AddControlHeadings(table: TableOfContents)
    requires table.Counts() == Counters(0, 0, 0)
    modifies table
    ensures table.Counts() == Counters(1, 1, 4)
    ensures old(table.Numbered()) ==> table.Numbered()
    ensures table.sections == old(table.sections) + [
      Heading(Section(1), "Control", 1),
      Heading(SubSection(1, 1), "Keyboard", 1),
      Heading(SubSubSection(1, 1, 1), "Help menu", 1),
      Heading(SubSubSection(1, 1, 2), "Exit window", 1),
      Heading(SubSubSection(1, 1, 3), "Start menu", 1),
      Heading(SubSubSection(1, 1, 4), "Game control", 1)]
  {
    table.AddSection("Control", 1);
    table.AddSubSection("Keyboard", 1);
    table.AddSubSubSection("Help menu", 1);
    table.AddSubSubSection("Exit window", 1);
    table.AddSubSubSection("Start menu", 1);
    table.AddSubSubSection("Game control", 1);
  }

  /** Adds the mouse sub-section of section 1, on pages 2 and 3. */
  method AddMouseHeadings(table: TableOfContents)
    requires table.Counts() == Counters(1, 1, 4)
    modifies table
    ensures table.Counts() == Counters(1, 2, 3)
    ensures old(table.Numbered()) ==> table.Numbered()
    ensures table.sections == old(table.sections) + [
      Heading(SubSection(1, 2), "Mouse input", 2),
      Heading(SubSubSection(1, 2, 1), "Help menu", 2),
      Heading(SubSubSection(1, 2, 2), "Exit window", 2),
      Heading(SubSubSection(1, 2, 3), "Start menu", 3)]
  {
    table.AddSubSection("Mouse input", 2);
    table.AddSubSubSection("Help menu", 2);
    table.AddSubSubSection("Exit window", 2);
    table.AddSubSubSection("Start menu", 3);
  }

  /** Adds sections 2 and 3, on pages 3 and 4. */
  method AddMenuHeadings(table: TableOfContents)
    requires table.Counts() == Counters(1, 2, 3)
    modifies table
    ensures table.Counts() == Counters(3, 3, 0)
    ensures old(table.Numbered()) ==> table.Numbered()
    ensures table.sections == old(table.sections) + [
      Heading(Section(2), "Console arguments", 3),
      Heading(Section(3), "Menus", 4),
      Heading(SubSection(3, 1), "Help menu", 4),
      Heading(SubSection(3, 2), "Exit window", 4),
      Heading(SubSection(3, 3), "Game screen", 4)]
  {
    table.AddSection("Console arguments", 3);
    table.AddSection("Menus", 4);
    table.AddSubSection("Help menu", 4);
    table.AddSubSection("Exit window", 4);
    table.AddSubSection("Game screen", 4);
  }

  /** Adds section 4, on page 5. */
  method AddGameplayHeadings(table: TableOfContents)
    requires table.Counts() == Counters(3, 3, 0)
    modifies table
    ensures table.Counts() == Counters(4, 2, 0)
    ensures old(table.Numbered()) ==> table.Numbered()
    ensures table.sections == old(table.sections) + [
      Heading(Section(4), "Gameplay", 5),
      Heading(SubSection(4, 1), "Play", 5),
      Heading(SubSection(4, 2), "Game over", 5)]
  {
    table.AddSection("Gameplay", 5);
    table.AddSubSection("Play", 5);
    table.AddSubSection("Game over", 5);
  }

  /** The table of contents `HelpPage::new` builds: eighteen headings, numbered as they are added. */
  method NewHelpTable() returns (table: TableOfContents)
    ensures fresh(table) && table.Numbered()
    ensures table.sections == [
      Heading(Section(1), "Control", 1),
      Heading(SubSection(1, 1), "Keyboard", 1),
      Heading(SubSubSection(1, 1, 1), "Help menu", 1),
      Heading(SubSubSection(1, 1, 2), "Exit window", 1),
      Heading(SubSubSection(1, 1, 3), "Start menu", 1),
      Heading(SubSubSection(1, 1, 4), "Game control", 1),
      Heading(SubSection(1, 2), "Mouse input", 2),
      Heading(SubSubSection(1, 2, 1), "Help menu", 2),
      Heading(SubSubSection(1, 2, 2), "Exit window", 2),
      Heading(SubSubSection(1, 2, 3), "Start menu", 3),
      Heading(Section(2), "Console arguments", 3),
      Heading(Section(3), "Menus", 4),
      Heading(SubSection(3, 1), "Help menu", 4),
      Heading(SubSection(3, 2), "Exit window", 4),
      Heading(SubSection(3, 3), "Game screen", 4),
      Heading(Section(4), "Gameplay", 5),
      Heading(SubSection(4, 1), "Play", 5),
      Heading(SubSection(4, 2), "Game over", 5)]
  {
    table := new TableOfContents();
    AddControlHeadings(table);
    AddMouseHeadings(table);
    AddMenuHeadings(table);
    AddGameplayHeadings(table);
  }

  /** `HelpPage`: the table of contents and the page shown. */
  class HelpPage {
    const tableOfContents: TableOfContents
    var page: U32

    /** Every page the help page can show, the page shown and those the headings point to, is one of the six. */
    ghost predicate Valid()
      reads this, tableOfContents
    {
      && page < PAGE_COUNT
      && tableOfContents.PagesBelow(PAGE_COUNT)
    }

    /** `HelpPage::new`: the eighteen headings of the table of contents, numbered as added, on page 0. */
    constructor()
      ensures Valid() && page == 0 && fresh(tableOfContents)
      ensures tableOfContents.Numbered()
      ensures tableOfContents.sections == [
        Heading(Section(1), "Control", 1),
        Heading(SubSection(1, 1), "Keyboard", 1),
        Heading(SubSubSection(1, 1, 1), "Help menu", 1),
        Heading(SubSubSection(1, 1, 2), "Exit window", 1),
        Heading(SubSubSection(1, 1, 3), "Start menu", 1),
        Heading(SubSubSection(1, 1, 4), "Game control", 1),
        Heading(SubSection(1, 2), "Mouse input", 2),
        Heading(SubSubSection(1, 2, 1), "Help menu", 2),
        Heading(SubSubSection(1, 2, 2), "Exit window", 2),
        Heading(SubSubSection(1, 2, 3), "Start menu", 3),
        Heading(Section(2), "Console arguments", 3),
        Heading(Section(3), "Menus", 4),
        Heading(SubSection(3, 1), "Help menu", 4),
        Heading(SubSection(3, 2), "Exit window", 4),
        Heading(SubSection(3, 3), "Game screen", 4),
        Heading(Section(4), "Gameplay", 5),
        Heading(SubSection(4, 1), "Play", 5),
        Heading(SubSection(4, 2), "Game over", 5)]
    {
      var table := NewHelpTable();
      tableOfContents := table;
      page := 0;
    }

    /** `on_key_pressed`: UP and DOWN turn the page back or on, round the six pages. */
    method OnKeyPressed(key: Key)
      requires Valid()
      modifies this`page
      ensures Valid()
      ensures page == match key
        case Arrow(Up) => TurnPage(old(page), false)
        case Arrow(Down) => TurnPage(old(page), true)
        case _ => old(page)
    {
      if key == Arrow(Up) {
        page := if page == 0 then PAGE_COUNT - 1 else page - 1;
      } else if key == Arrow(Down) {
        page := if page == PAGE_COUNT - 1 then 0 else page + 1;
      }
    }

    /**
     * `on_mouse_pressed` on a screen `height` rows high: a click on a heading of the table
     * goes to that heading's page, and a click on the page number at the bottom left acts as DOWN.
     */
    method OnMousePressed(height: nat, column: nat, row: nat)
      requires Valid() && height >= 1 && (row >= 2 ==> height >= 2)
      modifies this`page
      ensures Valid()
      ensures TableClick(height, row) ==>
        page == (var clicked := tableOfContents.PageClicked(height, old(page), row - 2);
                 if clicked.Some? then clicked.value else old(page))
      ensures row == height - 1 && column < 8 ==> page == TurnPage(old(page), true)
      ensures !TableClick(height, row) && !(row == height - 1 && column < 8) ==> page == old(page)
    {
      if row >= 2 && row < height - 2 {
        var clicked := tableOfContents.PageClicked(height, page, row - 2);
        if clicked.Some? {
          page := clicked.value;
        }
      }
      if row == height - 1 && column < 8 {
        OnKeyPressed(Arrow(Down));
      }
    }
  }
}

=== FILE: in_game.dfy ===
/**
 * `ScreenInGame` (src/game/screen.rs): the level being played, the grid as it was one move
 * earlier, the move counters and player positions, and the key handling that moves the
 * player, pushes boxes and keys, toggles the last move back and ends the level.
 */
module InGame {
  import opened Wrappers
  import opened Text
  import opened Tiles
  import opened Levels
  import opened LevelPacks
  import opened Keys
  import opened GameStates

  /** A cell position (x, y). */
  type Pos = (nat, nat)

  // ----- one step of the player -----

  /**
   * The tile the player's cell gets back before the player moves: the tile of the original
   * level without the player, box, key or door it may have held there.
   */
  function RestoredTile(original: Tile): (r: Tile)
    ensures r == Goal <==> IsGoalDerived(original)
    ensures !IsPushable(r) && r != Player && r != LockedDoor
    ensures r == original || r == Empty || r == Goal
  {
    if original == Player || original == Box || original == Key || original == LockedDoor then Empty
    else if original == BoxInGoal || original == KeyInGoal then Goal
    else original
  }

  function Dx(d: Direction): int {
    match d
    case Left => -1
    case Right => 1
    case _ => 0
  }

  function Dy(d: Direction): int {
    match d
    case Up => -1
    case Down => 1
    case _ => 0
  }

  /** The one-way tile that lets the player pass in direction `d`. */
  function OneWayTile(d: Direction): Tile {
    match d
    case Left => OneWayLeft
    case Up => OneWayUp
    case Right => OneWayRight
    case Down => OneWayDown
  }

  /** The tiles the player walks onto: Empty, Goal, and the one-way tile pointing along the move. */
  predicate Enterable(t: Tile, d: Direction) {
    t == Empty || t == Goal || t == OneWayTile(d)
  }

  /** A one-way tile is passable in its own direction only; walls, doors and secrets never are. */
  lemma EnterableTiles(t: Tile, d: Direction, e: Direction)
    requires Enterable(t, d) && Enterable(t, e) && d != e
    ensures t == Empty || t == Goal
  {
  }

  /**
   * The flat indices (x + y*width, as in `get_tile`) an arrow key touches: the player's cell,
   * the cell stepped onto and the cell beyond it, which is -1 when its coordinates would go
   * below zero.
   */
  datatype Cells = Cells(from: nat, to: nat, beyond: int)

  function CellsOf(width: nat, pos: Pos, d: Direction): Cells
    requires pos.0 + Dx(d) >= 0 && pos.1 + Dy(d) >= 0
  {
    var next := NextPos(pos, d);
    Cells(FlatIndex(pos.0, pos.1, width), FlatIndex(next.0, next.1, width),
          if next.0 + Dx(d) >= 0 && next.1 + Dy(d) >= 0 then FlatIndex(next.0 + Dx(d), next.1 + Dy(d), width) else -1)
  }

  /** The position one step from `pos`, when its coordinates do not go below zero. */
  function NextPos(pos: Pos, d: Direction): (r: Pos)
    requires pos.0 + Dx(d) >= 0 && pos.1 + Dy(d) >= 0
    ensures r != pos
  {
    (pos.0 + Dx(d), pos.1 + Dy(d))
  }

  /**
   * What a move demands of the grid in the source: the player's cell and the cell stepped onto
   * are in the tile vector (`get_tile(..).unwrap()` and `set_tile` panic otherwise) and their
   * coordinates do not go below zero (usize underflow), and when a box or key is pushed the
   * coordinates of the cell beyond do not either. Widths are never zero.
   */
  predicate CanStep(tiles: seq<Tile>, width: nat, pos: Pos, d: Direction) {
    && width > 0
    && pos.0 + Dx(d) >= 0 && pos.1 + Dy(d) >= 0
    && CellsOf(width, pos, d).from < |tiles|
    && CellsOf(width, pos, d).to < |tiles|
    && (IsPushable(tiles[CellsOf(width, pos, d).to]) ==> CellsOf(width, pos, d).beyond >= 0)
  }

  /** The three cells of a move are distinct flat indices. */
  lemma CellsDiffer(width: nat, pos: Pos, d: Direction)
    requires width > 0 && pos.0 + Dx(d) >= 0 && pos.1 + Dy(d) >= 0
    ensures var c := CellsOf(width, pos, d);
      c.to != c.from && (c.beyond >= 0 ==> c.beyond != c.from && c.beyond != c.to)
  {
  }

  /** The grid after an arrow key, whether the player moved, and the win flag. */
  datatype StepResult = StepResult(tiles: seq<Tile>, moved: bool, hasWon: bool)

  /** The grid with the player's cell set back to its restored tile. */
  function Restore(tiles: seq<Tile>, original: seq<Tile>, from: nat): (r: seq<Tile>)
    requires |original| == |tiles| && from < |tiles|
  {
    tiles[from := RestoredTile(original[from])]
  }

  /**
   * The move on the restored grid: walk onto an enterable cell or push the box or key there,
   * and stamp the player on the cell it ends on.
   */
  function Moved(restored: seq<Tile>, original: seq<Tile>, c: Cells, d: Direction): StepResult
    requires |original| == |restored| && c.from < |restored| && c.to < |restored|
    requires IsPushable(restored[c.to]) ==> c.beyond >= 0
  {
    if Enterable(restored[c.to], d) then StepResult(restored[c.to := Player], true, false)
    else if IsPushable(restored[c.to]) then
      var p := Push(restored, original, c.to, c.beyond);
      if p.Pushed? then StepResult(p.tiles[c.to := Player], true, p.won == Some(true))
      else StepResult(restored[c.from := Player], false, false)
    else StepResult(restored[c.from := Player], false, false)
  }

  /** The arrow-key step of `on_key_pressed`: restore the player's cell from the original level, then move. */
  function Step(tiles: seq<Tile>, original: seq<Tile>, width: nat, pos: Pos, d: Direction): StepResult
    requires |original| == |tiles| && CanStep(tiles, width, pos, d)
  {
    var c := CellsOf(width, pos, d);
    CellsDiffer(width, pos, d);
    Moved(Restore(tiles, original, c.from), original, c, d)
  }

  /**
   * The step rules: the player moves one cell in direction `d` when that cell is enterable, or
   * holds a box or key whose push succeeds; on anything else (a wall, a door, a secret, a
   * one-way tile pointing elsewhere, a blocked push) the player stays.
   */
  lemma StepRules(tiles: seq<Tile>, original: seq<Tile>, width: nat, pos: Pos, d: Direction)
    requires |original| == |tiles| && CanStep(tiles, width, pos, d)
    ensures var c := CellsOf(width, pos, d);
      Step(tiles, original, width, pos, d).moved <==>
        || Enterable(tiles[c.to], d)
        || (IsPushable(tiles[c.to]) && Push(Restore(tiles, original, c.from), original, c.to, c.beyond).Pushed?)
  {
    CellsDiffer(width, pos, d);
  }

  /**
   * After a step the grid keeps its size, the player stands on the cell stepped onto or on its
   * own, and a cell the player left shows its restored tile.
   */
  lemma StepStampsPlayer(tiles: seq<Tile>, original: seq<Tile>, width: nat, pos: Pos, d: Direction)
    requires |original| == |tiles| && CanStep(tiles, width, pos, d)
    ensures var r, c := Step(tiles, original, width, pos, d), CellsOf(width, pos, d);
      && |r.tiles| == |tiles|
      && r.tiles[if r.moved then c.to else c.from] == Player
      && (r.moved ==> r.tiles[c.from] == RestoredTile(original[c.from]))
  {
    var c := CellsOf(width, pos, d);
    CellsDiffer(width, pos, d);
    var restored := Restore(tiles, original, c.from);
    if !Enterable(restored[c.to], d) && IsPushable(restored[c.to]) {
      var p := Push(restored, original, c.to, c.beyond);
      if p.Pushed? {
        PushChangesTwoCells(restored, original, c.to, c.beyond);
      }
    }
  }

  /** A blocked move does not change a grid in which the player stands on its own cell. */
  lemma StepBlockedKeepsGrid(tiles: seq<Tile>, original: seq<Tile>, width: nat, pos: Pos, d: Direction)
    requires |original| == |tiles| && CanStep(tiles, width, pos, d)
    requires tiles[CellsOf(width, pos, d).from] == Player
    requires !Step(tiles, original, width, pos, d).moved
    ensures Step(tiles, original, width, pos, d) == StepResult(tiles, false, false)
  {
    var from := CellsOf(width, pos, d).from;
    assert tiles[from := RestoredTile(original[from])][from := Player] == tiles;
  }

  /** No open goal anywhere in the grid. */
  predicate NoOpenGoal(tiles: seq<Tile>) {
    forall i | 0 <= i < |tiles| :: !IsOpenGoal(tiles[i])
  }

  /**
   * A box pushed onto a goal wins exactly when, once the player stands on the pushed-from
   * cell, no goal is left open and that cell had no goal under it in the original level.
   */
  lemma {:induction false} PushWinOnceStamped(tiles: seq<Tile>, original: seq<Tile>, from: nat, to: nat)
    requires |original| == |tiles|
    requires Push(tiles, original, from, to).Pushed? && Push(tiles, original, from, to).won.Some?
    ensures var p := Push(tiles, original, from, to);
      p.won.value <==> NoOpenGoal(p.tiles[from := Player]) && !IsGoalDerived(original[from])
  {
    var p := Push(tiles, original, from, to);
    PushWinMeaning(tiles, original, from, to);
    var stamped := p.tiles[from := Player];
    if p.won.value {
      forall i | 0 <= i < |stamped| ensures !IsOpenGoal(stamped[i]) {
        if i != from {
          assert stamped[i] == p.tiles[i];
        }
      }
    } else if NoOpenGoal(stamped) {
      forall i | 0 <= i < |p.tiles| && i != from ensures !IsOpenGoal(p.tiles[i]) {
        assert stamped[i] == p.tiles[i];
      }
    }
  }

  /**
   * The win rule: a step wins exactly when it pushes a box onto a goal, no goal is left open
   * in the resulting grid, and the cell the player now stands on had no goal under it in the
   * original level.
   */
  lemma StepWinRule(tiles: seq<Tile>, original: seq<Tile>, width: nat, pos: Pos, d: Direction)
    requires |original| == |tiles| && CanStep(tiles, width, pos, d)
    ensures var r, c := Step(tiles, original, width, pos, d), CellsOf(width, pos, d);
      r.hasWon <==>
        && r.moved
        && IsBox(tiles[c.to])
        && 0 <= c.beyond < |tiles| && tiles[c.beyond] == Goal
        && NoOpenGoal(r.tiles)
        && !IsGoalDerived(original[c.to])
  {
    var c := CellsOf(width, pos, d);
    CellsDiffer(width, pos, d);
    var restored := Restore(tiles, original, c.from);
    if !Enterable(restored[c.to], d) && IsPushable(restored[c.to]) {
      var p := Push(restored, original, c.to, c.beyond);
      if p.Pushed? && p.won.Some? {
        PushWinOnceStamped(restored, original, c.to, c.beyond);
      } else if p.Pushed? {
        PushWritesWinOnlyForBoxIntoGoal(restored, original, c.to, c.beyond);
      }
    }
  }

  // ----- the state the arrow and undo keys change -----

  /**
   * The fields of `ScreenInGame` the keys change, as a value: the grid, the grid before the
   * last move, the move counts and the player positions.
   */
  datatype Play = Play(now: seq<Tile>, lastStep: seq<Tile>, moves: U32, oldMoves: U32, pos: Pos, oldPos: Pos)

  /** The player stands on its cell in the grid, and on its old cell in the grid of the last step. */
  predicate Stamped(p: Play, width: nat) {
    && FlatIndex(p.pos.0, p.pos.1, width) < |p.now|
    && p.now[FlatIndex(p.pos.0, p.pos.1, width)] == Player
    && FlatIndex(p.oldPos.0, p.oldPos.1, width) < |p.lastStep|
    && p.lastStep[FlatIndex(p.oldPos.0, p.oldPos.1, width)] == Player
  }

  /** `moves += 1` on the u32 move counter, wrapping around as a release build does. */
  function NextMoveCount(moves: U32): (r: U32)
    ensures moves < U32_LIMIT - 1 ==> r == moves + 1
    ensures moves == U32_LIMIT - 1 ==> r == 0
  {
    (moves + 1) % U32_LIMIT
  }

  /**
   * An arrow key: the step, and when the player moved, the counter goes up by one (wrapping as
   * a u32 does) and the grid, move count and position before the move become the last step.
   */
  function ArrowKey(p: Play, original: seq<Tile>, width: nat, d: Direction): (Play, bool)
    requires |original| == |p.now| && CanStep(p.now, width, p.pos, d)
  {
    var s := Step(p.now, original, width, p.pos, d);
    if s.moved then (Play(s.tiles, p.now, NextMoveCount(p.moves), p.moves, NextPos(p.pos, d), p.pos), s.hasWon)
    else (p.(now := s.tiles), s.hasWon)
  }

  /** The `z` key: swaps the grid, the move counts and the positions with those of the last step. */
  function Toggle(p: Play): (r: Play) {
    Play(p.lastStep, p.now, p.oldMoves, p.moves, p.oldPos, p.pos)
  }

  /** Pressing `z` twice changes nothing. */
  lemma ToggleTwice(p: Play)
    ensures Toggle(Toggle(p)) == p
  {
  }

  /** `z` keeps the player stamped in both grids. */
  lemma ToggleKeepsStamped(p: Play, width: nat)
    requires Stamped(p, width)
    ensures Stamped(Toggle(p), width)
  {
  }

  /**
   * A move counts one more move and remembers the state before it; a blocked move changes
   * nothing at all, and an arrow key keeps the player stamped.
   */
  lemma ArrowKeyBookkeeping(p: Play, original: seq<Tile>, width: nat, d: Direction)
    requires |original| == |p.now| && CanStep(p.now, width, p.pos, d)
    requires Stamped(p, width)
    ensures var (r, won) := ArrowKey(p, original, width, d);
      && Stamped(r, width)
      && |r.now| == |p.now|
      && (r.pos != p.pos ==>
           r.moves == NextMoveCount(p.moves) && r.oldMoves == p.moves
           && r.lastStep == p.now && r.oldPos == p.pos)
      && (r.pos == p.pos ==> r == p && !won)
  {
    StepStampsPlayer(p.now, original, width, p.pos, d);
    if !Step(p.now, original, width, p.pos, d).moved {
      StepBlockedKeepsGrid(p.now, original, width, p.pos, d);
    }
  }

  /** `z` right after a move takes the grid, move count and position back to before the move. */
  lemma ToggleUndoesMove(p: Play, original: seq<Tile>, width: nat, d: Direction)
    requires |original| == |p.now| && CanStep(p.now, width, p.pos, d)
    requires ArrowKey(p, original, width, d).0.pos != p.pos
    ensures var r := Toggle(ArrowKey(p, original, width, d).0);
      r.now == p.now && r.moves == p.moves && r.pos == p.pos
  {
  }

  /** An arrow key in terms of the step it takes. */
  lemma ArrowKeyOfStep(p: Play, original: seq<Tile>, width: nat, d: Direction, s: StepResult)
    requires |original| == |p.now| && CanStep(p.now, width, p.pos, d)
    requires s == Step(p.now, original, width, p.pos, d)
    ensures ArrowKey(p, original, width, d) ==
      if s.moved then (Play(s.tiles, p.now, NextMoveCount(p.moves), p.moves, NextPos(p.pos, d), p.pos), s.hasWon)
      else (p.(now := s.tiles), s.hasWon)
  {
  }

  /** On level end, the first uncompleted level moves past the one just won, and never back. */
  function LevelEndMin(minLevelNotCompleted: nat, currentLevel: nat): (r: nat)
    ensures r >= minLevelNotCompleted && r > currentLevel
    ensures r == minLevelNotCompleted || r == currentLevel + 1
  {
    if currentLevel >= minLevelNotCompleted then currentLevel + 1 else minLevelNotCompleted
  }

  // ----- finding the player when a level starts -----

  /** The tile at (x, y) as `get_tile` reads it: None past the end of the tile vector. */
  function TileAt(tiles: seq<Tile>, width: nat, x: nat, y: nat): Option<Tile> {
    var i := FlatIndex(x, y, width);
    if i < |tiles| then Some(tiles[i]) else None
  }

  predicate IsPlayerAt(tiles: seq<Tile>, width: nat, q: Pos) {
    TileAt(tiles, width, q.0, q.1) == Some(Player)
  }

  /** `a` comes before `b` in the scan of `start_level`: column by column, each top to bottom. */
  predicate ScanBefore(a: Pos, b: Pos) {
    a.0 < b.0 || (a.0 == b.0 && a.1 < b.1)
  }

  /** The scan of `start_level` from (x, y) on: the first cell holding the player. */
  function FindPlayerFrom(tiles: seq<Tile>, width: nat, height: nat, x: nat, y: nat): Option<Pos>
    decreases width - x, height - y
  {
    if x >= width then None
    else if y >= height then FindPlayerFrom(tiles, width, height, x + 1, 0)
    else if IsPlayerAt(tiles, width, (x, y)) then Some((x, y))
    else FindPlayerFrom(tiles, width, height, x, y + 1)
  }

  function FindPlayer(g: Grid): Option<Pos> {
    FindPlayerFrom(g.tiles, g.width, g.height, 0, 0)
  }

  /** The cells of the grid from (x, y) on in scan order. */
  predicate FromOn(q: Pos, width: nat, height: nat, x: nat, y: nat) {
    q.0 < width && q.1 < height && !ScanBefore(q, (x, y))
  }

  lemma {:induction false} FindPlayerFromMeaning(tiles: seq<Tile>, width: nat, height: nat, x: nat, y: nat)
    ensures var r := FindPlayerFrom(tiles, width, height, x, y);
      && (r.Some? ==>
           FromOn(r.value, width, height, x, y) && IsPlayerAt(tiles, width, r.value)
           && forall q | FromOn(q, width, height, x, y) && ScanBefore(q, r.value) :: !IsPlayerAt(tiles, width, q))
      && (r.None? ==> forall q | FromOn(q, width, height, x, y) :: !IsPlayerAt(tiles, width, q))
    decreases width - x, height - y
  {
    if x >= width {
    } else if y >= height {
      FindPlayerFromMeaning(tiles, width, height, x + 1, 0);
      forall q | FromOn(q, width, height, x, y) ensures FromOn(q, width, height, x + 1, 0) {
      }
    } else if !IsPlayerAt(tiles, width, (x, y)) {
      FindPlayerFromMeaning(tiles, width, height, x, y + 1);
      forall q | FromOn(q, width, height, x, y) && q != (x, y) ensures FromOn(q, width, height, x, y + 1) {
      }
    }
  }

  /**
   * `start_level` finds the first cell holding the player in the order columns left to right,
   * each top to bottom, and finds nothing exactly when no cell of the grid holds the player.
   */
  lemma FindPlayerMeaning(g: Grid)
    ensures var r := FindPlayer(g);
      && (r.Some? ==>
           r.value.0 < g.width && r.value.1 < g.height && IsPlayerAt(g.tiles, g.width, r.value)
           && forall q: Pos | q.0 < g.width && q.1 < g.height && ScanBefore(q, r.value) :: !IsPlayerAt(g.tiles, g.width, q))
      && (r.None? <==> forall q: Pos | q.0 < g.width && q.1 < g.height :: !IsPlayerAt(g.tiles, g.width, q))
  {
    FindPlayerFromMeaning(g.tiles, g.width, g.height, 0, 0);
  }

  /** The state `start_level` leaves: the level twice, no moves, the player where the scan found it. */
  function Started(g: Grid, pos: Pos, oldPos: Pos): Play {
    var found := FindPlayer(g);
    Play(g.tiles, g.tiles, 0, 0,
         if found.Some? then found.value else pos,
         if found.Some? then found.value else oldPos)
  }

  /** A level with a player starts with the player stamped in both grids and nothing to undo. */
  lemma StartedStamped(g: Grid, pos: Pos, oldPos: Pos)
    requires FindPlayer(g).Some?
    ensures Stamped(Started(g, pos, oldPos), g.width)
    ensures Toggle(Started(g, pos, oldPos)) == Started(g, pos, oldPos)
  {
    FindPlayerMeaning(g);
  }

  // ----- the screen -----

  class ScreenInGame {
    var moves: U32
    var oldMoves: U32
    var playerPos: Pos
    var oldPlayerPos: Pos
    /** `level_now` and `level_now_last_step`; null stands for None before the first `start_level`. */
    var levelNow: Level?
    var levelNowLastStep: Level?
    var continueFlag: bool
    var continueLevelAddFlag: bool
    var gameOverFlag: bool

    /** A level is being played: two distinct well-formed grids of the same dimensions. */
    ghost predicate Valid()
      reads this, levelNow, levelNowLastStep
    {
      && levelNow != null && levelNowLastStep != null
      && levelNow != levelNowLastStep
      && levelNow.Valid() && levelNowLastStep.Valid()
      && levelNowLastStep.width == levelNow.width && levelNowLastStep.height == levelNow.height
    }

    function State(): Play
      requires levelNow != null && levelNowLastStep != null
      reads this, levelNow, levelNowLastStep
    {
      Play(levelNow.tiles, levelNowLastStep.tiles, moves, oldMoves, playerPos, oldPlayerPos)
    }

    /** The screen plays a copy of `original`: the key handlers read the original level through it. */
    ghost predicate Plays(original: Level)
      reads this, levelNow, levelNowLastStep, original
    {
      && Valid() && original.Valid()
      && original != levelNow && original != levelNowLastStep
      && original.width == levelNow.width && original.height == levelNow.height
    }

    /** `ScreenInGame::new`: no level yet, all counters and flags zero. */
    constructor()
      ensures levelNow == null && levelNowLastStep == null
      ensures moves == 0 && oldMoves == 0 && playerPos == (0, 0) && oldPlayerPos == (0, 0)
      ensures !continueFlag && !continueLevelAddFlag && !gameOverFlag
    {
      moves, oldMoves := 0, 0;
      playerPos, oldPlayerPos := (0, 0), (0, 0);
      levelNow, levelNowLastStep := null, null;
      continueFlag, continueLevelAddFlag, gameOverFlag := false, false, false;
    }

    /**
     * `start_level`: copies the level twice, clears the move counts and puts the player on
     * the first player cell of the scan; with no player cell the positions stay as they were.
     */
    method StartLevel(level: Level)
      modifies this`moves, this`oldMoves, this`playerPos, this`oldPlayerPos, this`levelNow, this`levelNowLastStep
      ensures fresh(levelNow) && fresh(levelNowLastStep) && levelNow != levelNowLastStep
      ensures levelNow.Contents() == level.Contents() && levelNowLastStep.Contents() == level.Contents()
      ensures State() == Started(level.Contents(), old(playerPos), old(oldPlayerPos))
      ensures level.Valid() ==> Valid()
    {
      oldMoves := 0;
      moves := 0;
      levelNow := new Level.Clone(level);
      levelNowLastStep := new Level.Clone(level);
      var found := FindPlayerIn(level);
      if found.Some? {
        playerPos := found.value;
        oldPlayerPos := found.value;
      }
    }

    /** The scan of `start_level`: columns left to right, each column top to bottom. */
    static method FindPlayerIn(level: Level) returns (found: Option<Pos>)
      ensures found == FindPlayer(level.Contents())
    {
      found := None;
      var i := 0;
      label outer:
      while i < level.width
        invariant 0 <= i <= level.width
        invariant found.None?
        invariant FindPlayerFrom(level.tiles, level.width, level.height, i, 0) == FindPlayer(level.Contents())
      {
        var j := 0;
        while j < level.height
          invariant 0 <= j <= level.height
          invariant found.None?
          invariant FindPlayerFrom(level.tiles, level.width, level.height, i, j) == FindPlayer(level.Contents())
        {
          var tile := level.GetTile(i, j);
          if tile == Some(Player) {
            found := Some((i, j));
            break outer;
          }
          j := j + 1;
        }
        i := i + 1;
      }
    }

    /** The `z` key: `mem::swap` of the grids, the move counts and the positions. */
    method ToggleLastStep()
      modifies this`moves, this`oldMoves, this`playerPos, this`oldPlayerPos, this`levelNow, this`levelNowLastStep
      ensures levelNow == old(levelNowLastStep) && levelNowLastStep == old(levelNow)
      ensures moves == old(oldMoves) && oldMoves == old(moves)
      ensures playerPos == old(oldPlayerPos) && oldPlayerPos == old(playerPos)
      ensures old(Valid()) ==> Valid() && State() == Toggle(old(State()))
    {
      levelNow, levelNowLastStep := levelNowLastStep, levelNow;
      moves, oldMoves := oldMoves, moves;
      playerPos, oldPlayerPos := oldPlayerPos, playerPos;
    }

    /**
     * An arrow key: restores the player's cell from `original`, steps or pushes, stamps the
     * player, and after a move keeps the grid before it as the last step.
     */
    method OnArrowKey(original: Level, d: Direction) returns (hasWon: bool)
      requires Plays(original)
      requires CanStep(levelNow.tiles, levelNow.width, playerPos, d)
      modifies this`moves, this`oldMoves, this`playerPos, this`oldPlayerPos, this`levelNowLastStep, levelNow
      ensures Plays(original)
      ensures levelNowLastStep == old(levelNowLastStep) || fresh(levelNowLastStep)
      ensures (State(), hasWon) == ArrowKey(old(State()), old(original.tiles), old(levelNow.width), d)
    {
      ghost var p0, orig := State(), original.tiles;
      var levelNowBeforeMove := new Level.Clone(levelNow);
      var start := playerPos;
      assert levelNow.tiles == p0.now && original.tiles == orig;
      playerPos, hasWon := StepLevel(levelNow, original, start, d);
      ghost var s := Step(p0.now, orig, levelNow.width, start, d);
      ArrowKeyOfStep(p0, orig, levelNow.width, d, s);
      if playerPos != start {
        oldMoves := moves;
        moves := NextMoveCount(moves);
        oldPlayerPos := start;
        levelNowLastStep := levelNowBeforeMove;
      }
    }

    // ----- the key handler -----

    /** The fields that `start_level`, `z` and the arrow keys write. */
    ghost function PlayFields(): (Level?, Level?, U32, U32, Pos, Pos)
      reads this
    {
      (levelNow, levelNowLastStep, moves, oldMoves, playerPos, oldPlayerPos)
    }

    ghost function Flags(): (bool, bool, bool)
      reads this
    {
      (continueFlag, continueLevelAddFlag, gameOverFlag)
    }

    /** `start_level` of `level` ran: two new grids holding it, the player found again. */
    twostate predicate Restarted(level: Level)
      reads this, levelNow, levelNowLastStep, level
    {
      && levelNow != null && levelNowLastStep != null
      && fresh(levelNow) && fresh(levelNowLastStep) && levelNow != levelNowLastStep
      && State() == Started(level.Contents(), old(playerPos), old(oldPlayerPos))
      && (level.Valid() ==> Valid())
    }

    /**
     * What the key handler needs of the screen, the game and the current `pack` so that
     * nothing panics: a level index that can be incremented at the level end, a level to
     * restart or to go on to, and for an arrow key a level in play
     * (the original of the current level stays apart from the screen's two grids) whose walls
     * keep the player and the pushed tile inside the grid.
     */
    ghost predicate Ready(game: GameState, pack: LevelPack, key: Key)
      reads this, levelNow, levelNowLastStep, game, pack, PackLevels(pack)
    {
      if continueFlag then
        && game.levelIndex + 1 < USIZE_LIMIT
        && (key == Enter || key == Char('r') ==> game.levelIndex < |pack.levels|)
      else
        && (key == Char('r') || key.Arrow? ==> game.levelIndex < |pack.levels|)
        && (key.Arrow? ==>
              && pack.Valid()
              && Plays(pack.levels[game.levelIndex].level)
              && CanStep(levelNow.tiles, levelNow.width, playerPos, key.dir))
    }

    /** The current pack, if one is selected, keeps its levels, its progress and its sums. */
    twostate predicate PackKept(game: GameState)
      reads game, if game.levelPackIndex < |game.levelPacks| then {game.levelPacks[game.levelPackIndex]} else {}
    {
      game.levelPackIndex < |game.levelPacks| ==>
        var pack := game.levelPacks[game.levelPackIndex];
        && pack.levels == old(pack.levels) && pack.minLevelNotCompleted == old(pack.minLevelNotCompleted)
        && pack.bestTimeSum == old(pack.bestTimeSum) && pack.bestMovesSum == old(pack.bestMovesSum)
    }

    /** The grid in play, if there is one and it is the same object as before, keeps its tiles. */
    twostate predicate GridKept()
      reads this, levelNow
    {
      levelNow != null && levelNow == old(levelNow) ==> levelNow.tiles == old(levelNow.tiles)
    }

    /** The level objects of a pack. */
    ghost function PackLevels(pack: LevelPack): set<Level>
      reads pack
    {
      set k | 0 <= k < |pack.levels| :: pack.levels[k].level
    }

    /**
     * A key while "Level completed!" is shown, `idx` being the level just completed: the pack
     * records it as completed the first time; ENTER goes on to the next level, or after the
     * last one ends the game; `r` plays the level again; any other key leaves the message up.
     */
    twostate predicate LevelEndEffect(game: GameState, pack: LevelPack, key: Key)
      reads this, levelNow, levelNowLastStep, game, pack, PackLevels(pack)
    {
      var idx := old(game.levelIndex);
      && !continueLevelAddFlag
      && pack.minLevelNotCompleted
         == (if old(continueLevelAddFlag) then LevelEndMin(old(pack.minLevelNotCompleted), idx)
             else old(pack.minLevelNotCompleted))
      && pack.levels == old(pack.levels)
      && pack.bestTimeSum == old(pack.bestTimeSum) && pack.bestMovesSum == old(pack.bestMovesSum)
      && if key == Enter && idx + 1 == |pack.levels| then
           && !continueFlag && gameOverFlag
           && game.levelIndex == idx && PlayFields() == old(PlayFields()) && GridKept()
         else if key == Enter then
           && !continueFlag && gameOverFlag == old(gameOverFlag)
           && game.levelIndex == idx + 1 < |pack.levels| && Restarted(pack.levels[idx + 1].level)
         else if key == Char('r') then
           && !continueFlag && gameOverFlag == old(gameOverFlag)
           && game.levelIndex == idx < |pack.levels| && Restarted(pack.levels[idx].level)
         else
           && continueFlag && gameOverFlag == old(gameOverFlag)
           && game.levelIndex == idx && PlayFields() == old(PlayFields()) && GridKept()
    }

    /** The level-end branch of `on_key_pressed`. */
    method OnLevelEnd(game: GameState, pack: LevelPack, key: Key)
      requires continueFlag && Ready(game, pack, key)
      modifies this`continueFlag, this`continueLevelAddFlag, this`gameOverFlag, game`levelIndex, pack`minLevelNotCompleted
      modifies this`moves, this`oldMoves, this`playerPos, this`oldPlayerPos, this`levelNow, this`levelNowLastStep
      ensures LevelEndEffect(game, pack, key)
    {
      var idx := game.levelIndex;
      if continueLevelAddFlag {
        if idx >= pack.minLevelNotCompleted {
          pack.SetMinLevelNotCompleted(idx + 1);
        }
        continueLevelAddFlag := false;
      }
      if key == Enter {
        continueFlag := false;
        if idx + 1 == |pack.levels| {
          gameOverFlag := true;
          return;
        }
        game.levelIndex := idx + 1;
        StartLevel(pack.levels[idx + 1].level);
      } else if key == Char('r') {
        continueFlag := false;
        StartLevel(pack.levels[idx].level);
      }
    }

    /**
     * An arrow key on level `idx` of `pack`: the step or push of `ArrowKey`; a move that wins
     * shows "Level completed!" and keeps the better stats for the level in the pack.
     */
    twostate predicate ArrowKeyEffect(pack: LevelPack, idx: nat, time: U64, step: (Play, bool))
      reads this, levelNow, levelNowLastStep, pack
    {
      && levelNow != null && levelNowLastStep != null
      && State() == step.0
      && gameOverFlag == old(gameOverFlag)
      && pack.minLevelNotCompleted == old(pack.minLevelNotCompleted)
      && if step.1 then
           && continueFlag && continueLevelAddFlag
           && idx < |old(pack.levels)|
           && pack.levels == old(pack.levels)[idx := Improved(old(pack.levels)[idx], time, moves)]
           && pack.Valid()
         else
           && Flags() == old(Flags()) && pack.levels == old(pack.levels)
           && pack.bestTimeSum == old(pack.bestTimeSum) && pack.bestMovesSum == old(pack.bestMovesSum)
    }

    /** The arrow-key branch of `on_key_pressed`. */
    method PlayArrowKey(pack: LevelPack, idx: USize, d: Direction, time: U64)
      requires idx < |pack.levels| && pack.Valid() && Plays(pack.levels[idx].level)
      requires CanStep(levelNow.tiles, levelNow.width, playerPos, d)
      modifies this`continueFlag, this`continueLevelAddFlag, levelNow, pack
      modifies this`moves, this`oldMoves, this`playerPos, this`oldPlayerPos, this`levelNowLastStep
      ensures ArrowKeyEffect(pack, idx, time, ArrowKey(old(State()), old(pack.levels[idx].level.tiles), old(levelNow.width), d))
    {
      var original := pack.levels[idx].level;
      ghost var res := ArrowKey(State(), original.tiles, levelNow.width, d);
      var hasWon := OnArrowKey(original, d);
      if hasWon {
        RecordWin(pack, idx, time);
      }
    }

    /** A won level: "Level completed!" and the better stats kept for level `idx` of `pack`. */
    method RecordWin(pack: LevelPack, idx: USize, time: U64)
      requires pack.Valid()
      modifies this`continueFlag, this`continueLevelAddFlag, pack`levels, pack`bestTimeSum, pack`bestMovesSum
      ensures continueFlag && continueLevelAddFlag && pack.Valid()
      ensures idx < |old(pack.levels)| ==> pack.levels == old(pack.levels)[idx := Improved(old(pack.levels)[idx], time, moves)]
    {
      continueFlag := true;
      continueLevelAddFlag := true;
      var _ := pack.UpdateStats(idx, time, moves);
    }

    /**
     * `z`, `r` or an arrow key while a level is played, `idx` being the current level: `z`
     * toggles the last move back, `r` starts the level again, an arrow key steps or pushes,
     * and a move that wins shows "Level completed!" and keeps the better stats for the level;
     * any other key changes nothing.
     */
    twostate predicate PlayKeyEffect(game: GameState, pack: LevelPack, key: Key, time: U64)
      reads this, levelNow, levelNowLastStep, game, pack, PackLevels(pack)
    {
      var idx := old(game.levelIndex);
      && game.levelIndex == idx && gameOverFlag == old(gameOverFlag)
      && if key.Arrow? then
           && idx < |old(pack.levels)|
           && var original := old(pack.levels)[idx].level;
           && old(Plays(original))
           && old(CanStep(levelNow.tiles, levelNow.width, playerPos, key.dir))
           && ArrowKeyEffect(pack, idx, time, ArrowKey(old(State()), old(original.tiles), old(levelNow.width), key.dir))
         else
           && Flags() == old(Flags()) && pack.levels == old(pack.levels)
           && pack.minLevelNotCompleted == old(pack.minLevelNotCompleted)
           && pack.bestTimeSum == old(pack.bestTimeSum) && pack.bestMovesSum == old(pack.bestMovesSum)
           && if key == Char('z') then
                && PlayFields() == (old(levelNowLastStep), old(levelNow), old(oldMoves), old(moves), old(oldPlayerPos), old(playerPos))
                && (old(Valid()) ==> Valid() && State() == Toggle(old(State())))
              else if key == Char('r') then
                idx < |pack.levels| && Restarted(pack.levels[idx].level)
              else
                PlayFields() == old(PlayFields()) && GridKept()
    }

    /** The branches of `on_key_pressed` that play the level. */
    method OnPlayKey(game: GameState, pack: LevelPack, key: Key, time: U64)
      requires !continueFlag && Ready(game, pack, key)
      modifies this`continueFlag, this`continueLevelAddFlag, pack
      modifies if key.Arrow? then {levelNow} else {}
      modifies this`moves, this`oldMoves, this`playerPos, this`oldPlayerPos, this`levelNow, this`levelNowLastStep
      ensures PlayKeyEffect(game, pack, key, time)
    {
      var idx := game.levelIndex;
      if key == Char('z') {
        ToggleLastStep();
      } else if key == Char('r') {
        StartLevel(pack.levels[idx].level);
      } else if key.Arrow? {
        PlayArrowKey(pack, idx, key.dir, time);
      }
    }

    /** `on_set_screen`: entering the screen starts the selected level of the selected pack. */
    method OnSetScreen(game: GameState)
      requires game.levelPackIndex < |game.levelPacks|
      requires game.levelIndex < |game.levelPacks[game.levelPackIndex].levels|
      modifies this`moves, this`oldMoves, this`playerPos, this`oldPlayerPos, this`levelNow, this`levelNowLastStep
      ensures Restarted(game.levelPacks[game.levelPackIndex].levels[game.levelIndex].level)
    {
      StartLevel(game.levelPacks[game.levelPackIndex].levels[game.levelIndex].level);
    }

    /**
     * `on_key_pressed`: with the "Back to level selection?" dialog open, `y` leaves for the
     * level selection and `n` closes it; ESC leaves after the game is over and otherwise opens
     * the dialog; F1 opens the help page; with a level pack selected the key then goes to the
     * level end or to the level in play. `time` is the play time shown, in milliseconds.
     */
    method OnKeyPressed(game: GameState, key: Key, time: U64)
      requires var packs := game.levelPacks;
        !game.dialogOpen && key != Esc && key != F1 && game.levelPackIndex < |packs|
        ==> Ready(game, packs[game.levelPackIndex], key)
      modifies this`continueFlag, this`continueLevelAddFlag, this`gameOverFlag
      modifies if !game.dialogOpen && !continueFlag && key.Arrow? then {levelNow} else {}
      modifies this`moves, this`oldMoves, this`playerPos, this`oldPlayerPos, this`levelNow, this`levelNowLastStep
      modifies game`dialogOpen, game`helpOpen, game`screen, game`levelIndex
      modifies if game.levelPackIndex < |game.levelPacks| then {game.levelPacks[game.levelPackIndex]} else {}
      ensures old(game.dialogOpen) ==>
        && PlayFields() == old(PlayFields()) && game.levelIndex == old(game.levelIndex)
        && game.helpOpen == old(game.helpOpen) && PackKept(game) && GridKept()
        && if key == Char('y') then
             !game.dialogOpen && game.screen == SelectLevel && Flags() == (false, false, false)
           else
             game.dialogOpen == (key != Char('n')) && game.screen == old(game.screen) && Flags() == old(Flags())
      ensures !old(game.dialogOpen) && key == Esc ==>
        && PlayFields() == old(PlayFields()) && game.levelIndex == old(game.levelIndex)
        && game.helpOpen == old(game.helpOpen) && PackKept(game) && GridKept()
        && if old(gameOverFlag) then
             !game.dialogOpen && game.screen == SelectLevel && Flags() == (false, false, false)
           else
             game.dialogOpen && game.screen == old(game.screen) && Flags() == old(Flags())
      ensures !old(game.dialogOpen) && key == F1 ==>
        && game.helpOpen && PlayFields() == old(PlayFields()) && Flags() == old(Flags())
        && game.levelIndex == old(game.levelIndex) && game.screen == old(game.screen)
        && game.dialogOpen == old(game.dialogOpen) && PackKept(game) && GridKept()
      ensures !old(game.dialogOpen) && key != Esc && key != F1 ==>
        && game.dialogOpen == old(game.dialogOpen) && game.screen == old(game.screen)
        && game.helpOpen == old(game.helpOpen)
        && if game.levelPackIndex < |game.levelPacks| then
             var pack := game.levelPacks[game.levelPackIndex];
             if old(continueFlag) then LevelEndEffect(game, pack, key) else PlayKeyEffect(game, pack, key, time)
           else
             && PlayFields() == old(PlayFields()) && Flags() == old(Flags()) && game.levelIndex == old(game.levelIndex)
             && GridKept()
    {
      if game.dialogOpen {
        if key == Char('y') {
          game.dialogOpen := false;
          continueFlag, continueLevelAddFlag, gameOverFlag := false, false, false;
          game.screen := SelectLevel;
        } else if key == Char('n') {
          game.dialogOpen := false;
        }
        return;
      }
      if key == Esc {
        if gameOverFlag {
          continueFlag, continueLevelAddFlag, gameOverFlag := false, false, false;
          game.screen := SelectLevel;
          return;
        }
        game.dialogOpen := true;
        return;
      }
      if key == F1 {
        game.helpOpen := true;
        return;
      }
      if game.levelPackIndex >= |game.levelPacks| {
        return;
      }
      var pack := game.levelPacks[game.levelPackIndex];
      if continueFlag {
        OnLevelEnd(game, pack, key);
      } else {
        OnPlayKey(game, pack, key, time);
      }
    }
  }

  /**
   * The grid part of an arrow key on `level`, the screen's current grid: restore the player's
   * cell, then step or push and stamp the player; returns the new position and the win flag.
   */
  method StepLevel(level: Level, original: Level, pos: Pos, d: Direction) returns (newPos: Pos, hasWon: bool)
    requires level.Valid() && original.Valid() && level != original
    requires level.width == original.width && level.height == original.height
    requires CanStep(level.tiles, level.width, pos, d)
    modifies level
    ensures var s := Step(old(level.tiles), original.tiles, level.width, pos, d);
      && level.tiles == s.tiles && hasWon == s.hasWon
      && newPos == if s.moved then NextPos(pos, d) else pos
    ensures level.Valid()
  {
    ghost var before, c := level.tiles, CellsOf(level.width, pos, d);
    CellsDiffer(level.width, pos, d);
    RestorePlayerCell(level, original, pos);
    assert level.tiles == Restore(before, original.tiles, c.from);
    newPos, hasWon := MovePlayer(level, original, pos, d);
  }

  /** The first part of an arrow key: the player's cell gets its restored tile from `original`. */
  method RestorePlayerCell(level: Level, original: Level, pos: Pos)
    requires |original.tiles| == |level.tiles| && level != original
    requires FlatIndex(pos.0, pos.1, level.width) < |level.tiles|
    requires original.width == level.width
    modifies level
    ensures level.tiles == Restore(old(level.tiles), original.tiles, FlatIndex(pos.0, pos.1, level.width))
  {
    var tile := original.GetTile(pos.0, pos.1).value;
    if tile == Player || tile == Box || tile == Key || tile == LockedDoor {
      tile := Empty;
    } else if tile == BoxInGoal || tile == KeyInGoal {
      tile := Goal;
    }
    level.SetTile(pos.0, pos.1, tile);
  }

  /**
   * The rest of an arrow key: step onto the next cell or push what is there, and stamp the
   * player on the cell it ends on; returns the player's new position and the win flag.
   */
  method MovePlayer(level: Level, original: Level, pos: Pos, d: Direction) returns (newPos: Pos, hasWon: bool)
    requires level.Valid() && original.Valid() && level != original
    requires level.width == original.width && level.height == original.height
    requires CanStep(level.tiles, level.width, pos, d)
    modifies level
    ensures var s := Moved(old(level.tiles), original.tiles, CellsOf(level.width, pos, d), d);
      && level.tiles == s.tiles && hasWon == s.hasWon
      && newPos == if s.moved then NextPos(pos, d) else pos
    ensures |level.tiles| == old(|level.tiles|)
  {
    var next := NextPos(pos, d);
    var target := level.GetTile(next.0, next.1).value;
    if Enterable(target, d) {
      newPos := next;
      level.SetTile(next.0, next.1, Player);
      hasWon := false;
    } else if IsPushable(target) {
      newPos, hasWon := PushNext(level, original, pos, d);
    } else {
      newPos := pos;
      level.SetTile(pos.0, pos.1, Player);
      hasWon := false;
    }
  }

  /** An arrow key onto a box or key: push it, and stamp the player where it ends up. */
  method PushNext(level: Level, original: Level, pos: Pos, d: Direction) returns (newPos: Pos, hasWon: bool)
    requires level.Valid() && original.Valid() && level != original
    requires level.width == original.width && level.height == original.height
    requires CanStep(level.tiles, level.width, pos, d)
    requires var to := CellsOf(level.width, pos, d).to;
      !Enterable(level.tiles[to], d) && IsPushable(level.tiles[to])
    modifies level
    ensures var s := Moved(old(level.tiles), original.tiles, CellsOf(level.width, pos, d), d);
      && level.tiles == s.tiles && hasWon == s.hasWon
      && newPos == if s.moved then NextPos(pos, d) else pos
    ensures |level.tiles| == old(|level.tiles|)
  {
    ghost var before, c := level.tiles, CellsOf(level.width, pos, d);
    var next := NextPos(pos, d);
    var moved;
    moved, hasWon := level.MoveBoxOrKey(original, false, next.0, next.1, Dx(d), Dy(d));
    ghost var pushed := Push(before, original.tiles, c.to, c.beyond);
    assert moved == pushed.Pushed?;
    newPos := if moved then next else pos;
    level.SetTile(newPos.0, newPos.1, Player);
  }
}

=== FILE: keys.dfy ===
/** The keys the screens react to (console_lib's key codes), reduced to what they mean. */
module Keys {
  /** The four arrow keys. */
  datatype Direction = Left | Up | Right | Down

  /** A key press: an arrow, ENTER, ESC, F1 or a printable character. */
  datatype Key = Arrow(dir: Direction) | Enter | Esc | F1 | Char(c: char)
}

=== FILE: level_c.dfy ===
/**
 * The in-game state of the later C version (game/level/level.c): the field of the level being
 * played, the field one move earlier, a scratch copy, the move counters and player positions,
 * and the key handler that restores, steps, pushes boxes and keys, undoes one move and ends
 * the level. This version's field ids are the Rust tiles (it never produces a secret tile),
 * so each operation is stated against the Rust specification functions on the row-major tile
 * vectors the fields stand for (`CFields.Contents`).
 */
module LevelC {
  import opened Wrappers
  import opened Tiles
  import opened Keys
  import Levels
  import InGame
  import CFields
  import CStats
  import Text

  predicate SameShape(a: array2<Tile>, b: array2<Tile>) {
    a.Length0 == b.Length0 && a.Length1 == b.Length1
  }

  predicate InField(field: array2<Tile>, x: int, y: int) {
    0 <= x < field.Length0 && 0 <= y < field.Length1
  }

  /** No cell of the field is GOAL or KEY_IN_GOAL. */
  ghost predicate NoOpenGoalIn(field: array2<Tile>)
    reads field
  {
    forall x, y | 0 <= x < field.Length0 && 0 <= y < field.Length1 :: !IsOpenGoal(field[x, y])
  }

  /** The cells the scan has passed: columns before `i`, and column `i` above row `j`. */
  ghost predicate NoOpenGoalBefore(field: array2<Tile>, i: nat, j: nat)
    reads field
  {
    forall x, y | 0 <= x < field.Length0 && 0 <= y < field.Length1 && (x < i || (x == i && y < j)) ::
      !IsOpenGoal(field[x, y])
  }

  /** A field has an open goal exactly when the tile vector it stands for has one. */
  lemma NoOpenGoalContents(field: array2<Tile>)
    ensures NoOpenGoalIn(field) <==> InGame.NoOpenGoal(CFields.Contents(field))
  {
    var tiles := CFields.Contents(field);
    if NoOpenGoalIn(field) {
      forall k | 0 <= k < |tiles|
        ensures !IsOpenGoal(tiles[k])
      {
        var x, y := CFields.CellOfIndex(k, field.Length0, field.Length1);
        CFields.ContentsAt(field, x, y);
      }
    } else {
      var x, y :| 0 <= x < field.Length0 && 0 <= y < field.Length1 && IsOpenGoal(field[x, y]);
      CFields.ContentsAt(field, x, y);
    }
  }

  /**
   * The scan after a box landed on a goal at `to` decides the Rust win rule on the vector
   * before the push.
   */
  lemma WinAfterLanding(field: array2<Tile>, tiles: seq<Tile>, original: seq<Tile>, from: nat, to: nat)
    requires from != to && to < |tiles| && from < |original| == |tiles|
    requires CFields.Contents(field) == tiles[to := BoxInGoal]
    ensures InGame.NoOpenGoal(CFields.Contents(field)) && !IsGoalDerived(original[from]) <==> Levels.WinsAfterPush(tiles, original, from, to)
  {
    var landed := tiles[to := BoxInGoal];
    if forall k | 0 <= k < |tiles| && k != to :: !IsOpenGoal(tiles[k]) {
      assert forall k | 0 <= k < |tiles| :: landed[k] == if k == to then BoxInGoal else tiles[k];
    } else {
      var k :| 0 <= k < |tiles| && k != to && IsOpenGoal(tiles[k]);
      assert landed[k] == tiles[k];
    }
  }

  /** An accepted push writes the target cell, then the pushed-from cell, in either order. */
  lemma PushWrites(tiles: seq<Tile>, original: seq<Tile>, from: nat, to: nat)
    requires from != to && from < |tiles| && to < |tiles| && |original| == |tiles|
    requires Levels.AcceptsPush(tiles[from], tiles[to])
    ensures var p := Levels.Push(tiles, original, from, to);
      && p.Pushed?
      && p.tiles == tiles[to := Levels.Landed(tiles[from], tiles[to])][from := Levels.Vacated(tiles[from])]
      && p.won == if IsBox(tiles[from]) && tiles[to] == Goal then Some(Levels.WinsAfterPush(tiles, original, from, to)) else None
  {
    assert tiles[to := Levels.Landed(tiles[from], tiles[to])][from := Levels.Vacated(tiles[from])]
        == tiles[from := Levels.Vacated(tiles[from])][to := Levels.Landed(tiles[from], tiles[to])];
  }

  /** A step is the move on the grid whose player cell was restored. */
  lemma StepIsMoved(tiles: seq<Tile>, original: seq<Tile>, width: nat, pos: InGame.Pos, d: Direction)
    requires |original| == |tiles| && InGame.CanStep(tiles, width, pos, d)
    ensures var c := InGame.CellsOf(width, pos, d);
      && InGame.CanStep(InGame.Restore(tiles, original, c.from), width, pos, d)
      && InGame.Step(tiles, original, width, pos, d) == InGame.Moved(InGame.Restore(tiles, original, c.from), original, c, d)
  {
    InGame.CellsDiffer(width, pos, d);
  }

  /** The three cases of a move: walk, push (done or refused) and stay. */
  lemma MovedCases(restored: seq<Tile>, original: seq<Tile>, c: InGame.Cells, d: Direction)
    requires |original| == |restored| && c.from < |restored| && c.to < |restored|
    requires IsPushable(restored[c.to]) ==> c.beyond >= 0
    ensures var m, t := InGame.Moved(restored, original, c, d), restored[c.to];
      && (InGame.Enterable(t, d) ==> m == InGame.StepResult(restored[c.to := Player], true, false))
      && (!InGame.Enterable(t, d) && !IsPushable(t) ==> m == InGame.StepResult(restored[c.from := Player], false, false))
      && (!InGame.Enterable(t, d) && IsPushable(t) ==>
            var p := Levels.Push(restored, original, c.to, c.beyond);
            m == if p.Pushed? then InGame.StepResult(p.tiles[c.to := Player], true, p.won == Some(true))
                 else InGame.StepResult(restored[c.from := Player], false, false))
  {
  }

  /**
   * What an arrow key demands of the field: the player's cell and the cell stepped onto are in
   * the field, and so is the cell beyond when a box or key would be pushed there (the C code
   * indexes the arrays without checking).
   */
  ghost predicate CanStepIn(field: array2<Tile>, x: nat, y: nat, d: Direction)
    reads field
  {
    && InField(field, x, y)
    && InField(field, x + InGame.Dx(d), y + InGame.Dy(d))
    && (IsPushable(field[x + InGame.Dx(d), y + InGame.Dy(d)]) ==>
          InField(field, x + InGame.Dx(d) + InGame.Dx(d), y + InGame.Dy(d) + InGame.Dy(d)))
  }


  /**
   * A move the field allows is one the Rust step allows on the vector the field stands for, on
   * the same three cells.
   */
  lemma CanStepHolds(field: array2<Tile>, x: nat, y: nat, d: Direction)
    requires CanStepIn(field, x, y, d)
    ensures InGame.CanStep(CFields.Contents(field), field.Length0, (x, y), d)
    ensures var c, nextX, nextY := InGame.CellsOf(field.Length0, (x, y), d), x + InGame.Dx(d), y + InGame.Dy(d);
      && InGame.NextPos((x, y), d) == (nextX, nextY)
      && c.from == Levels.FlatIndex(x, y, field.Length0)
      && c.to == Levels.FlatIndex(nextX, nextY, field.Length0)
      && CFields.Contents(field)[c.to] == field[nextX, nextY]
      && (IsPushable(field[nextX, nextY]) ==> c.beyond == Levels.FlatIndex(nextX + InGame.Dx(d), nextY + InGame.Dy(d), field.Length0))
  {
    CFields.ContentsAt(field, x, y);
    CFields.ContentsAt(field, x + InGame.Dx(d), y + InGame.Dy(d));
  }

  /** A step onto an enterable cell: the player moves there. */
  lemma StepWalks(tiles: seq<Tile>, original: seq<Tile>, w: nat, x: nat, y: nat, d: Direction)
    requires |original| == |tiles| && InGame.CanStep(tiles, w, (x, y), d)
    requires InGame.Enterable(tiles[Levels.FlatIndex(x + InGame.Dx(d), y + InGame.Dy(d), w)], d)
    ensures var from, to := Levels.FlatIndex(x, y, w), Levels.FlatIndex(x + InGame.Dx(d), y + InGame.Dy(d), w);
      && from < |tiles| && to < |tiles|
      && InGame.NextPos((x, y), d) == (x + InGame.Dx(d), y + InGame.Dy(d))
      && InGame.Step(tiles, original, w, (x, y), d) == InGame.StepResult(InGame.Restore(tiles, original, from)[to := Player], true, false)
  {
    InGame.CellsDiffer(w, (x, y), d);
  }

  /** A step onto a box or key: the push decides whether the player moves and whether the level is won. */
  lemma StepPushes(tiles: seq<Tile>, original: seq<Tile>, w: nat, x: nat, y: nat, d: Direction)
    requires |original| == |tiles| && InGame.CanStep(tiles, w, (x, y), d)
    requires IsPushable(tiles[Levels.FlatIndex(x + InGame.Dx(d), y + InGame.Dy(d), w)])
    ensures x + InGame.Dx(d) + InGame.Dx(d) >= 0 && y + InGame.Dy(d) + InGame.Dy(d) >= 0
    ensures var from, to := Levels.FlatIndex(x, y, w), Levels.FlatIndex(x + InGame.Dx(d), y + InGame.Dy(d), w);
      var restored := InGame.Restore(tiles, original, from);
      var p := Levels.Push(restored, original, to, Levels.FlatIndex(x + InGame.Dx(d) + InGame.Dx(d), y + InGame.Dy(d) + InGame.Dy(d), w));
      && from < |tiles| && to < |tiles|
      && InGame.NextPos((x, y), d) == (x + InGame.Dx(d), y + InGame.Dy(d))
      && InGame.Step(tiles, original, w, (x, y), d)
         == if p.Pushed? then InGame.StepResult(p.tiles[to := Player], true, p.won == Some(true))
            else InGame.StepResult(restored[from := Player], false, false)
  {
    InGame.CellsDiffer(w, (x, y), d);
  }

  /** A step onto anything else: the player stays. */
  lemma StepStays(tiles: seq<Tile>, original: seq<Tile>, w: nat, x: nat, y: nat, d: Direction)
    requires |original| == |tiles| && InGame.CanStep(tiles, w, (x, y), d)
    requires var t := tiles[Levels.FlatIndex(x + InGame.Dx(d), y + InGame.Dy(d), w)];
      !InGame.Enterable(t, d) && !IsPushable(t)
    ensures var from := Levels.FlatIndex(x, y, w);
      && from < |tiles|
      && InGame.Step(tiles, original, w, (x, y), d) == InGame.StepResult(InGame.Restore(tiles, original, from)[from := Player], false, false)
  {
    InGame.CellsDiffer(w, (x, y), d);
  }

  /**
   * The tile switch of `readLevelData` (level.c:1080-1119): the tile a level character names.
   * `-`, `s` and every other character name none and leave the cell EMPTY.
   */
  function DecodeLevelC(c: char): Option<Tile> {
    match c
    case '<' => Some(OneWayLeft)
    case '^' => Some(OneWayUp)
    case '>' => Some(OneWayRight)
    case 'v' => Some(OneWayDown)
    case '#' => Some(Wall)
    case 'P' => Some(Player)
    case '*' => Some(Key)
    case '~' => Some(KeyInGoal)
    case '=' => Some(LockedDoor)
    case '@' => Some(Box)
    case '+' => Some(BoxInGoal)
    case 'x' => Some(Goal)
    case _ => None
  }

  /**
   * The C loader reads every level character as `Tile::from_ascii` does, except the secret
   * tile `s`, which it leaves EMPTY; it never produces a secret tile, and each tile it names
   * is written back as the character it was read from.
   */
  lemma DecodeLevelCAsRust(c: char)
    ensures DecodeLevelC(c).Some? <==> IsTileChar(c) && c != '-' && c != 's'
    ensures IsTileChar(c) && c != 's' ==> CFields.Decoded(DecodeLevelC(c), Empty) == FromAscii(c).value
    ensures CFields.Decoded(DecodeLevelC(c), Empty) != Secret
    ensures DecodeLevelC(c).Some? ==> ToAscii(DecodeLevelC(c).value) == c
  {
  }

  /** The state the `z` key swaps: both fields, both move counts and both player positions. */
  datatype CPlay = CPlay(now: seq<Tile>, lastStep: seq<Tile>, moves: int, oldMoves: int,
                         x: nat, y: nat, xOld: nat, yOld: nat)

  /** The `z` key (level.c:238-262) on that state: each value trades places with its last-step twin. */
  function Undone(p: CPlay): (r: CPlay)
    ensures r.now == p.lastStep && r.lastStep == p.now
  {
    CPlay(p.lastStep, p.now, p.oldMoves, p.moves, p.xOld, p.yOld, p.x, p.y)
  }

  /** Pressing `z` twice changes nothing. */
  lemma UndoneTwice(p: CPlay)
    ensures Undone(Undone(p)) == p
  {
  }

  /**
   * `z` is the Rust toggle on the same state, with the positions paired up: with counts in
   * the range of a `u32` the two agree.
   */
  lemma UndoneIsToggle(p: CPlay)
    requires 0 <= p.moves < Text.U32_LIMIT && 0 <= p.oldMoves < Text.U32_LIMIT
    ensures var q := Undone(p);
      InGame.Toggle(InGame.Play(p.now, p.lastStep, p.moves, p.oldMoves, (p.x, p.y), (p.xOld, p.yOld)))
      == InGame.Play(q.now, q.lastStep, q.moves, q.oldMoves, (q.x, q.y), (q.xOld, q.yOld))
  {
  }

  class Game {
    /** The levels of the pack as read from the file, and the index of the one being played. */
    var levels: seq<array2<Tile>>
    var level: nat
    var levelNow: array2<Tile>
    var levelNowLastStep: array2<Tile>
    var levelNowTmpStep: array2<Tile>
    var playerPosX: nat
    var playerPosY: nat
    var playerPosXOld: nat
    var playerPosYOld: nat
    var moves: int
    var oldMoves: int
    /** Set together when the level is won; the first is cleared by ENTER or `r`, the second once the win is recorded. */
    var continueFlag: bool
    var continueLevelAddFlag: bool
    /** The first level not completed yet, and the best time (ms) and moves per level; -1 is "none". */
    var minLevelNotCompleted: nat
    var levelBestTime: array<int>
    var levelBestMoves: array<int>
    /** The screen was switched to GAME_OVER. */
    var gameOver: bool

    /** The field being played is shaped like the level of the pack it plays, and is not that level. */
    ghost predicate Playing()
      reads this`levels, this`level, this`levelNow
    {
      level < |levels| && levels[level] != levelNow && SameShape(levelNow, levels[level])
    }

    /**
     * A level is being played: three distinct fields, none of them a level of the pack, all
     * shaped like the level, and a win is never left to record after it was acknowledged.
     */

    ghost predicate Valid()
      reads this`levels, this`level, this`levelNow, this`levelNowLastStep, this`levelNowTmpStep
      reads this`continueFlag, this`continueLevelAddFlag
    {
      && Playing()
      && levelNow !in levels && levelNowLastStep !in levels && levelNowTmpStep !in levels
      && levelNow != levelNowLastStep && levelNow != levelNowTmpStep && levelNowLastStep != levelNowTmpStep
      && SameShape(levelNow, levels[level]) && SameShape(levelNowLastStep, levels[level])
      && SameShape(levelNowTmpStep, levels[level])
      && (continueLevelAddFlag ==> continueFlag)
    }

    /**
     * The win scan of `moveBoxOrKey` (level.c:417-443), run after a box landed on a goal: both
     * flags end set exactly when no cell is GOAL or KEY_IN_GOAL and the level's original cell
     * at the pushed-from position, where the player will stand, has no goal.
     */
    method CheckWin(posX: nat, posY: nat)
      requires Playing() && InField(levelNow, posX, posY)
      modifies this`continueFlag, this`continueLevelAddFlag
      ensures continueFlag == continueLevelAddFlag
      ensures continueFlag <==> NoOpenGoalIn(levelNow) && !IsGoalDerived(levels[level][posX, posY])
    {
      continueFlag := true;
      continueLevelAddFlag := true;
      var breakFlag := false;
      var original := levels[level];
      var i := 0;
      while i < levelNow.Length0
        invariant 0 <= i <= levelNow.Length0
        invariant continueFlag && continueLevelAddFlag && !breakFlag
        invariant NoOpenGoalBefore(levelNow, i, 0)
        invariant posX < i ==> !IsGoalDerived(original[posX, posY])
      {
        var j := 0;
        while j < levelNow.Length1
          invariant 0 <= j <= levelNow.Length1
          invariant continueFlag && continueLevelAddFlag && !breakFlag
          invariant NoOpenGoalBefore(levelNow, i, j)
          invariant posX < i || (posX == i && posY < j) ==> !IsGoalDerived(original[posX, posY])
        {
          if levelNow[i, j] == Goal || levelNow[i, j] == KeyInGoal {
            continueFlag := false;
            continueLevelAddFlag := false;
            breakFlag := true;
            break;
          }
          if i == posX && j == posY && (original[i, j] == Goal || original[i, j] == BoxInGoal || original[i, j] == KeyInGoal) {
            continueFlag := false;
            continueLevelAddFlag := false;
            breakFlag := true;
            break;
          }
          j := j + 1;
        }
        if breakFlag {
          break;
        }
        i := i + 1;
      }
    }

    /**
     * The write to the target cell of `moveBoxOrKey` (level.c:414-453): the tile `Levels.Landed`
     * names, and when a box lands on a goal, the win scan, whose verdict is the Rust win rule.
     */
    method Land(posX: nat, posY: nat, toX: nat, toY: nat, isBox: bool, target: Tile, ghost tiles: seq<Tile>, ghost original: seq<Tile>)
      requires Playing() && InField(levelNow, posX, posY) && InField(levelNow, toX, toY) && (posX != toX || posY != toY)
      requires CFields.Contents(levelNow) == tiles && CFields.Contents(levels[level]) == original
      requires isBox == IsBox(levelNow[posX, posY]) && target == levelNow[toX, toY]
      modifies levelNow, this`continueFlag, this`continueLevelAddFlag
      ensures var from, to := Levels.FlatIndex(posX, posY, old(levelNow.Length0)), Levels.FlatIndex(toX, toY, old(levelNow.Length0));
        && from < |tiles| && to < |tiles|
        && CFields.Contents(levelNow) == tiles[to := Levels.Landed(tiles[from], tiles[to])]
        && if isBox && target == Goal then continueFlag == continueLevelAddFlag == Levels.WinsAfterPush(tiles, original, from, to)
           else continueFlag == old(continueFlag) && continueLevelAddFlag == old(continueLevelAddFlag)
    {
      ghost var from, to := Levels.FlatIndex(posX, posY, levelNow.Length0), Levels.FlatIndex(toX, toY, levelNow.Length0);
      CFields.ContentsAt(levelNow, posX, posY);
      CFields.ContentsAt(levelNow, toX, toY);
      CFields.ContentsAt(levels[level], posX, posY);
      if from == to {
        Levels.FlatIndexInjective(posX, posY, toX, toY, levelNow.Length0);
      }
      var landed;
      if isBox && target == Goal {
        landed := BoxInGoal;
      } else if !isBox && target == Goal {
        landed := KeyInGoal;
      } else if isBox {
        landed := Box;
      } else if target == LockedDoor {
        // the door opens and the key is used up
        landed := Empty;
      } else {
        landed := Key;
      }
      CFields.SetCell(levelNow, toX, toY, landed);
      if isBox && target == Goal {
        CheckWin(posX, posY);
        NoOpenGoalContents(levelNow);
        WinAfterLanding(levelNow, tiles, original, from, to);
      }
    }

    /** The write to the pushed-from cell of `moveBoxOrKey` (level.c:455-458): the tile `Levels.Vacated` names. */
    method Vacate(posX: nat, posY: nat, ghost tiles: seq<Tile>)
      requires InField(levelNow, posX, posY) && CFields.Contents(levelNow) == tiles
      modifies levelNow
      ensures var from := Levels.FlatIndex(posX, posY, old(levelNow.Length0));
        from < |tiles| && CFields.Contents(levelNow) == tiles[from := Levels.Vacated(tiles[from])]
    {
      CFields.ContentsAt(levelNow, posX, posY);
      var vacated := if levelNow[posX, posY] == Box || levelNow[posX, posY] == Key then Empty else Goal;
      CFields.SetCell(levelNow, posX, posY, vacated);
    }

    /**
     * `moveBoxOrKey` (level.c:407-464): pushes the box or key at (posX, posY) one cell by
     * (moveX, moveY). It is `Levels.Push` on the tile vectors the field and the level stand
     * for: refused with the field unchanged, or the two cells written; and when a box lands on
     * a goal both flags hold the win.
     */
    method MoveBoxOrKey(posX: nat, posY: nat, moveX: int, moveY: int, ghost tiles: seq<Tile>, ghost original: seq<Tile>,
                        ghost p: Levels.PushOutcome)
      returns (moved: bool)
      requires Playing() && InField(levelNow, posX, posY) && InField(levelNow, posX + moveX, posY + moveY)
      requires moveX != 0 || moveY != 0
      requires CFields.Contents(levelNow) == tiles && CFields.Contents(levels[level]) == original
      requires |original| == |tiles|
      requires p == Levels.Push(tiles, original, Levels.FlatIndex(posX, posY, levelNow.Length0),
                                Levels.FlatIndex(posX + moveX, posY + moveY, levelNow.Length0))
      modifies levelNow, this`continueFlag, this`continueLevelAddFlag
      ensures moved == p.Pushed?
      ensures CFields.Contents(levelNow) == (if moved then p.tiles else tiles)
      ensures if moved && p.won.Some? then continueFlag == p.won.value && continueLevelAddFlag == p.won.value
        else continueFlag == old(continueFlag) && continueLevelAddFlag == old(continueLevelAddFlag)
    {
      var toX, toY: nat := posX + moveX, posY + moveY;
      ghost var from, to := Levels.FlatIndex(posX, posY, levelNow.Length0), Levels.FlatIndex(toX, toY, levelNow.Length0);
      if from == to {
        Levels.FlatIndexInjective(posX, posY, toX, toY, levelNow.Length0);
      }
      CFields.ContentsAt(levelNow, posX, posY);
      CFields.ContentsAt(levelNow, toX, toY);
      var isBox := levelNow[posX, posY] == Box || levelNow[posX, posY] == BoxInGoal;
      var target := levelNow[toX, toY];
      if target == Empty || target == Goal || (!isBox && target == LockedDoor) {
        Land(posX, posY, toX, toY, isBox, target, tiles, original);
        ghost var landedTiles := tiles[to := Levels.Landed(tiles[from], tiles[to])];
        Vacate(posX, posY, landedTiles);
        PushWrites(tiles, original, from, to);
        moved := true;
      } else {
        moved := false;
      }
    }

    /**
     * Lines 276-282 of `updateKeyInGame`: the player's cell gets the level's original tile
     * without the player, box, key or door on it, as `InGame.Restore` does.
     */
    method RestorePlayerCell(ghost tiles: seq<Tile>, ghost original: seq<Tile>)
      requires Playing() && InField(levelNow, playerPosX, playerPosY)
      requires CFields.Contents(levelNow) == tiles && CFields.Contents(levels[level]) == original
      modifies levelNow
      ensures Levels.FlatIndex(old(playerPosX), old(playerPosY), old(levelNow.Length0)) < |tiles|
      ensures CFields.Contents(levelNow) == InGame.Restore(tiles, original, Levels.FlatIndex(old(playerPosX), old(playerPosY), old(levelNow.Length0)))
    {
      CFields.ContentsAt(levels[level], playerPosX, playerPosY);
      var tmp := levels[level][playerPosX, playerPosY];
      if tmp == Player || tmp == Box || tmp == Key || tmp == LockedDoor {
        tmp := Empty;
      } else if tmp == BoxInGoal || tmp == KeyInGoal {
        tmp := Goal;
      }
      CFields.SetCell(levelNow, playerPosX, playerPosY, tmp);
    }

    /** The field, the player's position and the flags are the outcome `s` of a step from (x, y) in direction `d`. */
    ghost predicate Shows(s: InGame.StepResult, x: nat, y: nat, d: Direction)
      reads this`levelNow, levelNow, this`playerPosX, this`playerPosY, this`continueFlag, this`continueLevelAddFlag
    {
      && CFields.Contents(levelNow) == s.tiles
      && (if s.moved then playerPosX == x + InGame.Dx(d) && playerPosY == y + InGame.Dy(d)
          else playerPosX == x && playerPosY == y)
      && continueFlag == s.hasWon && continueLevelAddFlag == s.hasWon
    }

    /**
     * The field, the player's position and the flags are what `InGame.Step` makes of `tiles`
     * when the player at (x, y) steps in direction `d`.
     */
    ghost predicate Stepped(tiles: seq<Tile>, original: seq<Tile>, w: nat, x: nat, y: nat, d: Direction)
      reads this`levelNow, levelNow, this`playerPosX, this`playerPosY, this`continueFlag, this`continueLevelAddFlag
    {
      && |original| == |tiles| && InGame.CanStep(tiles, w, (x, y), d)
      && Shows(InGame.Step(tiles, original, w, (x, y), d), x, y, d)
    }

    /**
     * The end of the switch (level.c:289-366) and the stamp of line 369: the player steps in
     * direction `d` when the switch let it move, and is stamped where it then stands.
     */
    method Advance(d: Direction, x: nat, y: nat, moved: bool, ghost cur: seq<Tile>, ghost s: InGame.StepResult)
      requires x == playerPosX && y == playerPosY && InField(levelNow, x, y)
      requires InField(levelNow, x + InGame.Dx(d), y + InGame.Dy(d)) && CFields.Contents(levelNow) == cur
      requires var w := levelNow.Length0;
        var at := if moved then Levels.FlatIndex(x + InGame.Dx(d), y + InGame.Dy(d), w) else Levels.FlatIndex(x, y, w);
        at < |cur| && s.tiles == cur[at := Player]
      requires s.moved == moved && continueFlag == s.hasWon && continueLevelAddFlag == s.hasWon
      modifies levelNow, this`playerPosX, this`playerPosY
      ensures Shows(s, x, y, d)
      ensures continueLevelAddFlag == continueFlag
    {
      if moved {
        playerPosX, playerPosY := x + InGame.Dx(d), y + InGame.Dy(d);
      }
      CFields.SetCell(levelNow, playerPosX, playerPosY, Player);
    }

    /**
     * The box and key cases of the switch (level.c:289-366): the player pushes with
     * `moveBoxOrKey` and moves when the push succeeds.
     */
    method PushNext(d: Direction, x: nat, y: nat, ghost restored: seq<Tile>, ghost original: seq<Tile>,
                    ghost p: Levels.PushOutcome, ghost s: InGame.StepResult)
      requires Playing() && !continueFlag && !continueLevelAddFlag && x == playerPosX && y == playerPosY
      requires InField(levelNow, x, y) && InField(levelNow, x + InGame.Dx(d), y + InGame.Dy(d))
      requires InField(levelNow, x + InGame.Dx(d) + InGame.Dx(d), y + InGame.Dy(d) + InGame.Dy(d))
      requires CFields.Contents(levelNow) == restored && CFields.Contents(levels[level]) == original
      requires var w := levelNow.Length0;
        var from, to := Levels.FlatIndex(x, y, w), Levels.FlatIndex(x + InGame.Dx(d), y + InGame.Dy(d), w);
        && from < |restored| && to < |restored|
        && p == Levels.Push(restored, original, to, Levels.FlatIndex(x + InGame.Dx(d) + InGame.Dx(d), y + InGame.Dy(d) + InGame.Dy(d), w))
        && s == if p.Pushed? then InGame.StepResult(p.tiles[to := Player], true, p.won == Some(true))
                else InGame.StepResult(restored[from := Player], false, false)
      modifies levelNow, this`playerPosX, this`playerPosY, this`continueFlag, this`continueLevelAddFlag
      ensures Shows(s, x, y, d)
      ensures continueLevelAddFlag == continueFlag
    {
      var dx, dy := InGame.Dx(d), InGame.Dy(d);
      var moved := MoveBoxOrKey(x + dx, y + dy, dx, dy, restored, original, p);
      if moved {
        Advance(d, x, y, true, p.tiles, s);
      } else {
        Advance(d, x, y, false, restored, s);
      }
    }

    /**
     * The switch on the cell ahead (level.c:289-366) and the stamp of line 369, on a field
     * whose player cell is already restored: the player walks, pushes a box or key with
     * `moveBoxOrKey`, or stays. On the vectors this is `InGame.Step`.
     */
    method Switch(d: Direction, x: nat, y: nat, ghost tiles: seq<Tile>, ghost original: seq<Tile>, ghost restored: seq<Tile>)
      requires Playing() && !continueFlag && !continueLevelAddFlag && x == playerPosX && y == playerPosY
      requires InField(levelNow, x, y) && InField(levelNow, x + InGame.Dx(d), y + InGame.Dy(d))
      requires |original| == |tiles| && InGame.CanStep(tiles, levelNow.Length0, (x, y), d)
      requires Levels.FlatIndex(x, y, levelNow.Length0) < |tiles|
      requires restored == InGame.Restore(tiles, original, Levels.FlatIndex(x, y, levelNow.Length0))
      requires CFields.Contents(levelNow) == restored && CFields.Contents(levels[level]) == original
      requires IsPushable(tiles[Levels.FlatIndex(x + InGame.Dx(d), y + InGame.Dy(d), levelNow.Length0)]) ==>
        InField(levelNow, x + InGame.Dx(d) + InGame.Dx(d), y + InGame.Dy(d) + InGame.Dy(d))
      modifies levelNow, this`playerPosX, this`playerPosY, this`continueFlag, this`continueLevelAddFlag
      ensures Stepped(tiles, original, old(levelNow.Length0), x, y, d)
      ensures continueLevelAddFlag == continueFlag
    {
      var nextX, nextY := x + InGame.Dx(d), y + InGame.Dy(d);
      InGame.CellsDiffer(levelNow.Length0, (x, y), d);
      CFields.ContentsAt(levelNow, nextX, nextY);
      var t := levelNow[nextX, nextY];
      if t == Empty || t == Goal || t == InGame.OneWayTile(d) {
        Walk(d, x, y, tiles, original, restored);
      } else if t == Box || t == BoxInGoal || t == Key || t == KeyInGoal {
        PushAhead(d, x, y, tiles, original, restored);
      } else {
        Stay(d, x, y, tiles, original, restored);
      }
    }

    /** The EMPTY, GOAL and one-way cases of the switch: the player steps ahead. */
    method Walk(d: Direction, x: nat, y: nat, ghost tiles: seq<Tile>, ghost original: seq<Tile>, ghost restored: seq<Tile>)
      requires Playing() && !continueFlag && !continueLevelAddFlag && x == playerPosX && y == playerPosY
      requires InField(levelNow, x, y) && InField(levelNow, x + InGame.Dx(d), y + InGame.Dy(d))
      requires |original| == |tiles| && InGame.CanStep(tiles, levelNow.Length0, (x, y), d)
      requires Levels.FlatIndex(x, y, levelNow.Length0) < |tiles|
      requires restored == InGame.Restore(tiles, original, Levels.FlatIndex(x, y, levelNow.Length0))
      requires CFields.Contents(levelNow) == restored && CFields.Contents(levels[level]) == original
      requires InGame.Enterable(tiles[Levels.FlatIndex(x + InGame.Dx(d), y + InGame.Dy(d), levelNow.Length0)], d)
      modifies levelNow, this`playerPosX, this`playerPosY, this`continueFlag, this`continueLevelAddFlag
      ensures Stepped(tiles, original, old(levelNow.Length0), x, y, d)
      ensures continueLevelAddFlag == continueFlag
    {
      ghost var w := levelNow.Length0;
      StepWalks(tiles, original, w, x, y, d);
      Advance(d, x, y, true, restored, InGame.Step(tiles, original, w, (x, y), d));
    }

    /** The box and key cases of the switch: the player steps ahead when `moveBoxOrKey` pushes. */
    method PushAhead(d: Direction, x: nat, y: nat, ghost tiles: seq<Tile>, ghost original: seq<Tile>, ghost restored: seq<Tile>)
      requires Playing() && !continueFlag && !continueLevelAddFlag && x == playerPosX && y == playerPosY
      requires InField(levelNow, x, y) && InField(levelNow, x + InGame.Dx(d), y + InGame.Dy(d))
      requires |original| == |tiles| && InGame.CanStep(tiles, levelNow.Length0, (x, y), d)
      requires Levels.FlatIndex(x, y, levelNow.Length0) < |tiles|
      requires restored == InGame.Restore(tiles, original, Levels.FlatIndex(x, y, levelNow.Length0))
      requires CFields.Contents(levelNow) == restored && CFields.Contents(levels[level]) == original
      requires InField(levelNow, x + InGame.Dx(d) + InGame.Dx(d), y + InGame.Dy(d) + InGame.Dy(d))
      requires IsPushable(tiles[Levels.FlatIndex(x + InGame.Dx(d), y + InGame.Dy(d), levelNow.Length0)])
      modifies levelNow, this`playerPosX, this`playerPosY, this`continueFlag, this`continueLevelAddFlag
      ensures Stepped(tiles, original, old(levelNow.Length0), x, y, d)
      ensures continueLevelAddFlag == continueFlag
    {
      ghost var w := levelNow.Length0;
      StepPushes(tiles, original, w, x, y, d);
      ghost var to := Levels.FlatIndex(x + InGame.Dx(d), y + InGame.Dy(d), w);
      ghost var p := Levels.Push(restored, original, to, Levels.FlatIndex(x + InGame.Dx(d) + InGame.Dx(d), y + InGame.Dy(d) + InGame.Dy(d), w));
      PushNext(d, x, y, restored, original, p, InGame.Step(tiles, original, w, (x, y), d));
    }

    /** Every other case of the switch: the player stays. */
    method Stay(d: Direction, x: nat, y: nat, ghost tiles: seq<Tile>, ghost original: seq<Tile>, ghost restored: seq<Tile>)
      requires Playing() && !continueFlag && !continueLevelAddFlag && x == playerPosX && y == playerPosY
      requires InField(levelNow, x, y) && InField(levelNow, x + InGame.Dx(d), y + InGame.Dy(d))
      requires |original| == |tiles| && InGame.CanStep(tiles, levelNow.Length0, (x, y), d)
      requires Levels.FlatIndex(x, y, levelNow.Length0) < |tiles|
      requires restored == InGame.Restore(tiles, original, Levels.FlatIndex(x, y, levelNow.Length0))
      requires CFields.Contents(levelNow) == restored && CFields.Contents(levels[level]) == original
      requires var t := tiles[Levels.FlatIndex(x + InGame.Dx(d), y + InGame.Dy(d), levelNow.Length0)];
        !InGame.Enterable(t, d) && !IsPushable(t)
      modifies levelNow, this`playerPosX, this`playerPosY, this`continueFlag, this`continueLevelAddFlag
      ensures Stepped(tiles, original, old(levelNow.Length0), x, y, d)
      ensures continueLevelAddFlag == continueFlag
    {
      ghost var w := levelNow.Length0;
      StepStays(tiles, original, w, x, y, d);
      Advance(d, x, y, false, restored, InGame.Step(tiles, original, w, (x, y), d));
    }

    /**
     * Lines 276-369 of `updateKeyInGame`: restores the player's cell, then the switch and the
     * stamp. On the vectors this is `InGame.Step`.
     */
    method MovePlayer(d: Direction, x: nat, y: nat, ghost tiles: seq<Tile>, ghost original: seq<Tile>)
      requires Playing() && !continueFlag && !continueLevelAddFlag && x == playerPosX && y == playerPosY
      requires CanStepIn(levelNow, x, y, d)
      requires CFields.Contents(levelNow) == tiles && CFields.Contents(levels[level]) == original
      modifies levelNow, this`playerPosX, this`playerPosY, this`continueFlag, this`continueLevelAddFlag
      ensures Stepped(tiles, original, old(levelNow.Length0), x, y, d)
      ensures continueLevelAddFlag == continueFlag
    {
      CanStepHolds(levelNow, x, y, d);
      InGame.CellsDiffer(levelNow.Length0, (x, y), d);
      RestorePlayerCell(tiles, original);
      Switch(d, x, y, tiles, original, InGame.Restore(tiles, original, Levels.FlatIndex(x, y, levelNow.Length0)));
    }

    /**
     * Lines 371-380 of `updateKeyInGame`: when the player moved from (x, y), the move is
     * counted and the copy kept before the step becomes the last step.
     */
    method RecordMove(x: nat, y: nat, ghost tiles: seq<Tile>)
      requires Valid() && CFields.Contents(levelNowTmpStep) == tiles
      modifies levelNowLastStep, this`moves, this`oldMoves, this`playerPosXOld, this`playerPosYOld
      ensures if playerPosX != x || playerPosY != y then
          && playerPosXOld == x && playerPosYOld == y
          && oldMoves == old(moves) && moves == old(moves) + 1
          && CFields.Contents(levelNowLastStep) == tiles
        else
          && playerPosXOld == old(playerPosXOld) && playerPosYOld == old(playerPosYOld)
          && moves == old(moves) && oldMoves == old(oldMoves)
          && CFields.Contents(levelNowLastStep) == old(CFields.Contents(levelNowLastStep))
    {
      if playerPosX != x || playerPosY != y {
        oldMoves := moves;
        moves := moves + 1;
        playerPosXOld := x;
        playerPosYOld := y;
        CFields.CopyField(levelNowTmpStep, levelNowLastStep);
      }
    }

    /**
     * Lines 276-380 of `updateKeyInGame`, once the field is copied to the scratch field: the
     * step, then the bookkeeping of a move.
     */
    method StepAndRecord(d: Direction, ghost tiles: seq<Tile>, ghost original: seq<Tile>)
      requires Valid() && !continueFlag
      requires CanStepIn(levelNow, playerPosX, playerPosY, d)
      requires CFields.Contents(levelNow) == tiles && CFields.Contents(levels[level]) == original
      requires CFields.Contents(levelNowTmpStep) == tiles
      modifies levelNow, levelNowLastStep, this`moves, this`oldMoves
      modifies this`playerPosX, this`playerPosY, this`playerPosXOld, this`playerPosYOld, this`continueFlag, this`continueLevelAddFlag
      ensures Valid()
      ensures Stepped(tiles, original, old(levelNow.Length0), old(playerPosX), old(playerPosY), d)
      ensures CFields.Contents(levelNowTmpStep) == tiles
      ensures if playerPosX != old(playerPosX) || playerPosY != old(playerPosY) then
          && playerPosXOld == old(playerPosX) && playerPosYOld == old(playerPosY)
          && oldMoves == old(moves) && moves == old(moves) + 1
          && CFields.Contents(levelNowLastStep) == tiles
        else
          && playerPosXOld == old(playerPosXOld) && playerPosYOld == old(playerPosYOld)
          && moves == old(moves) && oldMoves == old(oldMoves)
          && CFields.Contents(levelNowLastStep) == old(CFields.Contents(levelNowLastStep))
    {
      var playerPosXTmp, playerPosYTmp := playerPosX, playerPosY;
      MovePlayer(d, playerPosXTmp, playerPosYTmp, tiles, original);
      RecordMove(playerPosXTmp, playerPosYTmp, tiles);
    }

    /**
     * An arrow key (level.c:268-382): keeps a copy of the field, restores the player's cell,
     * steps, and when the player moved counts the move and makes the copy the last step. On
     * the vectors the fields stand for this is `InGame.Step`.
     */
    method OnArrowKey(d: Direction, ghost tiles: seq<Tile>, ghost original: seq<Tile>)
      requires Valid() && !continueFlag
      requires CanStepIn(levelNow, playerPosX, playerPosY, d)
      requires CFields.Contents(levelNow) == tiles && CFields.Contents(levels[level]) == original
      modifies levelNow, levelNowLastStep, levelNowTmpStep, this`moves, this`oldMoves
      modifies this`playerPosX, this`playerPosY, this`playerPosXOld, this`playerPosYOld, this`continueFlag, this`continueLevelAddFlag
      ensures Valid()
      ensures Stepped(tiles, original, old(levelNow.Length0), old(playerPosX), old(playerPosY), d)
      ensures CFields.Contents(levelNowTmpStep) == tiles
      ensures if playerPosX != old(playerPosX) || playerPosY != old(playerPosY) then
          && playerPosXOld == old(playerPosX) && playerPosYOld == old(playerPosY)
          && oldMoves == old(moves) && moves == old(moves) + 1
          && CFields.Contents(levelNowLastStep) == tiles
        else
          && playerPosXOld == old(playerPosXOld) && playerPosYOld == old(playerPosYOld)
          && moves == old(moves) && oldMoves == old(oldMoves)
          && CFields.Contents(levelNowLastStep) == old(CFields.Contents(levelNowLastStep))
    {
      CFields.CopyField(levelNow, levelNowTmpStep);
      StepAndRecord(d, tiles, original);
    }

    /** The state the `z` key swaps. */
    ghost function Snapshot(): CPlay
      reads this, levelNow, levelNowLastStep
    {
      CPlay(CFields.Contents(levelNow), CFields.Contents(levelNowLastStep), moves, oldMoves,
            playerPosX, playerPosY, playerPosXOld, playerPosYOld)
    }

    /**
     * The `z` key (level.c:238-262): swaps the two fields cell by cell, the move counts and
     * the player positions; pressing it twice changes nothing (`UndoneTwice`).
     */
    method Undo()
      requires Valid()
      modifies levelNow, levelNowLastStep, this`moves, this`oldMoves
      modifies this`playerPosX, this`playerPosY, this`playerPosXOld, this`playerPosYOld
      ensures Valid()
      ensures Snapshot() == Undone(old(Snapshot()))
    {
      CFields.SwapFields(levelNow, levelNowLastStep);
      var tmp := moves;
      moves := oldMoves;
      oldMoves := tmp;
      var tmpPos := playerPosX;
      playerPosX := playerPosXOld;
      playerPosXOld := tmpPos;
      tmpPos := playerPosY;
      playerPosY := playerPosYOld;
      playerPosYOld := tmpPos;
    }

    /**
     * The player scan of `setLevel` (level.c:931-943): columns left to right, each top to
     * bottom, up to the first PLAYER cell; the Rust `start_level` scans the same way.
     */
    static method FindPlayerInField(field: array2<Tile>) returns (found: bool, x: nat, y: nat)
      ensures var r := InGame.FindPlayerFrom(CFields.Contents(field), field.Length0, field.Length1, 0, 0);
        found == r.Some? && (found ==> x == r.value.0 && y == r.value.1)
    {
      ghost var tiles := CFields.Contents(field);
      ghost var w, h := field.Length0, field.Length1;
      found, x, y := false, 0, 0;
      var breakFlag := false;
      var i := 0;
      while i < field.Length0
        invariant 0 <= i <= w && !found && !breakFlag
        invariant InGame.FindPlayerFrom(tiles, w, h, i, 0) == InGame.FindPlayerFrom(tiles, w, h, 0, 0)
      {
        var j := 0;
        while j < field.Length1
          invariant 0 <= j <= h && !found && !breakFlag
          invariant InGame.FindPlayerFrom(tiles, w, h, i, j) == InGame.FindPlayerFrom(tiles, w, h, 0, 0)
        {
          CFields.ContentsAt(field, i, j);
          if field[i, j] == Player {
            found, x, y := true, i, j;
            breakFlag := true;
            break;
          }
          j := j + 1;
        }
        if breakFlag {
          break;
        }
        i := i + 1;
      }
    }

    /**
     * What `setLevel(lvl)` leaves: level `lvl` is played from its start, in both fields, with
     * no moves; the player stands on the first PLAYER cell of the scan, or where it stood
     * (x0, y0, xOld0, yOld0) when the level has none.
     */
    ghost predicate StartedAt(lvl: nat, x0: nat, y0: nat, xOld0: nat, yOld0: nat)
      reads this, levelNow, levelNowLastStep, levelNowTmpStep, if lvl < |levels| then {levels[lvl]} else {}
    {
      && Valid() && level == lvl && moves == 0
      && CFields.Contents(levelNow) == CFields.Contents(levels[lvl])
      && CFields.Contents(levelNowLastStep) == CFields.Contents(levels[lvl])
      && (forall x, y | 0 <= x < levelNowTmpStep.Length0 && 0 <= y < levelNowTmpStep.Length1 :: levelNowTmpStep[x, y] == Empty)
      && var r := InGame.FindPlayerFrom(CFields.Contents(levels[lvl]), levels[lvl].Length0, levels[lvl].Length1, 0, 0);
         if r.Some? then playerPosX == r.value.0 && playerPosY == r.value.1 && playerPosXOld == r.value.0 && playerPosYOld == r.value.1
         else playerPosX == x0 && playerPosY == y0 && playerPosXOld == xOld0 && playerPosYOld == yOld0
    }

    /**
     * The fields of `setLevel` (level.c:914-929): three new fields shaped like `source`, the
     * first two holding a copy of it and the third left EMPTY.
     */
    static method NewFields(source: array2<Tile>) returns (now: array2<Tile>, last: array2<Tile>, tmp: array2<Tile>)
      ensures fresh(now) && fresh(last) && fresh(tmp) && now != last && now != tmp && last != tmp
      ensures SameShape(now, source) && SameShape(last, source) && SameShape(tmp, source)
      ensures CFields.Contents(now) == CFields.Contents(source) && CFields.Contents(last) == CFields.Contents(source)
      ensures forall x, y | 0 <= x < tmp.Length0 && 0 <= y < tmp.Length1 :: tmp[x, y] == Empty
    {
      now := CFields.InitField(source.Length0, source.Length1, Empty);
      last := CFields.InitField(source.Length0, source.Length1, Empty);
      tmp := CFields.InitField(source.Length0, source.Length1, Empty);
      CFields.CopyField(source, now);
      CFields.CopyField(source, last);
    }

    /**
     * `setLevel` (level.c:907-944): three new fields shaped like level `lvl`, the level copied
     * into the field played and the last step, the move count cleared and the player found.
     * The count of the last step (`oldMoves`) is left as it was.
     */
    method SetLevel(lvl: nat)
      requires lvl < |levels| && (continueLevelAddFlag ==> continueFlag)
      modifies this`level, this`levelNow, this`levelNowLastStep, this`levelNowTmpStep, this`moves
      modifies this`playerPosX, this`playerPosY, this`playerPosXOld, this`playerPosYOld
      ensures fresh(levelNow) && fresh(levelNowLastStep) && fresh(levelNowTmpStep)
      ensures StartedAt(lvl, old(playerPosX), old(playerPosY), old(playerPosXOld), old(playerPosYOld))
    {
      moves := 0;
      level := lvl;
      levelNow, levelNowLastStep, levelNowTmpStep := NewFields(levels[lvl]);
      PlacePlayer();
    }

    /** The end of `setLevel` (level.c:931-943): both player positions go to the first PLAYER cell of the scan. */
    method PlacePlayer()
      requires level < |levels| && SameShape(levelNow, levels[level])
      modifies this`playerPosX, this`playerPosY, this`playerPosXOld, this`playerPosYOld
      ensures var r := InGame.FindPlayerFrom(CFields.Contents(levelNow), levels[level].Length0, levels[level].Length1, 0, 0);
        if r.Some? then playerPosX == r.value.0 && playerPosY == r.value.1 && playerPosXOld == r.value.0 && playerPosYOld == r.value.1
        else playerPosX == old(playerPosX) && playerPosY == old(playerPosY) && playerPosXOld == old(playerPosXOld) && playerPosYOld == old(playerPosYOld)
    {
      var found, x, y := FindPlayerInField(levelNow);
      if found {
        playerPosXOld, playerPosX := x, x;
        playerPosYOld, playerPosY := y, y;
      }
    }

    /** The best-stat arrays are two distinct arrays with a slot for every level of the pack. */
    ghost predicate HasStats()
      reads this`levels, this`levelBestTime, this`levelBestMoves
    {
      levelBestTime != levelBestMoves && |levels| <= levelBestTime.Length && |levels| <= levelBestMoves.Length
    }

    /**
     * The bookkeeping of a won level (level.c:200-215): the first level not completed moves
     * past this one, each best stat of the level takes the run's when none is stored or the
     * stored one is larger, and the win counts as recorded. The run's time, which the C code
     * reads from the clock, is the parameter `bestTime`; the save file is not written.
     */
    method RecordWin(bestTime: int)
      requires Playing() && HasStats()
      modifies this`minLevelNotCompleted, levelBestTime, levelBestMoves, this`continueLevelAddFlag
      ensures minLevelNotCompleted == InGame.LevelEndMin(old(minLevelNotCompleted), level)
      ensures levelBestTime[..] == old(levelBestTime[..])[level := CStats.BestAfter(old(levelBestTime[level]), bestTime)]
      ensures levelBestMoves[..] == old(levelBestMoves[..])[level := CStats.BestAfter(old(levelBestMoves[level]), moves)]
      ensures !continueLevelAddFlag
    {
      if level >= minLevelNotCompleted {
        minLevelNotCompleted := level + 1;
      }
      if levelBestTime[level] == -1 || levelBestTime[level] > bestTime {
        levelBestTime[level] := bestTime;
      }
      if levelBestMoves[level] == -1 || levelBestMoves[level] > moves {
        levelBestMoves[level] := moves;
      }
      continueLevelAddFlag := false;
    }

    /**
     * A key at level end once the win is recorded (level.c:218-235): ENTER goes on to the next
     * level, or to the GAME_OVER screen after the last one, and `r` plays the level again.
     * Every other key changes nothing.
     */
    method LevelEndKey(key: Key)
      requires Valid() && continueFlag && !continueLevelAddFlag
      modifies this`continueFlag, this`gameOver
      modifies this`level, this`levelNow, this`levelNowLastStep, this`levelNowTmpStep, this`moves
      modifies this`playerPosX, this`playerPosY, this`playerPosXOld, this`playerPosYOld
      ensures !continueLevelAddFlag
      ensures if key == Enter && old(level) + 1 < |levels| then
          && !continueFlag && gameOver == old(gameOver)
          && StartedAt(old(level) + 1, old(playerPosX), old(playerPosY), old(playerPosXOld), old(playerPosYOld))
        else if key == Char('r') then
          && !continueFlag && gameOver == old(gameOver)
          && StartedAt(old(level), old(playerPosX), old(playerPosY), old(playerPosXOld), old(playerPosYOld))
        else
          && Valid() && level == old(level) && moves == old(moves)
          && levelNow == old(levelNow) && levelNowLastStep == old(levelNowLastStep) && levelNowTmpStep == old(levelNowTmpStep)
          && playerPosX == old(playerPosX) && playerPosY == old(playerPosY)
          && playerPosXOld == old(playerPosXOld) && playerPosYOld == old(playerPosYOld)
          && (continueFlag <==> key != Enter) && (gameOver <==> key == Enter || old(gameOver))
    {
      if key == Enter {
        continueFlag := false;
        var next := level + 1;
        if next == |levels| {
          gameOver := true;
          return;
        }
        SetLevel(next);
      } else if key == Char('r') {
        continueFlag := false;
        SetLevel(level);
      }
    }

    /**
     * A key in play (level.c:237-382): `z` undoes one move, `r` restarts the level and an
     * arrow key steps, as `InGame.Step` does on the vectors the fields stand for.
     */
    method PlayKey(key: Key, ghost tiles: seq<Tile>, ghost original: seq<Tile>)
      requires Valid() && !continueFlag
      requires key.Arrow? ==>
        && CanStepIn(levelNow, playerPosX, playerPosY, key.dir)
        && CFields.Contents(levelNow) == tiles && CFields.Contents(levels[level]) == original
      modifies levelNow, levelNowLastStep, levelNowTmpStep, this`continueLevelAddFlag, this`continueFlag
      modifies this`level, this`levelNow, this`levelNowLastStep, this`levelNowTmpStep, this`moves, this`oldMoves
      modifies this`playerPosX, this`playerPosY, this`playerPosXOld, this`playerPosYOld
      ensures Valid()
      ensures key == Char('z') ==> Snapshot() == Undone(old(Snapshot()))
      ensures key == Char('r') ==>
        StartedAt(old(level), old(playerPosX), old(playerPosY), old(playerPosXOld), old(playerPosYOld))
      ensures key.Arrow? ==> Stepped(tiles, original, old(levelNow.Length0), old(playerPosX), old(playerPosY), key.dir)
      ensures !key.Arrow? ==> !continueFlag && !continueLevelAddFlag
      ensures !(key == Char('z') || key == Char('r') || key.Arrow?) ==> level == old(level) && Snapshot() == old(Snapshot())
    {
      if key == Char('z') {
        Undo();
      }
      if key == Char('r') {
        SetLevel(level);
      }
      if key.Arrow? {
        OnArrowKey(key.dir, tiles, original);
      }
    }

    /**
     * What a key at level end did (level.c:199-237): a win not yet recorded moved the progress
     * past the level and updated both best stats of the level by `BestAfter`; then ENTER
     * started the next level, or went to GAME_OVER after the last one, `r` restarted the level,
     * and any other key left the level and the fields as they were.
     */
    twostate predicate LevelEnded(key: Key, bestTime: int)
      reads this, levelNow, levelNowLastStep, levelNowTmpStep, levelBestTime, levelBestMoves, levels
    {
      && Valid() && HasStats() && !continueLevelAddFlag
      && old(level < levelBestTime.Length && level < levelBestMoves.Length)
      && (if old(continueLevelAddFlag) then
            && minLevelNotCompleted == InGame.LevelEndMin(old(minLevelNotCompleted), old(level))
            && levelBestTime[..] == old(levelBestTime[..])[old(level) := CStats.BestAfter(old(levelBestTime[level]), bestTime)]
            && levelBestMoves[..] == old(levelBestMoves[..])[old(level) := CStats.BestAfter(old(levelBestMoves[level]), old(moves))]
          else
            && minLevelNotCompleted == old(minLevelNotCompleted)
            && levelBestTime[..] == old(levelBestTime[..]) && levelBestMoves[..] == old(levelBestMoves[..]))
      && if key == Enter && old(level) + 1 < |levels| then
           && !continueFlag && gameOver == old(gameOver)
           && StartedAt(old(level) + 1, old(playerPosX), old(playerPosY), old(playerPosXOld), old(playerPosYOld))
         else if key == Char('r') then
           && !continueFlag && gameOver == old(gameOver)
           && StartedAt(old(level), old(playerPosX), old(playerPosY), old(playerPosXOld), old(playerPosYOld))
         else
           && level == old(level) && Snapshot() == old(Snapshot())
           && (continueFlag <==> key != Enter) && (gameOver <==> key == Enter || old(gameOver))
    }

    /** The level-end branch of `updateKeyInGame`: record a win not yet recorded, then handle the key. */
    method OnLevelEnd(key: Key, bestTime: int)
      requires Valid() && HasStats() && continueFlag
      modifies levelBestTime, levelBestMoves
      modifies this`minLevelNotCompleted, this`continueLevelAddFlag, this`continueFlag, this`gameOver
      modifies this`level, this`levelNow, this`levelNowLastStep, this`levelNowTmpStep, this`moves
      modifies this`playerPosX, this`playerPosY, this`playerPosXOld, this`playerPosYOld
      ensures LevelEnded(key, bestTime)
    {
      if continueLevelAddFlag {
        RecordWin(bestTime);
      }
      LevelEndKey(key);
    }

    /**
     * `updateKeyInGame` (level.c:197-383): at level end the win is recorded and ENTER or `r`
     * handled; otherwise `z` undoes one move, `r` restarts the level and an arrow key steps.
     */
    method UpdateKeyInGame(key: Key, bestTime: int, ghost tiles: seq<Tile>, ghost original: seq<Tile>)
      requires Valid() && HasStats()
      requires !continueFlag && key.Arrow? ==>
        && CanStepIn(levelNow, playerPosX, playerPosY, key.dir)
        && CFields.Contents(levelNow) == tiles && CFields.Contents(levels[level]) == original
      modifies levelNow, levelNowLastStep, levelNowTmpStep, levelBestTime, levelBestMoves
      modifies this`minLevelNotCompleted, this`continueLevelAddFlag, this`continueFlag, this`gameOver
      modifies this`level, this`levelNow, this`levelNowLastStep, this`levelNowTmpStep, this`moves, this`oldMoves
      modifies this`playerPosX, this`playerPosY, this`playerPosXOld, this`playerPosYOld
      ensures Valid() && HasStats()
      ensures old(continueFlag) ==> LevelEnded(key, bestTime)
      ensures !old(continueFlag) && key == Char('z') ==> Snapshot() == Undone(old(Snapshot()))
      ensures !old(continueFlag) && key == Char('r') ==>
        StartedAt(old(level), old(playerPosX), old(playerPosY), old(playerPosXOld), old(playerPosYOld))
      ensures !old(continueFlag) && key.Arrow? ==>
        Stepped(tiles, original, old(levelNow.Length0), old(playerPosX), old(playerPosY), key.dir)
      ensures !old(continueFlag) && !key.Arrow? ==> !continueFlag && !continueLevelAddFlag
      ensures !old(continueFlag) && !(key == Char('z') || key == Char('r') || key.Arrow?) ==>
        level == old(level) && Snapshot() == old(Snapshot())
      ensures !old(continueFlag) ==> gameOver == old(gameOver)
    {
      if continueFlag {
        OnLevelEnd(key, bestTime);
        return;
      }
      PlayKey(key, tiles, original);
    }
  }
}

=== FILE: level_pack.dfy ===
/**
 * A level pack (src/game/level.rs): its levels with their best time and best move count,
 * the sums over the pack, the reader of the pack text and of the save game, and the
 * save-game format.
 */
module LevelPacks {
  import opened Wrappers
  import opened Text
  import opened Levels

  const MAX_LEVEL_PACK_COUNT: nat := 64
  const MAX_LEVEL_COUNT_PER_PACK: nat := 192

  /** A level with its best time (milliseconds) and best move count, if any. */
  datatype LevelWithStats = LevelWithStats(level: Level, bestTime: Option<U64>, bestMoves: Option<U32>)

  // ----- best stats -----

  /** The stat kept after a finished run: the new one if none is stored or it is strictly smaller. */
  function Improve(current: Option<nat>, candidate: nat): (r: Option<nat>)
    ensures r == current || r == Some(candidate)
  {
    if current.None? || candidate < current.value then Some(candidate) else current
  }

  /** The kept stat is the minimum of the stored one and the new one. */
  lemma ImproveIsMinimum(current: Option<nat>, candidate: nat)
    ensures Improve(current, candidate).Some?
    ensures Improve(current, candidate).value <= candidate
    ensures current.Some? ==> Improve(current, candidate).value <= current.value
  {
  }

  /** The fold of `calculate_stats_sum` over one stat: it wraps at `limit` and is None once a level lacks the stat. */
  function StatSum(stats: seq<Option<nat>>, limit: nat): (r: Option<nat>)
    requires limit > 0
    ensures r.Some? ==> r.value < limit
  {
    if stats == [] then Some(0)
    else
      var acc := StatSum(stats[..|stats| - 1], limit);
      var last := stats[|stats| - 1];
      if last.Some? && acc.Some? then Some((acc.value + last.value) % limit) else None
  }

  /** The sum, without wrap-around, of the stats present. */
  function Total(stats: seq<Option<nat>>): nat {
    if stats == [] then 0
    else Total(stats[..|stats| - 1]) + (if stats[|stats| - 1].Some? then stats[|stats| - 1].value else 0)
  }

  predicate AllSet(stats: seq<Option<nat>>) {
    forall i | 0 <= i < |stats| :: stats[i].Some?
  }

  /** The remainder is the one r with a == q*m + r and 0 <= r < m. */
  lemma ModUnique(a: nat, m: nat, q: nat, r: nat)
    requires m > 0 && a == q * m + r && r < m
    ensures a % m == r
  {
    var q0, r0 := a / m, a % m;
    assert a == q0 * m + r0;
    if q0 < q {
      MulMonotone(q0 + 1, q, m);
    } else if q0 > q {
      MulMonotone(q + 1, q0, m);
    }
  }

  lemma ModAddLeft(a: nat, b: nat, m: nat)
    requires m > 0
    ensures ((a % m) + b) % m == (a + b) % m
  {
    var c := (a % m) + b;
    assert a == (a / m) * m + a % m;
    assert c == (c / m) * m + c % m;
    assert a + b == (a / m + c / m) * m + c % m;
    ModUnique(a + b, m, a / m + c / m, c % m);
  }

  /** The fold is Some exactly when every level has the stat, and then it is the total modulo `limit`. */
  lemma {:induction false} StatSumMeaning(stats: seq<Option<nat>>, limit: nat)
    requires limit > 0
    ensures StatSum(stats, limit).Some? <==> AllSet(stats)
    ensures StatSum(stats, limit).Some? ==> StatSum(stats, limit).value == Total(stats) % limit
  {
    if stats != [] {
      var prefix := stats[..|stats| - 1];
      var last := stats[|stats| - 1];
      StatSumMeaning(prefix, limit);
      if AllSet(stats) {
        assert AllSet(prefix) by {
          forall i | 0 <= i < |prefix| ensures prefix[i].Some? {
            assert prefix[i] == stats[i];
          }
        }
        ModAddLeft(Total(prefix), last.value, limit);
      } else if last.Some? {
        var i :| 0 <= i < |stats| && stats[i].None?;
        assert prefix[i] == stats[i];
      }
    }
  }

  /** The pack sum: None for an empty pack, otherwise the fold. */
  function PackSum(stats: seq<Option<nat>>, limit: nat): (r: Option<nat>)
    requires limit > 0
    ensures r.Some? ==> r.value < limit
  {
    if stats == [] then None else StatSum(stats, limit)
  }

  /** `calculate_stats_sum`: a pack sum is Some exactly when the pack is not empty and every level has the stat. */
  lemma PackSumMeaning(stats: seq<Option<nat>>, limit: nat)
    requires limit > 0
    ensures PackSum(stats, limit).Some? <==> stats != [] && AllSet(stats)
    ensures PackSum(stats, limit).Some? ==> PackSum(stats, limit).value == Total(stats) % limit
  {
    StatSumMeaning(stats, limit);
  }

  /** When the true total fits the integer type, the pack sum is the total itself. */
  lemma PackSumExact(stats: seq<Option<nat>>, limit: nat)
    requires limit > 0 && stats != [] && AllSet(stats) && Total(stats) < limit
    ensures PackSum(stats, limit) == Some(Total(stats))
  {
    StatSumMeaning(stats, limit);
    ModUnique(Total(stats), limit, 0, Total(stats));
  }

  /** A level without a stat makes the pack sum of that stat None. */
  lemma {:induction false} PackSumOfUnset(stats: seq<Option<nat>>, limit: nat)
    requires limit > 0
    ensures PackSum(stats + [None], limit) == None
  {
    assert (stats + [None])[..|stats|] == stats;
  }

  function BestTimes(levels: seq<LevelWithStats>): seq<Option<nat>> {
    seq(|levels|, i requires 0 <= i < |levels| => levels[i].bestTime)
  }

  function BestMoves(levels: seq<LevelWithStats>): seq<Option<nat>> {
    seq(|levels|, i requires 0 <= i < |levels| => levels[i].bestMoves)
  }

  /** The level at `index` after a finished run with the given time and move count. */
  function Improved(l: LevelWithStats, bestTime: U64, bestMoves: U32): LevelWithStats {
    l.(bestTime := Improve(l.bestTime, bestTime), bestMoves := Improve(l.bestMoves, bestMoves))
  }

  class LevelPack {
    const id: string
    const path: string
    var levels: seq<LevelWithStats>
    var minLevelNotCompleted: USize
    var bestTimeSum: Option<U64>
    var bestMovesSum: Option<U32>

    /** The two sums are always those of the current levels. */
    ghost predicate Valid()
      reads this
    {
      && bestTimeSum == PackSum(BestTimes(levels), U64_LIMIT)
      && bestMovesSum == PackSum(BestMoves(levels), U32_LIMIT)
    }

    /** `LevelPack::new`: no levels, nothing completed, no sums. */
    constructor(id: string, path: string)
      ensures this.id == id && this.path == path
      ensures levels == [] && minLevelNotCompleted == 0
      ensures bestTimeSum == None && bestMovesSum == None
      ensures Valid()
    {
      this.id := id;
      this.path := path;
      levels := [];
      minLevelNotCompleted := 0;
      bestTimeSum := None;
      bestMovesSum := None;
    }

    /** `calculate_stats_sum`: recomputes both sums from the levels. */
    method CalculateStatsSum()
      modifies this`bestTimeSum, this`bestMovesSum
      ensures levels == old(levels) && minLevelNotCompleted == old(minLevelNotCompleted)
      ensures Valid()
    {
      if levels == [] {
        bestTimeSum := None;
        bestMovesSum := None;
        return;
      }
      var timeSum: Option<U64> := Some(0);
      var movesSum: Option<U32> := Some(0);
      var i := 0;
      while i < |levels|
        invariant 0 <= i <= |levels|
        invariant timeSum == StatSum(BestTimes(levels)[..i], U64_LIMIT)
        invariant movesSum == StatSum(BestMoves(levels)[..i], U32_LIMIT)
      {
        assert BestTimes(levels)[..i + 1][..i] == BestTimes(levels)[..i];
        assert BestMoves(levels)[..i + 1][..i] == BestMoves(levels)[..i];
        var current := levels[i];
        timeSum := if current.bestTime.Some? then
            (if timeSum.Some? then Some((timeSum.value + current.bestTime.value) % U64_LIMIT) else None)
          else None;
        movesSum := if current.bestMoves.Some? then
            (if movesSum.Some? then Some((movesSum.value + current.bestMoves.value) % U32_LIMIT) else None)
          else None;
        i := i + 1;
      }
      assert BestTimes(levels)[..i] == BestTimes(levels);
      assert BestMoves(levels)[..i] == BestMoves(levels);
      bestTimeSum := timeSum;
      bestMovesSum := movesSum;
    }

    /**
     * `update_stats`: keeps the better of the stored and the new stats of level `index` and
     * recomputes the sums; None, with nothing changed, when there is no such level.
     */
    method UpdateStats(index: USize, bestTime: U64, bestMoves: U32) returns (r: Option<()>)
      requires Valid()
      modifies this`levels, this`bestTimeSum, this`bestMovesSum
      ensures index >= |old(levels)| ==> r.None? && levels == old(levels)
      ensures index < |old(levels)| ==> r.Some? && levels == old(levels)[index := Improved(old(levels)[index], bestTime, bestMoves)]
      ensures minLevelNotCompleted == old(minLevelNotCompleted)
      ensures Valid()
    {
      if index >= |levels| {
        return None;
      }
      levels := levels[index := Improved(levels[index], bestTime, bestMoves)];
      CalculateStatsSum();
      return Some(());
    }

    /** `set_min_level_not_completed`. */
    method SetMinLevelNotCompleted(minLevelNotCompleted: USize)
      modifies this`minLevelNotCompleted
      ensures this.minLevelNotCompleted == minLevelNotCompleted
    {
      this.minLevelNotCompleted := minLevelNotCompleted;
    }

    /** `add_level`: appends a level without stats and recomputes the sums. */
    method AddLevel(level: Level)
      requires Valid()
      modifies this`levels, this`bestTimeSum, this`bestMovesSum
      ensures levels == old(levels) + [LevelWithStats(level, None, None)]
      ensures minLevelNotCompleted == old(minLevelNotCompleted)
      ensures Valid()
    {
      levels := levels + [LevelWithStats(level, None, None)];
      CalculateStatsSum();
    }

    /**
     * `read_from_save_game`: the levels of the pack text `lvlData`, each with the stats the
     * save game holds for it, and the save game's first uncompleted level. `saveData` is the
     * save-game text, or None when there is no save file.
     */
    static method ReadFromSaveGame(id: string, path: string, lvlData: string, saveData: Option<string>)
      returns (r: Result<LevelPack, string>)
      ensures ParsePack(path, lvlData).Err? ==> r == Err(ParsePack(path, lvlData).error)
      ensures ParsePack(path, lvlData).Ok? ==> r.Ok?
      ensures r.Ok? ==>
        var pack := r.value;
        var grids := ParsePack(path, lvlData).value;
        var saved := SavedState(saveData);
        && fresh(pack) && pack.Valid() && pack.id == id && pack.path == path
        && pack.minLevelNotCompleted == saved.0
        && |pack.levels| == |grids| <= MAX_LEVEL_COUNT_PER_PACK
        && forall k | 0 <= k < |grids| ::
          && fresh(pack.levels[k].level)
          && pack.levels[k].level.Valid()
          && pack.levels[k].level.Contents() == grids[k]
          && (pack.levels[k].bestTime, pack.levels[k].bestMoves) == saved.1[k]
    {
      var parsed := ReadPackLevels(path, lvlData);
      if parsed.Err? {
        return Err(parsed.error);
      }
      var grids := parsed.value;
      ParsePackShape(path, lvlData);
      var minLevel, stats := ReadSaveGame(saveData);
      var pack := FromParts(id, path, grids, minLevel, stats);
      return Ok(pack);
    }

    /** The struct literal and `calculate_stats_sum` that end `read_from_save_game`. */
    static method FromParts(id: string, path: string, grids: seq<Grid>, minLevel: USize, stats: seq<SavedStats>)
      returns (pack: LevelPack)
      requires |grids| <= |stats|
      requires forall k | 0 <= k < |grids| :: grids[k].WellFormed()
      ensures fresh(pack) && pack.Valid() && pack.id == id && pack.path == path
      ensures pack.minLevelNotCompleted == minLevel && |pack.levels| == |grids|
      ensures forall k | 0 <= k < |grids| ::
        && fresh(pack.levels[k].level)
        && pack.levels[k].level.Valid()
        && pack.levels[k].level.Contents() == grids[k]
        && (pack.levels[k].bestTime, pack.levels[k].bestMoves) == stats[k]
    {
      var levels := WithStats(grids, stats);
      pack := new LevelPack(id, path);
      pack.levels := levels;
      pack.minLevelNotCompleted := minLevel;
      pack.CalculateStatsSum();
    }

    /** The `zip` of `read_from_save_game`: a new level for each grid, with the stats at its index. */
    static method WithStats(grids: seq<Grid>, stats: seq<SavedStats>) returns (levels: seq<LevelWithStats>)
      requires |grids| <= |stats|
      requires forall k | 0 <= k < |grids| :: grids[k].WellFormed()
      ensures |levels| == |grids|
      ensures forall k | 0 <= k < |grids| ::
        && fresh(levels[k].level)
        && levels[k].level.Valid()
        && levels[k].level.Contents() == grids[k]
        && (levels[k].bestTime, levels[k].bestMoves) == stats[k]
    {
      levels := [];
      var k := 0;
      while k < |grids|
        invariant k <= |grids| && |levels| == k
        invariant forall j | 0 <= j < k ::
          && fresh(levels[j].level)
          && levels[j].level.Valid()
          && levels[j].level.Contents() == grids[j]
          && (levels[j].bestTime, levels[j].bestMoves) == stats[j]
      {
        var level := new Level.FromGrid(grids[k]);
        levels := levels + [LevelWithStats(level, stats[k].0, stats[k].1)];
        k := k + 1;
      }
    }
  }

  /** After `add_level` both sums are None: the new level has no stats yet. */
  lemma AddedLevelUnsetsSums(levels: seq<LevelWithStats>, level: Level)
    ensures PackSum(BestTimes(levels + [LevelWithStats(level, None, None)]), U64_LIMIT) == None
    ensures PackSum(BestMoves(levels + [LevelWithStats(level, None, None)]), U32_LIMIT) == None
  {
    var added := levels + [LevelWithStats(level, None, None)];
    assert BestTimes(added) == BestTimes(levels) + [None];
    assert BestMoves(added) == BestMoves(levels) + [None];
    PackSumOfUnset(BestTimes(levels), U64_LIMIT);
    PackSumOfUnset(BestMoves(levels), U32_LIMIT);
  }

  // ----- the save game -----

  const I64_SIGN: nat := 0x8000_0000_0000_0000
  const I32_SIGN: nat := 0x8000_0000

  /** `as i64` on a `u64`: values from 2^63 up become negative. */
  function AsI64(v: U64): int {
    if v < I64_SIGN then v else v - U64_LIMIT
  }

  /** `as i32` on a `u32`: values from 2^31 up become negative. */
  function AsI32(v: U32): int {
    if v < I32_SIGN then v else v - U32_LIMIT
  }

  /** One line of the save game, "ms{time},{moves}", with -1 for a missing stat. */
  function SaveLine(bestTime: Option<U64>, bestMoves: Option<U32>): string {
    "ms" + IntToDecimal(if bestTime.None? then -1 else AsI64(bestTime.value))
    + "," + IntToDecimal(if bestMoves.None? then -1 else AsI32(bestMoves.value))
  }

  /** `save_save_game`: the first uncompleted level, then a line for each level before it. */
  function SaveGameText(minLevelNotCompleted: nat, levels: seq<LevelWithStats>): string {
    Unlines([NatToDecimal(minLevelNotCompleted)] + SaveLines(minLevelNotCompleted, levels))
  }

  /** The save lines of the levels before the first uncompleted one (`take`). */
  function SaveLines(minLevelNotCompleted: nat, levels: seq<LevelWithStats>): (r: seq<string>)
    ensures |r| == if minLevelNotCompleted < |levels| then minLevelNotCompleted else |levels|
  {
    var n := if minLevelNotCompleted < |levels| then minLevelNotCompleted else |levels|;
    seq(n, i requires 0 <= i < n => SaveLine(levels[i].bestTime, levels[i].bestMoves))
  }

  /** The stats a save-game line gives one level: best time and best move count. */
  type SavedStats = (Option<U64>, Option<U32>)

  const NO_STATS: SavedStats := (None, None)

  /**
   * The stats in one trimmed save-game line: "ms" lines hold milliseconds, older lines hold
   * seconds, which become milliseconds*1000 + 999; a line that is not two comma-separated
   * fields gives no stats.
   */
  function DecodeSaveLine(line: string): SavedStats {
    var isNewFormat := "ms" <= line;
    var body := if isNewFormat then line[2..] else line;
    var tokens := Split(body, ',');
    if |tokens| != 2 then NO_STATS
    else
      var time := ParseUnsigned(tokens[0], U64_LIMIT);
      (if time.None? then None
       else if isNewFormat then Some(time.value)
       else Some((time.value * 1000 + 999) % U64_LIMIT),
       ParseUnsigned(tokens[1], U32_LIMIT))
  }

  /** No save game, or one that is empty or has no readable first line, gives no progress and no stats. */
  function EmptySaveState(): (nat, seq<SavedStats>) {
    (0, seq(MAX_LEVEL_COUNT_PER_PACK, _ => NO_STATS))
  }

  /**
   * What `read_from_save_game` takes from the save-game text (None when there is no save
   * file): the first uncompleted level and the stats of the first 192 levels.
   */
  function SavedState(saveData: Option<string>): (r: (nat, seq<SavedStats>))
    ensures r.0 < USIZE_LIMIT && |r.1| == MAX_LEVEL_COUNT_PER_PACK
  {
    if saveData.None? then EmptySaveState()
    else
      var lines := Lines(saveData.value);
      if lines == [] then EmptySaveState()
      else match ParseUnsigned(Trim(lines[0]), USIZE_LIMIT)
        case None => EmptySaveState()
        case Some(m) => (m, StatsOfLines(lines))
  }

  /** The stats of the first 192 levels, from the lines after the first; missing lines give no stats. */
  function StatsOfLines(lines: seq<string>): (r: seq<SavedStats>)
    ensures |r| == MAX_LEVEL_COUNT_PER_PACK
  {
    seq(MAX_LEVEL_COUNT_PER_PACK, i requires 0 <= i < MAX_LEVEL_COUNT_PER_PACK =>
      if i + 1 < |lines| then DecodeSaveLine(Trim(lines[i + 1])) else NO_STATS)
  }

  /** The save-game part of `read_from_save_game`. */
  method ReadSaveGame(saveData: Option<string>) returns (minLevelNotCompleted: USize, stats: seq<SavedStats>)
    ensures (minLevelNotCompleted, stats) == SavedState(saveData)
  {
    minLevelNotCompleted := 0;
    stats := seq(MAX_LEVEL_COUNT_PER_PACK, _ => NO_STATS);
    if saveData.None? {
      return;
    }
    var lines := Lines(saveData.value);
    if lines == [] {
      return;
    }
    var first := ParseUnsigned(Trim(lines[0]), USIZE_LIMIT);
    if first.None? {
      return;
    }
    minLevelNotCompleted := first.value;
    stats := ReadSaveStats(lines);
  }

  /** The loop over the lines after the first: line i + 1 holds the stats of level i. */
  method ReadSaveStats(lines: seq<string>) returns (stats: seq<SavedStats>)
    ensures stats == StatsOfLines(lines)
  {
    stats := seq(MAX_LEVEL_COUNT_PER_PACK, _ => NO_STATS);
    var i := 0;
    while i < MAX_LEVEL_COUNT_PER_PACK && i + 1 < |lines|
      invariant 0 <= i <= MAX_LEVEL_COUNT_PER_PACK && (i == 0 || i < |lines|) && |stats| == MAX_LEVEL_COUNT_PER_PACK
      invariant forall j | 0 <= j < MAX_LEVEL_COUNT_PER_PACK ::
        stats[j] == if j < i then DecodeSaveLine(Trim(lines[j + 1])) else NO_STATS
    {
      var entry := DecodeSaveLine(Trim(lines[i + 1]));
      stats := stats[i := entry];
      i := i + 1;
    }
    assert stats == StatsOfLines(lines);
  }

  /** What a saved stat reads back as: one that `as i64`/`as i32` made negative is lost. */
  function Reloaded(v: Option<nat>, sign: nat): Option<nat> {
    if v.Some? && v.value < sign then v else None
  }

  /** The characters a save line is made of. */
  predicate IsSaveChar(c: char) {
    IsDigit(c) || c == '-' || c == ',' || c == 'm' || c == 's'
  }

  lemma IntToDecimalShape(i: int)
    ensures IntToDecimal(i) != [] && IsDigit(IntToDecimal(i)[|IntToDecimal(i)| - 1])
    ensures forall k | 0 <= k < |IntToDecimal(i)| :: IsDigit(IntToDecimal(i)[k]) || IntToDecimal(i)[k] == '-'
  {
    var d := NatToDecimal(if i < 0 then -i else i);
    if i < 0 {
      assert IntToDecimal(i) == "-" + d;
    }
  }

  /** A save line is trimmed, ends in a digit, and holds only save characters. */
  lemma SaveLineShape(bestTime: Option<U64>, bestMoves: Option<U32>)
    ensures var line := SaveLine(bestTime, bestMoves);
      && line != [] && IsDigit(line[|line| - 1])
      && (forall k | 0 <= k < |line| :: IsSaveChar(line[k]))
      && Trim(line) == line
  {
    var a := IntToDecimal(if bestTime.None? then -1 else AsI64(bestTime.value));
    var b := IntToDecimal(if bestMoves.None? then -1 else AsI32(bestMoves.value));
    var line := SaveLine(bestTime, bestMoves);
    IntToDecimalShape(if bestTime.None? then -1 else AsI64(bestTime.value));
    IntToDecimalShape(if bestMoves.None? then -1 else AsI32(bestMoves.value));
    assert line == "ms" + a + "," + b;
    forall k | 0 <= k < |line| ensures IsSaveChar(line[k]) {
      if 2 <= k < 2 + |a| {
        assert line[k] == a[k - 2];
      } else if k > 2 + |a| {
        assert line[k] == b[k - 3 - |a|];
      }
    }
    assert line[|line| - 1] == b[|b| - 1];
    TrimUnchanged(line);
  }

  /** `u64::from_str`/`u32::from_str` of a formatted signed number: the number if it is not negative. */
  lemma ParseSigned(i: int, limit: nat)
    requires i < limit
    ensures ParseUnsigned(IntToDecimal(i), limit) == if i >= 0 then Some(i) else None
  {
    if i >= 0 {
      ParseDecimal(i, limit);
    } else {
      ParseNegativeFails(i, limit);
    }
  }

  /** Reading a save line back gives the stats that were saved, except those the signed cast made negative. */
  lemma SaveLineRoundTrip(bestTime: Option<U64>, bestMoves: Option<U32>)
    ensures DecodeSaveLine(Trim(SaveLine(bestTime, bestMoves)))
         == (Reloaded(bestTime, I64_SIGN), Reloaded(bestMoves, I32_SIGN))
  {
    var x := if bestTime.None? then -1 else AsI64(bestTime.value);
    var y := if bestMoves.None? then -1 else AsI32(bestMoves.value);
    SaveLineShape(bestTime, bestMoves);
    IntToDecimalShape(x);
    IntToDecimalShape(y);
    DecodeNewFormat(IntToDecimal(x), IntToDecimal(y));
    ParseSigned(x, U64_LIMIT);
    ParseSigned(y, U32_LIMIT);
  }

  /** A line "ms{a},{b}" holds the values of the two fields. */
  lemma DecodeNewFormat(a: string, b: string)
    requires ',' !in a && ',' !in b
    ensures DecodeSaveLine("ms" + a + "," + b) == (ParseUnsigned(a, U64_LIMIT), ParseUnsigned(b, U32_LIMIT))
  {
    var line := "ms" + a + "," + b;
    assert "ms" <= line && line[2..] == a + [','] + b;
    SplitPair(a, b, ',');
  }

  /** A line in the older format, seconds and moves, reads as milliseconds*1000 + 999 and moves. */
  lemma OldSaveLineInSeconds(seconds: U64, moves: U32)
    ensures DecodeSaveLine(NatToDecimal(seconds) + "," + NatToDecimal(moves))
         == (Some((seconds * 1000 + 999) % U64_LIMIT), Some(moves))
  {
    var a, b := NatToDecimal(seconds), NatToDecimal(moves);
    var line := a + "," + b;
    assert line == a + [','] + b;
    assert line[0] == a[0];
    assert !("ms" <= line);
    assert ',' !in a && ',' !in b;
    SplitPair(a, b, ',');
    ParseDecimal(seconds, U64_LIMIT);
    ParseDecimal(moves, U32_LIMIT);
  }

  /**
   * The stats a save game written for `levels` holds: those of the levels before the first
   * uncompleted one, as `Reloaded` gives them back, and none for the others.
   */
  function ReloadedStats(minLevelNotCompleted: nat, levels: seq<LevelWithStats>): (r: seq<SavedStats>)
    ensures |r| == MAX_LEVEL_COUNT_PER_PACK
  {
    seq(MAX_LEVEL_COUNT_PER_PACK, i requires 0 <= i < MAX_LEVEL_COUNT_PER_PACK =>
      if i < minLevelNotCompleted && i < |levels| then
        (Reloaded(levels[i].bestTime, I64_SIGN), Reloaded(levels[i].bestMoves, I32_SIGN))
      else NO_STATS)
  }

  /**
   * Reading back what `save_save_game` wrote gives the same first uncompleted level and,
   * for every level before it, the stats that were saved (up to the sign cast).
   */
  lemma SaveGameRoundTrip(minLevelNotCompleted: USize, levels: seq<LevelWithStats>)
    ensures SavedState(Some(SaveGameText(minLevelNotCompleted, levels)))
         == (minLevelNotCompleted, ReloadedStats(minLevelNotCompleted, levels))
  {
    var first := NatToDecimal(minLevelNotCompleted);
    var ls := [first] + SaveLines(minLevelNotCompleted, levels);
    SaveGameLines(minLevelNotCompleted, levels);
    TrimUnchanged(first);
    ParseDecimal(minLevelNotCompleted, USIZE_LIMIT);
    StatsOfSaveLines(minLevelNotCompleted, levels);
    assert SavedState(Some(SaveGameText(minLevelNotCompleted, levels)))
        == (minLevelNotCompleted, StatsOfLines(ls));
  }

  /** The stats read from the save lines are the saved stats, up to the sign cast. */
  lemma StatsOfSaveLines(minLevelNotCompleted: nat, levels: seq<LevelWithStats>)
    ensures StatsOfLines([NatToDecimal(minLevelNotCompleted)] + SaveLines(minLevelNotCompleted, levels))
         == ReloadedStats(minLevelNotCompleted, levels)
  {
    var ls := [NatToDecimal(minLevelNotCompleted)] + SaveLines(minLevelNotCompleted, levels);
    var expected := ReloadedStats(minLevelNotCompleted, levels);
    forall i | 0 <= i < MAX_LEVEL_COUNT_PER_PACK ensures StatsOfLines(ls)[i] == expected[i] {
      SavedStatsAt(minLevelNotCompleted, levels, i);
    }
  }

  /** One index of StatsOfSaveLines. */
  lemma SavedStatsAt(minLevelNotCompleted: nat, levels: seq<LevelWithStats>, i: nat)
    requires i < MAX_LEVEL_COUNT_PER_PACK
    ensures StatsOfLines([NatToDecimal(minLevelNotCompleted)] + SaveLines(minLevelNotCompleted, levels))[i]
         == ReloadedStats(minLevelNotCompleted, levels)[i]
  {
    var ls := [NatToDecimal(minLevelNotCompleted)] + SaveLines(minLevelNotCompleted, levels);
    if i < minLevelNotCompleted && i < |levels| {
      assert ls[i + 1] == SaveLine(levels[i].bestTime, levels[i].bestMoves);
      SaveLineRoundTrip(levels[i].bestTime, levels[i].bestMoves);
    }
  }

  /** The lines of a saved game are the progress line and then the save lines. */
  lemma SaveGameLines(minLevelNotCompleted: nat, levels: seq<LevelWithStats>)
    ensures Lines(SaveGameText(minLevelNotCompleted, levels))
         == [NatToDecimal(minLevelNotCompleted)] + SaveLines(minLevelNotCompleted, levels)
  {
    var first := NatToDecimal(minLevelNotCompleted);
    var saved := SaveLines(minLevelNotCompleted, levels);
    var ls := [first] + saved;
    forall k | 0 <= k < |ls|
      ensures '\n' !in ls[k] && ls[k] != [] && IsDigit(ls[k][|ls[k]| - 1])
    {
      if k == 0 {
        assert forall c | c in first :: IsDigit(c);
      } else {
        assert ls[k] == SaveLine(levels[k - 1].bestTime, levels[k - 1].bestMoves);
        SaveLineShape(levels[k - 1].bestTime, levels[k - 1].bestMoves);
        assert forall c | c in ls[k] :: IsSaveChar(c);
      }
    }
    LinesOfUnlines(ls);
  }

  // ----- the level pack text -----

  const LEVEL_COUNT_PREFIX: string := "Levels: "

  function Quoted(s: string): string {
    "\"" + s + "\""
  }

  function ErrEmpty(path: string): string {
    "The level pack file " + Quoted(path) + " is empty!"
  }

  function ErrCountMissing(path: string): string {
    "The level count is missing in the level pack file " + Quoted(path) + "!"
  }

  function ErrTooManyLevels(path: string, countText: string): string {
    "There are too many levels in the level pack file " + Quoted(path)
    + " (Count: " + countText + ", Max: " + NatToDecimal(MAX_LEVEL_COUNT_PER_PACK) + ")!"
  }

  function ErrCountInvalid(path: string, countText: string): string {
    "The level count " + Quoted(countText) + " is invalid in the level pack file " + Quoted(path) + "!"
  }

  function ErrEndOfFile(path: string, read: nat, expected: nat): string {
    "EOF was reached early in the level pack file " + Quoted(path)
    + " (Read: " + NatToDecimal(read) + " levels, Expected: " + NatToDecimal(expected) + " levels)!"
  }

  function ErrLevelInvalid(path: string, level: nat): string {
    "Level " + NatToDecimal(level) + " is invalid in the level pack file " + Quoted(path) + "!"
  }

  function ErrEndOfFileInLevel(path: string, level: nat): string {
    "EOF was reached early during parsing of level " + NatToDecimal(level)
    + " is invalid in the level pack file " + Quoted(path) + "!"
  }

  function ErrLevelParse(path: string, error: string, level: nat): string {
    Quoted(error) + " occurred during parsing of level " + NatToDecimal(level)
    + " is invalid in the level pack file " + Quoted(path) + "!"
  }

  function ErrTrailingData(path: string): string {
    "Additional data was found after last level was parsed in the level pack file " + Quoted(path) + "!"
  }

  /** The lines that are not blank once trimmed, in order (the `filter` over the lines after the first). */
  function NonBlank(lines: seq<string>): (r: seq<string>)
    ensures |r| <= |lines|
    ensures forall k | 0 <= k < |r| :: Trim(r[k]) != []
  {
    if lines == [] then []
    else (if Trim(lines[0]) == [] then [] else [lines[0]]) + NonBlank(lines[1..])
  }

  /** The first line, trimmed, must be "Levels: N" with N at most 192. */
  function LevelCount(path: string, lines: seq<string>): (r: Result<nat, string>)
    ensures r.Ok? ==> r.value <= MAX_LEVEL_COUNT_PER_PACK
  {
    if lines == [] then Err(ErrEmpty(path))
    else
      var line := Trim(lines[0]);
      if !(LEVEL_COUNT_PREFIX <= line) then Err(ErrCountMissing(path))
      else
        var countText := line[|LEVEL_COUNT_PREFIX|..];
        match ParseUnsigned(countText, USIZE_LIMIT)
        case None => Err(ErrCountInvalid(path, countText))
        case Some(count) =>
          if count > MAX_LEVEL_COUNT_PER_PACK then Err(ErrTooManyLevels(path, countText)) else Ok(count)
  }

  /**
   * The height a level's first line announces: the line, untrimmed, starts with "w: ",
   * contains ", h: ", and what follows the first ", h: " is a number.
   */
  function AnnouncedHeight(line: string): Option<nat> {
    var index := Find(line, ", h: ");
    if !("w: " <= line) || index.None? then None
    else ParseUnsigned(line[index.value + 5..], USIZE_LIMIT)
  }

  /** A parser for the text of one level; the pack reader applies `from_str`. */
  type LevelParser = string -> Result<Grid, string>

  /**
   * Where level number `level` (counted from 0) ends among the non-blank lines when it
   * starts at `pos`: its first line announces how many lines follow it.
   */
  function LevelEnd(path: string, rest: seq<string>, pos: nat, level: nat, count: nat): (r: Result<nat, string>)
    requires pos <= |rest|
    ensures r.Ok? ==> pos < r.value <= |rest|
  {
    if pos == |rest| then Err(ErrEndOfFile(path, level + 1, count))
    else match AnnouncedHeight(rest[pos])
      case None => Err(ErrLevelInvalid(path, level + 1))
      case Some(height) =>
        if pos + 1 + height > |rest| then Err(ErrEndOfFileInLevel(path, level + 1))
        else Ok(pos + 1 + height)
  }

  /** Level number `level`, `from_str` on its lines joined by "\n". */
  function LevelAt(parse: LevelParser, path: string, rest: seq<string>, pos: nat, level: nat, count: nat): Result<Grid, string>
    requires pos <= |rest|
  {
    match LevelEnd(path, rest, pos, level, count)
    case Err(e) => Err(e)
    case Ok(end) =>
      match parse(Join(rest[pos..end], "\n"))
      case Err(e) => Err(ErrLevelParse(path, e, level + 1))
      case Ok(g) => Ok(g)
  }

  /** Levels `level` to `count - 1` from position `pos` on; nothing may follow the last one. */
  function LevelsFrom(parse: LevelParser, path: string, rest: seq<string>, pos: nat, level: nat, count: nat): Result<seq<Grid>, string>
    requires pos <= |rest| && level <= count
    decreases count - level
  {
    if level == count then
      if pos < |rest| then Err(ErrTrailingData(path)) else Ok([])
    else match LevelAt(parse, path, rest, pos, level, count)
      case Err(e) => Err(e)
      case Ok(g) =>
        match LevelsFrom(parse, path, rest, LevelEnd(path, rest, pos, level, count).value, level + 1, count)
        case Err(e) => Err(e)
        case Ok(gs) => Ok([g] + gs)
  }

  /** The level part of `read_from_save_game`: the levels of a pack text, or the first error. */
  function ParsePack(path: string, data: string): Result<seq<Grid>, string> {
    var lines := Lines(data);
    match LevelCount(path, lines)
    case Err(e) => Err(e)
    case Ok(count) => LevelsFrom(ParseLevel, path, NonBlank(lines[1..]), 0, 0, count)
  }

  /** `acc` in front of a result's levels; an error stays the error. */
  function Prefixed(acc: seq<Grid>, r: Result<seq<Grid>, string>): Result<seq<Grid>, string> {
    if r.Ok? then Ok(acc + r.value) else r
  }

  /** The levels after a successfully read one are that level followed by the rest. */
  lemma LevelsFromStep(parse: LevelParser, path: string, rest: seq<string>, pos: nat, level: nat, count: nat, g: Grid, end: nat)
    requires pos <= |rest| && level < count
    requires LevelAt(parse, path, rest, pos, level, count) == Ok(g) && LevelEnd(path, rest, pos, level, count) == Ok(end)
    ensures end <= |rest|
    ensures LevelsFrom(parse, path, rest, pos, level, count) == Prefixed([g], LevelsFrom(parse, path, rest, end, level + 1, count))
  {
  }

  /** A level that fails to read is the error of the whole pack. */
  lemma LevelsFromError(parse: LevelParser, path: string, rest: seq<string>, pos: nat, level: nat, count: nat)
    requires pos <= |rest| && level < count && LevelAt(parse, path, rest, pos, level, count).Err?
    ensures LevelsFrom(parse, path, rest, pos, level, count) == Err(LevelAt(parse, path, rest, pos, level, count).error)
  {
  }

  lemma PrefixedEmpty(r: Result<seq<Grid>, string>)
    ensures Prefixed([], r) == r
  {
    if r.Ok? {
      assert [] + r.value == r.value;
    }
  }

  lemma PrefixedAppend(acc: seq<Grid>, g: Grid, r: Result<seq<Grid>, string>)
    ensures Prefixed(acc, Prefixed([g], r)) == Prefixed(acc + [g], r)
  {
    if r.Ok? {
      assert acc + ([g] + r.value) == acc + [g] + r.value;
    }
  }

  lemma ParsePackLevels(path: string, data: string)
    requires LevelCount(path, Lines(data)).Ok?
    ensures ParsePack(path, data) == LevelsFrom(ParseLevel, path, NonBlank(Lines(data)[1..]), 0, 0, LevelCount(path, Lines(data)).value)
  {
  }

  /** Reads the levels of a pack text as `read_from_save_game` does, line by line. */
  method ReadPackLevels(path: string, data: string) returns (r: Result<seq<Grid>, string>)
    ensures r == ParsePack(path, data)
  {
    var lines := Lines(data);
    var header := LevelCount(path, lines);
    if header.Err? {
      return Err(header.error);
    }
    var count := header.value;
    var rest := NonBlank(lines[1..]);
    var levels: seq<Grid> := [];
    var pos: nat := 0;
    var i: nat := 0;
    ParsePackLevels(path, data);
    PrefixedEmpty(LevelsFrom(ParseLevel, path, rest, 0, 0, count));
    while i < count
      invariant i <= count && pos <= |rest|
      invariant ParsePack(path, data) == Prefixed(levels, LevelsFrom(ParseLevel, path, rest, pos, i, count))
      decreases count - i
    {
      var level, end := ReadLevelAt(path, rest, pos, i, count);
      if level.Err? {
        LevelsFromError(ParseLevel, path, rest, pos, i, count);
        return Err(level.error);
      }
      LevelsFromStep(ParseLevel, path, rest, pos, i, count, level.value, end);
      PrefixedAppend(levels, level.value, LevelsFrom(ParseLevel, path, rest, end, i + 1, count));
      levels := levels + [level.value];
      pos := end;
      i := i + 1;
    }
    assert LevelsFrom(ParseLevel, path, rest, pos, i, count) == if pos < |rest| then Err(ErrTrailingData(path)) else Ok([]);
    if pos < |rest| {
      return Err(ErrTrailingData(path));
    }
    assert levels + [] == levels;
    return Ok(levels);
  }

  /**
   * One level of the pack: its lines, then `from_str`
   * on them joined by "\n"; `end` is the position after its last line.
   */
  method ReadLevelAt(path: string, rest: seq<string>, pos: nat, level: nat, count: nat)
    returns (r: Result<Grid, string>, end: nat)
    requires pos <= |rest|
    ensures r == LevelAt(ParseLevel, path, rest, pos, level, count)
    ensures r.Ok? ==> LevelEnd(path, rest, pos, level, count) == Ok(end)
  {
    var span, levelLines := CollectLevelLines(path, rest, pos, level, count);
    if span.Err? {
      return Err(span.error), pos;
    }
    end := span.value;
    var parsed := ReadLevel(Join(levelLines, "\n"));
    if parsed.Err? {
      return Err(ErrLevelParse(path, parsed.error, level + 1)), end;
    }
    return Ok(parsed.value), end;
  }

  /** The lines of one level: its first line and as many further lines as that line announces. */
  method CollectLevelLines(path: string, rest: seq<string>, pos: nat, level: nat, count: nat)
    returns (span: Result<nat, string>, levelLines: seq<string>)
    requires pos <= |rest|
    ensures span == LevelEnd(path, rest, pos, level, count)
    ensures span.Ok? ==> levelLines == rest[pos..span.value]
  {
    levelLines := [];
    if pos == |rest| {
      return Err(ErrEndOfFile(path, level + 1, count)), levelLines;
    }
    var line := rest[pos];
    var height := AnnouncedHeight(line);
    if height.None? {
      return Err(ErrLevelInvalid(path, level + 1)), levelLines;
    }
    levelLines := [line];
    var k := 0;
    while k < height.value
      invariant 0 <= k <= height.value && pos + 1 + k <= |rest|
      invariant levelLines == rest[pos..pos + 1 + k]
    {
      if pos + 1 + k == |rest| {
        return Err(ErrEndOfFileInLevel(path, level + 1)), levelLines;
      }
      levelLines := levelLines + [rest[pos + 1 + k]];
      k := k + 1;
    }
    return Ok(pos + 1 + height.value), levelLines;
  }

  /** A successful read yields exactly `count - level` levels, each of them well formed. */
  lemma {:induction false} LevelsFromShape(parse: LevelParser, path: string, rest: seq<string>, pos: nat, level: nat, count: nat)
    requires forall text :: parse(text).Ok? ==> parse(text).value.WellFormed()
    requires pos <= |rest| && level <= count
    requires LevelsFrom(parse, path, rest, pos, level, count).Ok?
    ensures |LevelsFrom(parse, path, rest, pos, level, count).value| == count - level
    ensures forall k | 0 <= k < count - level :: LevelsFrom(parse, path, rest, pos, level, count).value[k].WellFormed()
    decreases count - level
  {
    if level < count {
      if LevelAt(parse, path, rest, pos, level, count).Err? {
        LevelsFromError(parse, path, rest, pos, level, count);
      }
      var g := LevelAt(parse, path, rest, pos, level, count).value;
      var end := LevelEnd(path, rest, pos, level, count).value;
      LevelsFromStep(parse, path, rest, pos, level, count, g, end);
      LevelsFromShape(parse, path, rest, end, level + 1, count);
      var levels := LevelsFrom(parse, path, rest, pos, level, count).value;
      var tail := LevelsFrom(parse, path, rest, end, level + 1, count).value;
      assert levels == [g] + tail;
      forall k | 0 <= k < count - level
        ensures levels[k].WellFormed()
      {
        if k > 0 {
          assert levels[k] == tail[k - 1];
        }
      }
    }
  }

  /** A pack that reads successfully holds the announced number of levels, at most 192, all well formed. */
  lemma ParsePackShape(path: string, data: string)
    requires ParsePack(path, data).Ok?
    ensures var lines := Lines(data);
      && LevelCount(path, lines).Ok?
      && |ParsePack(path, data).value| == LevelCount(path, lines).value <= MAX_LEVEL_COUNT_PER_PACK
      && forall k | 0 <= k < |ParsePack(path, data).value| :: ParsePack(path, data).value[k].WellFormed()
  {
    var lines := Lines(data);
    forall text | ParseLevel(text).Ok?
      ensures ParseLevel(text).value.WellFormed()
    {
      ParseLevelWellFormed(text);
    }
    LevelsFromShape(ParseLevel, path, NonBlank(lines[1..]), 0, 0, LevelCount(path, lines).value);
  }
}

=== FILE: levels.dfy ===
/**
 * A level grid (src/game/level.rs): `Level` with its tile accessors, the push of a box or a
 * key with the win check it performs, and `Level::from_str`, the reader of one level's text.
 */
module Levels {
  import opened Wrappers
  import opened Tiles
  import opened Text

  const LEVEL_INVALID: string := "Level is invalid!"

  /** A level's contents as a value: its dimensions and its tiles, row by row. */
  datatype Grid = Grid(width: nat, height: nat, tiles: seq<Tile>)
  {
    predicate WellFormed() {
      width > 0 && height > 0 && |tiles| == width * height
    }
  }

  /** The position of cell (x, y) in the row-major tile vector. */
  function FlatIndex(x: nat, y: nat, width: nat): nat {
    x + y * width
  }

  lemma MulMonotone(a: nat, b: nat, w: nat)
    requires a <= b
    ensures a * w <= b * w
  {
  }

  /** A cell inside the grid has a flat index inside the tile vector. */
  lemma FlatIndexInGrid(x: nat, y: nat, width: nat, height: nat)
    requires x < width && y < height
    ensures FlatIndex(x, y, width) < width * height
  {
    MulMonotone(y + 1, height, width);
  }

  /** Two cells of the grid never share a flat index. */
  lemma FlatIndexInjective(x1: nat, y1: nat, x2: nat, y2: nat, width: nat)
    requires x1 < width && x2 < width
    requires FlatIndex(x1, y1, width) == FlatIndex(x2, y2, width)
    ensures x1 == x2 && y1 == y2
  {
    if y1 < y2 {
      MulMonotone(y1 + 1, y2, width);
    } else if y2 < y1 {
      MulMonotone(y2 + 1, y1, width);
    }
  }

  class Level {
    const width: nat
    const height: nat
    var tiles: seq<Tile>

    ghost predicate Valid()
      reads this
    {
      width > 0 && height > 0 && |tiles| == width * height
    }

    function Contents(): Grid
      reads this
    {
      Grid(width, height, tiles)
    }

    /** `Level::new`; the source panics on a zero width or height. */
    constructor (width: nat, height: nat)
      requires width > 0 && height > 0
      ensures Valid() && this.width == width && this.height == height
      ensures forall i | 0 <= i < |tiles| :: tiles[i] == Empty
    {
      this.width := width;
      this.height := height;
      tiles := seq(width * height, _ => Empty);
    }

    /** `Clone::clone`: a new level with the same contents. */
    constructor Clone(other: Level)
      ensures width == other.width && height == other.height && tiles == other.tiles
    {
      width := other.width;
      height := other.height;
      tiles := other.tiles;
    }

    /** The struct literal `from_str` ends with. */
    constructor FromGrid(g: Grid)
      ensures Contents() == g
    {
      width := g.width;
      height := g.height;
      tiles := g.tiles;
    }

    /** `get_tile`: the tile at flat index x + y*width, or None past the end of the vector. */
    function GetTile(x: nat, y: nat): (r: Option<Tile>)
      reads this
      ensures r.Some? <==> FlatIndex(x, y, width) < |tiles|
      ensures r.Some? ==> r.value == tiles[FlatIndex(x, y, width)]
    {
      var i := FlatIndex(x, y, width);
      if i < |tiles| then Some(tiles[i]) else None
    }

    /** `set_tile`: overwrites the one cell at x + y*width; the source panics past the end. */
    method SetTile(x: nat, y: nat, tile: Tile)
      requires FlatIndex(x, y, width) < |tiles|
      modifies this
      ensures tiles == old(tiles)[FlatIndex(x, y, width) := tile]
    {
      tiles := tiles[FlatIndex(x, y, width) := tile];
    }

    /**
     * `move_box_or_key`: pushes the box or key at (posX, posY) by (moveX, moveY). The source
     * panics when the original level has other dimensions; `has_won` is an in-out flag.
     */
    method MoveBoxOrKey(original: Level, hasWon: bool, posX: nat, posY: nat, moveX: int, moveY: int)
      returns (moved: bool, hasWonAfter: bool)
      requires Valid() && original.Valid() && original != this
      requires width == original.width && height == original.height
      requires posX + moveX >= 0 && posY + moveY >= 0
      modifies this
      ensures var p := Push(old(tiles), original.tiles, FlatIndex(posX, posY, width),
                            FlatIndex(posX + moveX, posY + moveY, width));
              && moved == p.Pushed?
              && tiles == (if p.Pushed? then p.tiles else old(tiles))
              && hasWonAfter == (if p.Pushed? && p.won.Some? then p.won.value else hasWon)
      ensures Valid()
    {
      hasWonAfter := hasWon;
      var indexFrom := FlatIndex(posX, posY, width);
      var indexTo := FlatIndex(posX + moveX, posY + moveY, width);
      if indexFrom >= |tiles| || indexTo >= |tiles| {
        return false, hasWonAfter;
      }
      var tileFrom := tiles[indexFrom];
      var tileTo := tiles[indexTo];
      var isBox := tileFrom == Box || tileFrom == BoxInGoal;

      if tileTo == Empty || tileTo == Goal || (!isBox && tileTo == LockedDoor) {
        var tileToNew: Tile;
        if isBox && tileTo == Goal {
          tileToNew := BoxInGoal;
          hasWonAfter := ScanForWin(tiles, original.tiles, indexFrom, indexTo);
        } else if !isBox && tileTo == Goal {
          tileToNew := KeyInGoal;
        } else if isBox {
          tileToNew := Box;
        } else if tileTo == LockedDoor {
          tileToNew := Empty;
        } else {
          tileToNew := Key;
        }
        var tileFromNew := if tileFrom == Box || tileFrom == Key then Empty else Goal;
        tiles := tiles[indexFrom := tileFromNew];
        tiles := tiles[indexTo := tileToNew];
        return true, hasWonAfter;
      }
      return false, hasWonAfter;
    }

    /** `Level::from_str`: reads one level from its text. */
    static method FromStr(s: string) returns (r: Result<Level, string>)
      ensures r.Err? <==> ParseLevel(s).Err?
      ensures r.Err? ==> r.error == ParseLevel(s).error
      ensures r.Ok? ==> fresh(r.value) && r.value.Valid() && r.value.Contents() == ParseLevel(s).value
    {
      var parsed := ReadLevel(s);
      if parsed.Err? {
        return Err(parsed.error);
      }
      var level := new Level.FromGrid(parsed.value);
      return Ok(level);
    }
  }

  /** The steps of `Level::from_str` up to the struct literal. */
  method ReadLevel(s: string) returns (r: Result<Grid, string>)
    ensures r == ParseLevel(s)
    ensures r.Ok? ==> r.value.WellFormed()
  {
    var lines := Lines(s);
    if lines == [] {
      return Err(LEVEL_INVALID);
    }
    var header := ParseHeader(Trim(lines[0]));
    if header.Err? {
      return Err(header.error);
    }
    var width, height := header.value.0, header.value.1;
    var decoded := DecodeTiles(lines[1..], width);
    if decoded.Err? {
      return Err(decoded.error);
    }
    if |decoded.value| != width * height {
      return Err(LEVEL_INVALID);
    }
    return Ok(Grid(width, height, decoded.value));
  }

  /** A level's cell read inside the grid is the cell at column x of row y. */
  lemma GetTileInGrid(l: Level, x: nat, y: nat)
    requires l.Valid() && x < l.width
    ensures l.GetTile(x, y).Some? <==> y < l.height
  {
    if y < l.height {
      FlatIndexInGrid(x, y, l.width, l.height);
    } else {
      MulMonotone(l.height, y, l.width);
    }
  }

  /** Reading one column past the right edge reads the first cell of the next row. */
  lemma GetTileWrapsToNextRow(l: Level, y: nat)
    ensures l.GetTile(l.width, y) == l.GetTile(0, y + 1)
  {
    assert FlatIndex(l.width, y, l.width) == FlatIndex(0, y + 1, l.width);
  }

  // ----- pushing a box or a key -----

  /** What a push does: nothing, or the new tiles and, for a box pushed onto a goal, the win. */
  datatype PushOutcome = Blocked | Pushed(tiles: seq<Tile>, won: Option<bool>)

  /** The cells a pushed tile may move onto: Empty or Goal, and a LockedDoor for a key. */
  predicate AcceptsPush(moved: Tile, target: Tile) {
    target == Empty || target == Goal || (!IsBox(moved) && target == LockedDoor)
  }

  /** The tile the target cell holds after the push. */
  function Landed(moved: Tile, target: Tile): Tile {
    if IsBox(moved) && target == Goal then BoxInGoal
    else if !IsBox(moved) && target == Goal then KeyInGoal
    else if IsBox(moved) then Box
    else if target == LockedDoor then Empty
    else Key
  }

  /** The tile the pushed-from cell holds afterwards: Empty, or the goal under it. */
  function Vacated(moved: Tile): Tile {
    if moved == Box || moved == Key then Empty else Goal
  }

  /**
   * The win condition checked when a box lands on a goal: no cell but the target is an open
   * goal, and the pushed-from cell, where the player will stand, has no goal underneath in
   * the original level.
   */
  predicate WinsAfterPush(tiles: seq<Tile>, original: seq<Tile>, from: nat, to: nat)
    requires from < |original|
  {
    (forall i | 0 <= i < |tiles| && i != to :: !IsOpenGoal(tiles[i]))
    && (from == to || !IsGoalDerived(original[from]))
  }

  /** The specification of `move_box_or_key` on flat indices. */
  function Push(tiles: seq<Tile>, original: seq<Tile>, from: nat, to: nat): PushOutcome
    requires |original| == |tiles|
  {
    if from >= |tiles| || to >= |tiles| || !AcceptsPush(tiles[from], tiles[to]) then Blocked
    else
      Pushed(tiles[from := Vacated(tiles[from])][to := Landed(tiles[from], tiles[to])],
             if IsBox(tiles[from]) && tiles[to] == Goal then Some(WinsAfterPush(tiles, original, from, to))
             else None)
  }

  /** The scan `move_box_or_key` runs over the grid before it writes the two cells. */
  method ScanForWin(tiles: seq<Tile>, original: seq<Tile>, from: nat, to: nat) returns (won: bool)
    requires |original| == |tiles| && from < |tiles|
    ensures won == WinsAfterPush(tiles, original, from, to)
  {
    won := true;
    var index := 0;
    while index < |tiles|
      invariant 0 <= index <= |tiles|
      invariant forall i | 0 <= i < index && i != to :: !IsOpenGoal(tiles[i])
      invariant from < index && from != to ==> !IsGoalDerived(original[from])
    {
      if index != to {
        if tiles[index] == Goal || tiles[index] == KeyInGoal {
          won := false;
          break;
        }
        if index == from && (original[index] == Goal || original[index] == BoxInGoal || original[index] == KeyInGoal) {
          won := false;
          break;
        }
      }
      index := index + 1;
    }
  }

  /** A push is refused, and nothing changes, unless both cells exist and the target accepts it. */
  lemma PushBlocked(tiles: seq<Tile>, original: seq<Tile>, from: nat, to: nat)
    requires |original| == |tiles|
    ensures Push(tiles, original, from, to).Blocked?
        <==> from >= |tiles| || to >= |tiles| || !AcceptsPush(tiles[from], tiles[to])
  {
  }

  /** A push changes the pushed-from cell and the target cell and no other. */
  lemma PushChangesTwoCells(tiles: seq<Tile>, original: seq<Tile>, from: nat, to: nat)
    requires |original| == |tiles|
    requires Push(tiles, original, from, to).Pushed?
    ensures var p := Push(tiles, original, from, to);
      && |p.tiles| == |tiles|
      && (forall i | 0 <= i < |tiles| && i != from && i != to :: p.tiles[i] == tiles[i])
  {
  }

  /** The table of results: what lands on the target and what is left behind. */
  lemma PushResults(tiles: seq<Tile>, original: seq<Tile>, from: nat, to: nat)
    requires |original| == |tiles|
    requires Push(tiles, original, from, to).Pushed? && from != to
    ensures var p := Push(tiles, original, from, to);
      && (IsBox(tiles[from]) && tiles[to] == Goal ==> p.tiles[to] == BoxInGoal)
      && (IsBox(tiles[from]) && tiles[to] == Empty ==> p.tiles[to] == Box)
      && (!IsBox(tiles[from]) && tiles[to] == Goal ==> p.tiles[to] == KeyInGoal)
      && (!IsBox(tiles[from]) && tiles[to] == LockedDoor ==> p.tiles[to] == Empty)
      && (!IsBox(tiles[from]) && tiles[to] == Empty ==> p.tiles[to] == Key)
      && (tiles[from] == Box || tiles[from] == Key ==> p.tiles[from] == Empty)
      && (tiles[from] != Box && tiles[from] != Key ==> p.tiles[from] == Goal)
  {
  }

  /** The win flag is written exactly when a box is pushed onto a goal; key pushes never write it. */
  lemma PushWritesWinOnlyForBoxIntoGoal(tiles: seq<Tile>, original: seq<Tile>, from: nat, to: nat)
    requires |original| == |tiles|
    requires Push(tiles, original, from, to).Pushed?
    ensures Push(tiles, original, from, to).won.Some? <==> IsBox(tiles[from]) && tiles[to] == Goal
  {
  }

  /**
   * The meaning of the win flag in terms of the grid after the push: no open goal is left
   * anywhere except possibly in the pushed-from cell, and that cell, where the player is about
   * to stand, has no goal under it in the original level.
   */
  lemma {:induction false} PushWinMeaning(tiles: seq<Tile>, original: seq<Tile>, from: nat, to: nat)
    requires |original| == |tiles|
    requires Push(tiles, original, from, to).Pushed? && Push(tiles, original, from, to).won.Some?
    ensures from != to
    ensures var p := Push(tiles, original, from, to);
      p.won.value <==> (forall i | 0 <= i < |p.tiles| && i != from :: !IsOpenGoal(p.tiles[i]))
                       && !IsGoalDerived(original[from])
  {
    var p := Push(tiles, original, from, to);
    assert p.tiles[to] == BoxInGoal;
    if WinsAfterPush(tiles, original, from, to) {
      forall i | 0 <= i < |p.tiles| && i != from ensures !IsOpenGoal(p.tiles[i]) {
        if i != to {
          assert p.tiles[i] == tiles[i];
        }
      }
    } else if (forall i | 0 <= i < |p.tiles| && i != from :: !IsOpenGoal(p.tiles[i])) {
      forall i | 0 <= i < |tiles| && i != to ensures !IsOpenGoal(tiles[i]) {
        if i != from {
          assert p.tiles[i] == tiles[i];
        }
      }
    }
  }

  /** 1 when `t` is `x`, else 0: the count a single cell contributes. */
  function Count1(t: Tile, x: Tile): nat {
    if t == x then 1 else 0
  }

  /** Overwriting cell i moves one occurrence from the old tile to the new one. */
  lemma CountAfterUpdate(s: seq<Tile>, i: nat, v: Tile, x: Tile)
    requires i < |s|
    ensures multiset(s[i := v])[x] == multiset(s)[x] - Count1(s[i], x) + Count1(v, x)
  {
  }

  /** On the two cells a push writes, the number of boxes stays the same. */
  lemma PushKeepsBoxWeight(moved: Tile, target: Tile)
    requires IsPushable(moved) && AcceptsPush(moved, target)
    ensures Count1(Vacated(moved), Box) + Count1(Vacated(moved), BoxInGoal)
          + Count1(Landed(moved, target), Box) + Count1(Landed(moved, target), BoxInGoal)
         == Count1(moved, Box) + Count1(moved, BoxInGoal) + Count1(target, Box) + Count1(target, BoxInGoal)
  {
  }

  /** On the two cells a push writes, the number of goals stays the same. */
  lemma PushKeepsGoalWeight(moved: Tile, target: Tile)
    requires IsPushable(moved) && AcceptsPush(moved, target)
    ensures GoalWeight(Vacated(moved)) + GoalWeight(Landed(moved, target)) == GoalWeight(moved) + GoalWeight(target)
  {
  }

  /** 1 for a tile with a goal underneath, else 0. */
  function GoalWeight(t: Tile): nat {
    Count1(t, Goal) + Count1(t, BoxInGoal) + Count1(t, KeyInGoal)
  }

  /** A push of a box or key never creates or destroys a box. */
  lemma PushKeepsBoxCount(tiles: seq<Tile>, original: seq<Tile>, from: nat, to: nat)
    requires |original| == |tiles|
    requires Push(tiles, original, from, to).Pushed? && IsPushable(tiles[from])
    ensures var p := Push(tiles, original, from, to);
      multiset(p.tiles)[Box] + multiset(p.tiles)[BoxInGoal]
        == multiset(tiles)[Box] + multiset(tiles)[BoxInGoal]
  {
    var moved, target := tiles[from], tiles[to];
    var t := tiles[from := Vacated(moved)];
    assert t[to] == target;
    CountAfterUpdate(tiles, from, Vacated(moved), Box);
    CountAfterUpdate(t, to, Landed(moved, target), Box);
    CountAfterUpdate(tiles, from, Vacated(moved), BoxInGoal);
    CountAfterUpdate(t, to, Landed(moved, target), BoxInGoal);
    PushKeepsBoxWeight(moved, target);
  }

  /** A push of a box or key never creates or destroys a goal. */
  lemma PushKeepsGoalCount(tiles: seq<Tile>, original: seq<Tile>, from: nat, to: nat)
    requires |original| == |tiles|
    requires Push(tiles, original, from, to).Pushed? && IsPushable(tiles[from])
    ensures var p := Push(tiles, original, from, to);
      multiset(p.tiles)[Goal] + multiset(p.tiles)[BoxInGoal] + multiset(p.tiles)[KeyInGoal]
        == multiset(tiles)[Goal] + multiset(tiles)[BoxInGoal] + multiset(tiles)[KeyInGoal]
  {
    var moved, target := tiles[from], tiles[to];
    var t := tiles[from := Vacated(moved)];
    assert t[to] == target;
    CountAfterUpdate(tiles, from, Vacated(moved), Goal);
    CountAfterUpdate(t, to, Landed(moved, target), Goal);
    CountAfterUpdate(tiles, from, Vacated(moved), BoxInGoal);
    CountAfterUpdate(t, to, Landed(moved, target), BoxInGoal);
    CountAfterUpdate(tiles, from, Vacated(moved), KeyInGoal);
    CountAfterUpdate(t, to, Landed(moved, target), KeyInGoal);
    PushKeepsGoalWeight(moved, target);
  }

  // ----- Level::from_str -----

  /** The tiles of one trimmed row, left to right; the first bad character is the error. */
  function DecodeRow(line: string): Result<seq<Tile>, string>
  {
    if line == [] then Ok([])
    else match DecodeRow(line[..|line| - 1])
      case Err(e) => Err(e)
      case Ok(ts) =>
        match FromAscii(line[|line| - 1])
        case Err(e) => Err(e)
        case Ok(t) => Ok(ts + [t])
  }

  /** The tiles of the rows after the header, each trimmed and required to be `width` long. */
  function DecodeRows(rows: seq<string>, width: nat): Result<seq<Tile>, string>
  {
    if rows == [] then Ok([])
    else match DecodeRows(rows[..|rows| - 1], width)
      case Err(e) => Err(e)
      case Ok(ts) =>
        var line := Trim(rows[|rows| - 1]);
        if |line| != width then Err(LEVEL_INVALID)
        else match DecodeRow(line)
          case Err(e) => Err(e)
          case Ok(row) => Ok(ts + row)
  }

  /** The header line "w: W, h: H", already trimmed; both numbers must be positive. */
  function ParseHeader(line: string): (r: Result<(nat, nat), string>)
    ensures r.Ok? ==> r.value.0 > 0 && r.value.1 > 0
  {
    var index := Find(line, ", h: ");
    if !("w: " <= line) || index.None? then Err(LEVEL_INVALID)
    else
      assert index.value >= 3 by {
        forall j | 0 <= j < 3 ensures !OccursAt(line, ", h: ", j) {
          assert line[j] == "w: "[j];
          if j + 5 <= |line| {
            assert line[j..j + 5][0] != ',';
          }
        }
      }
      match ParseUnsigned(line[index.value + 5..], USIZE_LIMIT)
      case None => Err(LEVEL_INVALID)
      case Some(height) =>
        match ParseUnsigned(line[3..index.value], USIZE_LIMIT)
        case None => Err(LEVEL_INVALID)
        case Some(width) => if width == 0 || height == 0 then Err(LEVEL_INVALID) else Ok((width, height))
  }

  /** `Level::from_str` as a function of the text. */
  function ParseLevel(s: string): Result<Grid, string>
  {
    var lines := Lines(s);
    if lines == [] then Err(LEVEL_INVALID)
    else match ParseHeader(Trim(lines[0]))
      case Err(e) => Err(e)
      case Ok(dims) =>
        match DecodeRows(lines[1..], dims.0)
        case Err(e) => Err(e)
        case Ok(tiles) =>
          if |tiles| != dims.0 * dims.1 then Err(LEVEL_INVALID) else Ok(Grid(dims.0, dims.1, tiles))
  }

  lemma {:induction false} DecodeRowErrorPrefix(line: string, j: nat)
    requires j <= |line| && DecodeRow(line[..j]).Err?
    ensures DecodeRow(line) == DecodeRow(line[..j])
    decreases |line|
  {
    if j < |line| {
      var shorter := line[..|line| - 1];
      assert shorter[..j] == line[..j];
      DecodeRowErrorPrefix(shorter, j);
    } else {
      assert line[..j] == line;
    }
  }

  lemma {:induction false} DecodeRowsErrorPrefix(rows: seq<string>, width: nat, k: nat)
    requires k <= |rows| && DecodeRows(rows[..k], width).Err?
    ensures DecodeRows(rows, width) == DecodeRows(rows[..k], width)
    decreases |rows|
  {
    if k < |rows| {
      var shorter := rows[..|rows| - 1];
      assert shorter[..k] == rows[..k];
      DecodeRowsErrorPrefix(shorter, width, k);
    } else {
      assert rows[..k] == rows;
    }
  }

  /** The inner loop of `from_str`: decodes one trimmed row character by character. */
  method DecodeLine(line: string) returns (r: Result<seq<Tile>, string>)
    ensures r == DecodeRow(line)
  {
    var tiles: seq<Tile> := [];
    var j := 0;
    while j < |line|
      invariant 0 <= j <= |line|
      invariant DecodeRow(line[..j]) == Ok(tiles)
    {
      assert line[..j + 1][..j] == line[..j];
      var tile := FromAscii(line[j]);
      if tile.Err? {
        DecodeRowErrorPrefix(line, j + 1);
        return Err(tile.error);
      }
      tiles := tiles + [tile.value];
      j := j + 1;
    }
    assert line[..j] == line;
    return Ok(tiles);
  }

  /** The outer loop of `from_str`: trims each row, checks its length and decodes it. */
  method DecodeTiles(rows: seq<string>, width: nat) returns (r: Result<seq<Tile>, string>)
    ensures r == DecodeRows(rows, width)
  {
    var tiles: seq<Tile> := [];
    var k := 0;
    while k < |rows|
      invariant 0 <= k <= |rows|
      invariant DecodeRows(rows[..k], width) == Ok(tiles)
    {
      assert rows[..k + 1][..k] == rows[..k];
      var line := Trim(rows[k]);
      if |line| != width {
        DecodeRowsErrorPrefix(rows, width, k + 1);
        return Err(LEVEL_INVALID);
      }
      var row := DecodeLine(line);
      if row.Err? {
        DecodeRowsErrorPrefix(rows, width, k + 1);
        return Err(row.error);
      }
      tiles := tiles + row.value;
      k := k + 1;
    }
    assert rows[..k] == rows;
    return Ok(tiles);
  }

  /** A decoded row has one tile per character, each the decoding of that character. */
  lemma {:induction false} DecodeRowShape(line: string)
    requires DecodeRow(line).Ok?
    ensures |DecodeRow(line).value| == |line|
    ensures forall j | 0 <= j < |line| :: FromAscii(line[j]) == Ok(DecodeRow(line).value[j])
  {
    if line != [] {
      var shorter := line[..|line| - 1];
      DecodeRowShape(shorter);
    }
  }

  /** A successful decoding ends with the last row, trimmed, `width` long and decoded. */
  lemma DecodeRowsLast(rows: seq<string>, width: nat)
    requires rows != [] && DecodeRows(rows, width).Ok?
    ensures var n := |rows| - 1;
      && DecodeRows(rows[..n], width).Ok?
      && |Trim(rows[n])| == width
      && DecodeRow(Trim(rows[n])).Ok?
      && DecodeRows(rows, width).value == DecodeRows(rows[..n], width).value + DecodeRow(Trim(rows[n])).value
  {
  }

  /** Reading one more row appends its tiles. */
  lemma DecodeRowsAppend(rows: seq<string>, line: string, width: nat)
    requires DecodeRows(rows, width).Ok? && |Trim(line)| == width && DecodeRow(Trim(line)).Ok?
    ensures DecodeRows(rows + [line], width) == Ok(DecodeRows(rows, width).value + DecodeRow(Trim(line)).value)
  {
    assert (rows + [line])[..|rows|] == rows;
  }

  /** Appending a row of `width` tiles to `n` full rows puts cell (j, k) at k*width + j. */
  lemma RowMajorAppend(ts: seq<Tile>, row: seq<Tile>, width: nat, n: nat, k: nat, j: nat)
    requires |ts| == width * n && |row| == width && k <= n && j < width
    ensures k < n ==> FlatIndex(j, k, width) < |ts|
    ensures k == n ==> FlatIndex(j, k, width) == |ts| + j
  {
    if k < n {
      FlatIndexInGrid(j, k, width, n);
    } else {
      assert k * width == width * n;
    }
  }

  /** Decoded rows are stored row-major: row k, column j lands at index k*width + j. */
  lemma DecodeRowsShape(rows: seq<string>, width: nat)
    requires DecodeRows(rows, width).Ok?
    ensures |DecodeRows(rows, width).value| == width * |rows|
    ensures forall k, j | 0 <= k < |rows| && 0 <= j < width ::
      && |Trim(rows[k])| == width
      && FlatIndex(j, k, width) < |DecodeRows(rows, width).value|
      && FromAscii(Trim(rows[k])[j]) == Ok(DecodeRows(rows, width).value[FlatIndex(j, k, width)])
  {
    DecodeRowsLength(rows, width);
    forall k, j | 0 <= k < |rows| && 0 <= j < width
      ensures |Trim(rows[k])| == width
      ensures FlatIndex(j, k, width) < |DecodeRows(rows, width).value|
      ensures FromAscii(Trim(rows[k])[j]) == Ok(DecodeRows(rows, width).value[FlatIndex(j, k, width)])
    {
      DecodeRowsCell(rows, width, k, j);
    }
  }

  /** A successful decoding holds `width` tiles per row. */
  lemma {:induction false} DecodeRowsLength(rows: seq<string>, width: nat)
    requires DecodeRows(rows, width).Ok?
    ensures |DecodeRows(rows, width).value| == width * |rows|
  {
    if rows != [] {
      var n := |rows| - 1;
      DecodeRowsLast(rows, width);
      DecodeRowsLength(rows[..n], width);
      DecodeRowShape(Trim(rows[n]));
      assert width * |rows| == width * n + width;
    }
  }

  /** Cell (j, k) of the decoded rows is the j-th character of the k-th trimmed row. */
  lemma {:induction false} DecodeRowsCell(rows: seq<string>, width: nat, k: nat, j: nat)
    requires DecodeRows(rows, width).Ok? && k < |rows| && j < width
    ensures |Trim(rows[k])| == width
    ensures FlatIndex(j, k, width) < |DecodeRows(rows, width).value|
    ensures FromAscii(Trim(rows[k])[j]) == Ok(DecodeRows(rows, width).value[FlatIndex(j, k, width)])
  {
    var n := |rows| - 1;
    var shorter := rows[..n];
    DecodeRowsLast(rows, width);
    DecodeRowsLength(shorter, width);
    var ts := DecodeRows(shorter, width).value;
    var row := DecodeRow(Trim(rows[n])).value;
    DecodeRowShape(Trim(rows[n]));
    RowMajorAppend(ts, row, width, n, k, j);
    if k < n {
      DecodeRowsCell(shorter, width, k, j);
      assert rows[k] == shorter[k];
    }
  }

  /** A level that parses has positive dimensions and exactly width * height tiles. */
  lemma ParseLevelWellFormed(s: string)
    requires ParseLevel(s).Ok?
    ensures ParseLevel(s).value.WellFormed()
  {
  }

  /**
   * What a successful `from_str` guarantees: positive dimensions, exactly height rows after
   * the header, each of width characters, and the tiles stored row-major in input order.
   */
  lemma ParseLevelSound(s: string)
    requires ParseLevel(s).Ok?
    ensures var g := ParseLevel(s).value;
      && g.WellFormed()
      && |Lines(s)| == g.height + 1
      && forall y, x | 0 <= y < g.height && 0 <= x < g.width ::
           && |Trim(Lines(s)[y + 1])| == g.width
           && FlatIndex(x, y, g.width) < |g.tiles|
           && FromAscii(Trim(Lines(s)[y + 1])[x]) == Ok(g.tiles[FlatIndex(x, y, g.width)])
  {
    var lines := Lines(s);
    var dims := ParseHeader(Trim(lines[0])).value;
    var rows := lines[1..];
    var tiles := DecodeRows(rows, dims.0).value;
    assert ParseLevel(s).value == Grid(dims.0, dims.1, tiles);
    RowsMatchGrid(rows, dims.0, dims.1, tiles);
    forall y | 0 <= y < dims.1 ensures lines[y + 1] == rows[y] { }
  }

  /** Rows that decode to exactly width*height tiles are height rows, read row-major. */
  lemma RowsMatchGrid(rows: seq<string>, width: nat, height: nat, tiles: seq<Tile>)
    requires DecodeRows(rows, width) == Ok(tiles) && |tiles| == width * height && width > 0
    ensures |rows| == height
    ensures forall y, x | 0 <= y < height && 0 <= x < width ::
      && |Trim(rows[y])| == width
      && FlatIndex(x, y, width) < |tiles|
      && FromAscii(Trim(rows[y])[x]) == Ok(tiles[FlatIndex(x, y, width)])
  {
    DecodeRowsShape(rows, width);
    assert |rows| == height by {
      if |rows| < height {
        assert (|rows| + 1) * width == width * |rows| + width;
        MulMonotone(|rows| + 1, height, width);
      } else if |rows| > height {
        assert (height + 1) * width == width * height + width;
        MulMonotone(height + 1, |rows|, width);
      }
    }
  }

  // ----- writing a level back as text -----

  /** The characters of one row. */
  function EncodeRow(ts: seq<Tile>): (line: string)
    ensures |line| == |ts|
  {
    seq(|ts|, i requires 0 <= i < |ts| => ToAscii(ts[i]))
  }

  /** The `n` rows of `width` characters that hold `tiles`, top to bottom. */
  function EncodeRows(tiles: seq<Tile>, width: nat, n: nat): (rows: seq<string>)
    requires |tiles| == width * n
    ensures |rows| == n
  {
    if n == 0 then []
    else
      assert width * n == width * (n - 1) + width;
      EncodeRows(tiles[..width * (n - 1)], width, n - 1) + [EncodeRow(tiles[width * (n - 1)..])]
  }

  function Header(width: nat, height: nat): string {
    "w: " + NatToDecimal(width) + ", h: " + NatToDecimal(height)
  }

  /** A level file: the header line, then the rows, separated by newlines. */
  function RenderLevel(g: Grid): string
    requires g.WellFormed()
  {
    Join([Header(g.width, g.height)] + EncodeRows(g.tiles, g.width, g.height), "\n")
  }

  lemma TrimTileRow(line: string)
    requires forall i | 0 <= i < |line| :: IsTileChar(line[i])
    ensures Trim(line) == line
  {
    if line != [] {
      TileCharNotWhitespace(line[0]);
      TileCharNotWhitespace(line[|line| - 1]);
    }
    TrimUnchanged(line);
  }

  lemma TileCharNotWhitespace(c: char)
    requires IsTileChar(c)
    ensures !IsWhitespace(c)
  {
  }

  lemma {:induction false} DecodeEncodeRow(ts: seq<Tile>)
    ensures DecodeRow(EncodeRow(ts)) == Ok(ts)
  {
    if ts != [] {
      var line := EncodeRow(ts);
      var shorter := ts[..|ts| - 1];
      assert line[..|line| - 1] == EncodeRow(shorter);
      DecodeEncodeRow(shorter);
      FromAsciiOfToAscii(ts[|ts| - 1]);
      assert shorter + [ts[|ts| - 1]] == ts;
    }
  }

  lemma {:induction false} DecodeEncodeRows(tiles: seq<Tile>, width: nat, n: nat)
    requires |tiles| == width * n
    ensures DecodeRows(EncodeRows(tiles, width, n), width) == Ok(tiles)
  {
    if n > 0 {
      EncodeRowsLast(tiles, width, n);
      var m := |tiles| - width;
      var front := tiles[..m];
      var last := tiles[m..];
      var prefix := EncodeRows(front, width, n - 1);
      assert |last| == width;
      DecodeEncodeRows(front, width, n - 1);
      DecodeEncodedRowAppend(prefix, front, last);
      SplitJoin(tiles, m);
      assert EncodeRows(tiles, width, n) == prefix + [EncodeRow(last)];
    } else {
      assert tiles == [];
    }
  }

  lemma SplitJoin(s: seq<Tile>, m: nat)
    requires m <= |s|
    ensures s[..m] + s[m..] == s
  {
  }

  /** The last of the encoded rows holds the last `width` tiles. */
  lemma EncodeRowsLast(tiles: seq<Tile>, width: nat, n: nat)
    requires |tiles| == width * n && n > 0
    ensures |tiles| >= width && |tiles| - width == width * (n - 1)
    ensures EncodeRows(tiles, width, n)
         == EncodeRows(tiles[..|tiles| - width], width, n - 1) + [EncodeRow(tiles[|tiles| - width..])]
  {
    assert width * n == width * (n - 1) + width;
  }

  /** Reading the text of one more row appends exactly that row's tiles. */
  lemma DecodeEncodedRowAppend(rows: seq<string>, front: seq<Tile>, last: seq<Tile>)
    requires DecodeRows(rows, |last|) == Ok(front)
    ensures DecodeRows(rows + [EncodeRow(last)], |last|) == Ok(front + last)
  {
    var line := EncodeRow(last);
    TrimTileRow(line);
    DecodeEncodeRow(last);
    DecodeRowsAppend(rows, line, |last|);
  }

  lemma FindHeaderSeparator(width: nat, height: nat)
    ensures Find(Header(width, height), ", h: ") == Some(3 + |NatToDecimal(width)|)
  {
    var s := Header(width, height);
    var dw := NatToDecimal(width);
    var k := 3 + |dw|;
    assert s[k..k + 5] == ", h: ";
    forall j | 0 <= j < k ensures !OccursAt(s, ", h: ", j) {
      if j + 5 <= |s| {
        assert s[j..j + 5][0] == s[j];
        if j < 3 {
          assert s[j] == "w: "[j];
        } else {
          assert s[j] == dw[j - 3];
        }
      }
    }
    FindFirstOccurrence(s, ", h: ", k);
  }

  lemma HeaderIsTrimmed(width: nat, height: nat)
    ensures Trim(Header(width, height)) == Header(width, height)
  {
    var s := Header(width, height);
    var dh := NatToDecimal(height);
    assert s[0] == 'w';
    assert s[|s| - 1] == dh[|dh| - 1];
    assert IsDigit(dh[|dh| - 1]);
    TrimUnchanged(s);
  }

  lemma ParseHeaderParts(line: string, dw: string, dh: string, width: nat, height: nat)
    requires line == "w: " + dw + ", h: " + dh
    requires Find(line, ", h: ") == Some(3 + |dw|)
    requires ParseUnsigned(dw, USIZE_LIMIT) == Some(width) && width > 0
    requires ParseUnsigned(dh, USIZE_LIMIT) == Some(height) && height > 0
    ensures ParseHeader(line) == Ok((width, height))
  {
    var index := 3 + |dw|;
    assert line[..3] == "w: ";
    assert line[index + 5..] == dh;
    assert line[3..index] == dw;
  }

  /** Parsing the header that `Header` writes gives back the dimensions. */
  lemma ParseHeaderOfHeader(width: nat, height: nat)
    requires 0 < width < USIZE_LIMIT && 0 < height < USIZE_LIMIT
    ensures ParseHeader(Header(width, height)) == Ok((width, height))
  {
    var line := Header(width, height);
    var dw := NatToDecimal(width);
    var dh := NatToDecimal(height);
    FindHeaderSeparator(width, height);
    ParseDecimal(width, USIZE_LIMIT);
    ParseDecimal(height, USIZE_LIMIT);
    assert line == "w: " + dw + ", h: " + dh;
    ParseHeaderParts(line, dw, dh, width, height);
  }

  /** `from_str` reads back every well-formed level written in the level-file format. */
  lemma ParseLevelRoundTrip(g: Grid)
    requires g.WellFormed() && g.width < USIZE_LIMIT && g.height < USIZE_LIMIT
    ensures ParseLevel(RenderLevel(g)) == Ok(g)
  {
    var header := Header(g.width, g.height);
    var rows := EncodeRows(g.tiles, g.width, g.height);
    RenderedLines(g);
    HeaderIsTrimmed(g.width, g.height);
    ParseHeaderOfHeader(g.width, g.height);
    DecodeEncodeRows(g.tiles, g.width, g.height);
    assert ([header] + rows)[1..] == rows;
  }

  /** The lines of a rendered level are its header and then its rows. */
  lemma RenderedLines(g: Grid)
    requires g.WellFormed()
    ensures Lines(RenderLevel(g)) == [Header(g.width, g.height)] + EncodeRows(g.tiles, g.width, g.height)
  {
    var rows := EncodeRows(g.tiles, g.width, g.height);
    var ls := [Header(g.width, g.height)] + rows;
    EncodeRowsChars(g.tiles, g.width, g.height);
    HeaderLine(g.width, g.height);
    forall i | 1 <= i < |ls|
      ensures '\n' !in ls[i] && ls[i] != [] && ls[i][|ls[i]| - 1] != '\r'
    {
      assert ls[i] == rows[i - 1];
      assert IsTileChar(ls[i][|ls[i]| - 1]);
      forall c | c in ls[i] ensures c != '\n' {
        var j :| 0 <= j < |ls[i]| && ls[i][j] == c;
        assert IsTileChar(rows[i - 1][j]);
      }
    }
    LinesOfJoin(ls);
  }

  /** The header line holds no line break and does not end in a carriage return. */
  lemma HeaderLine(width: nat, height: nat)
    ensures '\n' !in Header(width, height)
    ensures Header(width, height)[|Header(width, height)| - 1] != '\r'
  {
    var dw := NatToDecimal(width);
    var dh := NatToDecimal(height);
    assert Header(width, height) == "w: " + dw + ", h: " + dh;
    assert forall c | c in dw :: IsDigit(c);
    assert forall c | c in dh :: IsDigit(c);
  }

  lemma {:induction false} EncodeRowsChars(tiles: seq<Tile>, width: nat, n: nat)
    requires |tiles| == width * n
    ensures forall k | 0 <= k < n ::
      (|EncodeRows(tiles, width, n)[k]| == width
       && forall i | 0 <= i < width :: IsTileChar(EncodeRows(tiles, width, n)[k][i]))
  {
    if n > 0 {
      assert width * n == width * (n - 1) + width;
      EncodeRowsChars(tiles[..width * (n - 1)], width, n - 1);
    }
  }
}

=== FILE: main_c.dfy ===
/**
 * The in-game part of the first C version (main.c): the same three fields, counters and
 * positions as the later version, with the narrower id set of gameField.h (no keys, doors or
 * secrets) and `moveBox`, which pushes boxes only. The methods are stated against
 * specification functions on the id vectors the fields stand for (`CFields.Contents`), written
 * after main.c's own code; lemmas then show that, read through `CFields.ToTile`, these are the
 * Rust specification functions: on its ids the first C version plays as the Rust one does.
 */
module MainC {
  import opened Wrappers
  import opened Keys
  import opened CFields
  import Tiles
  import Levels
  import InGame
  import LevelC

  /**
   * The tile switch of `readLevelData` (main.c:1147-1178): the id a level character names;
   * every other character, `-` among them, names none and leaves the cell EMPTY.
   */
  function DecodeMainC(c: char): Option<FieldId> {
    match c
    case '<' => Some(OneWayLeft)
    case '^' => Some(OneWayUp)
    case '>' => Some(OneWayRight)
    case 'v' => Some(OneWayDown)
    case '#' => Some(Wall)
    case 'P' => Some(Player)
    case '@' => Some(Box)
    case '+' => Some(BoxInGoal)
    case 'x' => Some(Goal)
    case _ => None
  }

  /**
   * Reading back the character `getCharFromField` draws gives the id it was drawn from, for
   * every id but BOX_IN_GOAL, which is drawn as a box and read back as one.
   */
  lemma DecodeOfDrawnChar(id: FieldId)
    ensures id != BoxInGoal ==> Decoded(DecodeMainC(GetCharFromField(id)), Empty) == id
    ensures DecodeMainC(GetCharFromField(BoxInGoal)) == Some(Box)
  {
  }

  /**
   * The two C loaders agree on every character the first one knows; the later one adds only
   * the key, key-on-goal and door characters.
   */
  lemma DecodeMainCAsLevelC(c: char)
    ensures DecodeMainC(c).Some? ==> LevelC.DecodeLevelC(c) == Some(ToTile(DecodeMainC(c).value))
    ensures LevelC.DecodeLevelC(c).Some? && DecodeMainC(c).None? <==> c == '*' || c == '~' || c == '='
  {
  }

  // ----- the id vectors and the tiles they stand for -----

  /** The tile vector a vector of ids stands for. */
  function AsTiles(s: seq<FieldId>): (r: seq<Tiles.Tile>)
    ensures |r| == |s|
  {
    if s == [] then [] else AsTiles(s[..|s| - 1]) + [ToTile(s[|s| - 1])]
  }

  /** Element i of the tile vector is the tile id i stands for. */
  lemma {:induction false} AsTilesIndex(s: seq<FieldId>)
    ensures forall i | 0 <= i < |s| :: AsTiles(s)[i] == ToTile(s[i])
  {
    if s != [] {
      AsTilesIndex(s[..|s| - 1]);
    }
  }

  /** Writing one id writes the tile it stands for. */
  lemma AsTilesUpdate(s: seq<FieldId>, i: nat, v: FieldId)
    requires i < |s|
    ensures AsTiles(s[i := v]) == AsTiles(s)[i := ToTile(v)]
  {
    AsTilesIndex(s);
    AsTilesIndex(s[i := v]);
  }

  // ----- one step of the player, as main.c does it -----

  /** The ids a box stands on: a box, on a goal or not. */
  predicate IsBoxId(id: FieldId) {
    id == Box || id == BoxInGoal
  }

  /** The ids with a goal underneath. */
  predicate IsGoalId(id: FieldId) {
    id == Goal || id == BoxInGoal
  }

  /**
   * The id the player's cell gets back before the player moves (main.c:464-469): the level's
   * original id, with PLAYER and BOX read as EMPTY and BOX_IN_GOAL as GOAL.
   */
  function RestoredId(original: FieldId): FieldId {
    if original == Player || original == Box then Empty
    else if original == BoxInGoal then Goal
    else original
  }

  /** The one-way id that lets the player pass in direction `d`. */
  function OneWayId(d: Direction): FieldId {
    match d
    case Left => OneWayLeft
    case Up => OneWayUp
    case Right => OneWayRight
    case Down => OneWayDown
  }

  /** The ids the player walks onto (main.c:476-479 and its three twins): EMPTY, GOAL and the matching one-way id. */
  predicate EnterableId(t: FieldId, d: Direction) {
    t == Empty || t == Goal || t == OneWayId(d)
  }

  /** The id vector with the player's cell set back to its restored id. */
  function Restore(ids: seq<FieldId>, original: seq<FieldId>, from: nat): seq<FieldId>
    requires |original| == |ids| && from < |ids|
  {
    ids[from := RestoredId(original[from])]
  }

  /**
   * What an arrow key demands of the id vector: the three cells of the move (`InGame.CellsOf`)
   * lie in it, the cell beyond only when a box is pushed there.
   */
  predicate CanStep(ids: seq<FieldId>, width: nat, pos: InGame.Pos, d: Direction) {
    && width > 0
    && pos.0 + InGame.Dx(d) >= 0 && pos.1 + InGame.Dy(d) >= 0
    && InGame.CellsOf(width, pos, d).from < |ids|
    && InGame.CellsOf(width, pos, d).to < |ids|
    && (IsBoxId(ids[InGame.CellsOf(width, pos, d).to]) ==> 0 <= InGame.CellsOf(width, pos, d).beyond < |ids|)
  }

  /** The outcome of `moveBox`: refused, or the new id vector and, for a box landing on a goal, the win. */
  datatype PushOutcome = Blocked | Pushed(ids: seq<FieldId>, won: Option<bool>)

  /** The win check of `moveBox` (main.c:667-693): no GOAL but at the target, and no goal under the pushed-from cell in the level. */
  predicate WinsAfterPush(ids: seq<FieldId>, original: seq<FieldId>, from: nat, to: nat)
    requires from < |original|
  {
    (forall i | 0 <= i < |ids| && i != to :: ids[i] != Goal) && !IsGoalId(original[from])
  }

  /**
   * `moveBox` on flat indices (main.c:660-707): onto EMPTY or GOAL the box moves, leaving
   * EMPTY or the goal under it; onto a goal it becomes BOX_IN_GOAL and the win is checked.
   */
  function Push(ids: seq<FieldId>, original: seq<FieldId>, from: nat, to: nat): PushOutcome
    requires |original| == |ids| && from < |ids| && to < |ids|
  {
    if ids[to] != Empty && ids[to] != Goal then Blocked
    else
      Pushed(ids[to := if ids[to] == Goal then BoxInGoal else Box][from := if ids[from] == Box then Empty else Goal],
             if ids[to] == Goal then Some(WinsAfterPush(ids, original, from, to)) else None)
  }

  /** The id vector after an arrow key, whether the player moved, and the win flag. */
  datatype StepResult = StepResult(ids: seq<FieldId>, moved: bool, hasWon: bool)

  /** The switch on the cell ahead (main.c:474-543) and the stamp of line 546, on the restored vector. */
  function Moved(restored: seq<FieldId>, original: seq<FieldId>, c: InGame.Cells, d: Direction): StepResult
    requires |original| == |restored| && c.from < |restored| && c.to < |restored|
    requires IsBoxId(restored[c.to]) ==> 0 <= c.beyond < |restored|
  {
    if EnterableId(restored[c.to], d) then StepResult(restored[c.to := Player], true, false)
    else if IsBoxId(restored[c.to]) then
      var p := Push(restored, original, c.to, c.beyond);
      if p.Pushed? then StepResult(p.ids[c.to := Player], true, p.won == Some(true))
      else StepResult(restored[c.from := Player], false, false)
    else StepResult(restored[c.from := Player], false, false)
  }

  /** An arrow key in main.c (main.c:451-546): restore the player's cell, then move. */
  function Step(ids: seq<FieldId>, original: seq<FieldId>, width: nat, pos: InGame.Pos, d: Direction): StepResult
    requires |original| == |ids| && CanStep(ids, width, pos, d)
  {
    var c := InGame.CellsOf(width, pos, d);
    InGame.CellsDiffer(width, pos, d);
    Moved(Restore(ids, original, c.from), original, c, d)
  }

  // ----- main.c plays as the Rust version does -----

  /** Restoring an id restores the tile it stands for. */
  lemma RestoredIdAsRust(id: FieldId)
    ensures ToTile(RestoredId(id)) == InGame.RestoredTile(ToTile(id))
  {
  }

  /** The ids the player walks onto, and the ids it pushes, are the tiles the Rust step walks onto and pushes. */
  lemma EnterableIdAsRust(t: FieldId, d: Direction)
    ensures EnterableId(t, d) <==> InGame.Enterable(ToTile(t), d)
    ensures IsBoxId(t) <==> Tiles.IsPushable(ToTile(t))
    ensures IsGoalId(t) <==> Tiles.IsGoalDerived(ToTile(t))
  {
  }

  /** The win check of `moveBox` is the Rust win rule on the tile vectors. */
  lemma WinsAsRust(ids: seq<FieldId>, original: seq<FieldId>, from: nat, to: nat)
    requires |original| == |ids| && from < |ids| && to < |ids| && from != to
    ensures WinsAfterPush(ids, original, from, to) <==> Levels.WinsAfterPush(AsTiles(ids), AsTiles(original), from, to)
  {
    AsTilesIndex(ids);
    AsTilesIndex(original);
    var tiles := AsTiles(ids);
    if WinsAfterPush(ids, original, from, to) {
      forall i | 0 <= i < |tiles| && i != to
        ensures !Tiles.IsOpenGoal(tiles[i])
      {
        assert tiles[i] == ToTile(ids[i]);
      }
    } else if !IsGoalId(original[from]) {
      var i :| 0 <= i < |ids| && i != to && ids[i] == Goal;
      assert tiles[i] == Tiles.Goal;
    }
  }

  /** The two writes of `moveBox`, target first, are the two writes of `move_box_or_key` on the tile vector. */
  lemma WritesAsRust(ids: seq<FieldId>, from: nat, to: nat, landed: FieldId, vacated: FieldId)
    requires from < |ids| && to < |ids| && from != to
    ensures AsTiles(ids[to := landed][from := vacated]) == AsTiles(ids)[from := ToTile(vacated)][to := ToTile(landed)]
  {
    AsTilesUpdate(ids, to, landed);
    AsTilesUpdate(ids[to := landed], from, vacated);
    var tiles := AsTiles(ids);
    assert tiles[to := ToTile(landed)][from := ToTile(vacated)] == tiles[from := ToTile(vacated)][to := ToTile(landed)];
  }

  /**
   * `moveBox` is `move_box_or_key` on a box: it refuses the same pushes, writes the same two
   * cells and reaches the same verdict on a win.
   */
  lemma PushAsRust(ids: seq<FieldId>, original: seq<FieldId>, from: nat, to: nat)
    requires |original| == |ids| && from < |ids| && to < |ids| && from != to && IsBoxId(ids[from])
    ensures var p, q := Push(ids, original, from, to), Levels.Push(AsTiles(ids), AsTiles(original), from, to);
      && (p.Pushed? <==> q.Pushed?)
      && (p.Pushed? ==> q.tiles == AsTiles(p.ids) && q.won == p.won)
  {
    AsTilesIndex(ids);
    var tiles := AsTiles(ids);
    assert tiles[from] == ToTile(ids[from]) && tiles[to] == ToTile(ids[to]);
    if ids[to] == Empty || ids[to] == Goal {
      WritesAsRust(ids, from, to, if ids[to] == Goal then BoxInGoal else Box, if ids[from] == Box then Empty else Goal);
      WinsAsRust(ids, original, from, to);
    }
  }

  /** main.c's step demands of the id vector what the Rust step demands of the tile vector. */
  lemma CanStepAsRust(ids: seq<FieldId>, width: nat, pos: InGame.Pos, d: Direction)
    requires CanStep(ids, width, pos, d)
    ensures InGame.CanStep(AsTiles(ids), width, pos, d)
  {
    AsTilesIndex(ids);
  }

  /** Restoring the player's cell in main.c is the Rust restore on the tile vectors. */
  lemma RestoreAsRust(ids: seq<FieldId>, original: seq<FieldId>, from: nat)
    requires |original| == |ids| && from < |ids|
    ensures AsTiles(Restore(ids, original, from)) == InGame.Restore(AsTiles(ids), AsTiles(original), from)
  {
    AsTilesIndex(original);
    RestoredIdAsRust(original[from]);
    AsTilesUpdate(ids, from, RestoredId(original[from]));
  }

  /** The switch and the stamp of main.c are the Rust move on the tile vectors. */
  lemma MovedAsRust(restored: seq<FieldId>, original: seq<FieldId>, c: InGame.Cells, d: Direction)
    requires |original| == |restored| && c.from < |restored| && c.to < |restored| && c.from != c.to
    requires IsBoxId(restored[c.to]) ==> 0 <= c.beyond < |restored| && c.beyond != c.to
    ensures Tiles.IsPushable(AsTiles(restored)[c.to]) <==> IsBoxId(restored[c.to])
    ensures var m := Moved(restored, original, c, d);
      InGame.Moved(AsTiles(restored), AsTiles(original), c, d) == InGame.StepResult(AsTiles(m.ids), m.moved, m.hasWon)
  {
    AsTilesIndex(restored);
    EnterableIdAsRust(restored[c.to], d);
    assert AsTiles(restored)[c.to] == ToTile(restored[c.to]);
    if EnterableId(restored[c.to], d) {
      AsTilesUpdate(restored, c.to, Player);
    } else if IsBoxId(restored[c.to]) {
      PushAsRust(restored, original, c.to, c.beyond);
      var p := Push(restored, original, c.to, c.beyond);
      if p.Pushed? {
        AsTilesUpdate(p.ids, c.to, Player);
      } else {
        AsTilesUpdate(restored, c.from, Player);
      }
    } else {
      AsTilesUpdate(restored, c.from, Player);
    }
  }

  /**
   * An arrow key in main.c is the Rust step on the tile vectors the id vectors stand for: the
   * same grid afterwards, the same move and the same verdict on a win.
   */
  lemma StepAsRust(ids: seq<FieldId>, original: seq<FieldId>, width: nat, pos: InGame.Pos, d: Direction)
    requires |original| == |ids| && CanStep(ids, width, pos, d)
    ensures InGame.CanStep(AsTiles(ids), width, pos, d)
    ensures var m := Step(ids, original, width, pos, d);
      InGame.Step(AsTiles(ids), AsTiles(original), width, pos, d) == InGame.StepResult(AsTiles(m.ids), m.moved, m.hasWon)
  {
    CanStepAsRust(ids, width, pos, d);
    var c := InGame.CellsOf(width, pos, d);
    InGame.CellsDiffer(width, pos, d);
    RestoreAsRust(ids, original, c.from);
    MovedAsRust(Restore(ids, original, c.from), original, c, d);
  }

  // ----- the fields -----

  predicate SameShape(a: array2<FieldId>, b: array2<FieldId>) {
    a.Length0 == b.Length0 && a.Length1 == b.Length1
  }

  predicate InField(field: array2<FieldId>, x: int, y: int) {
    0 <= x < field.Length0 && 0 <= y < field.Length1
  }

  /** No GOAL cell in the field. */
  ghost predicate NoGoalIn(field: array2<FieldId>)
    reads field
  {
    forall x, y | 0 <= x < field.Length0 && 0 <= y < field.Length1 :: field[x, y] != Goal
  }

  /** The cells the win scan has passed: columns before `i`, and column `i` above row `j`, hold no GOAL. */
  ghost predicate NoGoalBefore(field: array2<FieldId>, i: nat, j: nat)
    reads field
  {
    forall x, y | 0 <= x < field.Length0 && 0 <= y < field.Length1 && (x < i || (x == i && y < j)) :: field[x, y] != Goal
  }

  /** No GOAL in the id vector. */
  predicate NoGoal(ids: seq<FieldId>) {
    forall k | 0 <= k < |ids| :: ids[k] != Goal
  }

  /** A field has a GOAL cell exactly when the id vector it stands for has one. */
  lemma NoGoalContents(field: array2<FieldId>)
    ensures NoGoalIn(field) <==> NoGoal(Contents(field))
  {
    var ids := Contents(field);
    if NoGoalIn(field) {
      forall k | 0 <= k < |ids|
        ensures ids[k] != Goal
      {
        var x, y := CellOfIndex(k, field.Length0, field.Length1);
        ContentsAt(field, x, y);
      }
    } else {
      var x, y :| 0 <= x < field.Length0 && 0 <= y < field.Length1 && field[x, y] == Goal;
      ContentsAt(field, x, y);
    }
  }

  /** After the box landed on a goal at `to`, the scan's verdict is `WinsAfterPush` on the vector before. */
  lemma WinAfterLanding(ids: seq<FieldId>, original: seq<FieldId>, from: nat, to: nat)
    requires from != to && to < |ids| && from < |original| == |ids|
    ensures NoGoal(ids[to := BoxInGoal]) && !IsGoalId(original[from]) <==> WinsAfterPush(ids, original, from, to)
  {
    var landed := ids[to := BoxInGoal];
    if !(forall k | 0 <= k < |ids| && k != to :: ids[k] != Goal) {
      var k :| 0 <= k < |ids| && k != to && ids[k] == Goal;
      assert landed[k] == ids[k];
    }
  }

  /**
   * What an arrow key demands of the field: the player's cell and the cell stepped onto are in
   * the field, and so is the cell beyond when a box would be pushed there (main.c indexes the
   * arrays without checking).
   */
  ghost predicate CanStepIn(field: array2<FieldId>, x: nat, y: nat, d: Direction)
    reads field
  {
    && InField(field, x, y)
    && InField(field, x + InGame.Dx(d), y + InGame.Dy(d))
    && (IsBoxId(field[x + InGame.Dx(d), y + InGame.Dy(d)]) ==>
          InField(field, x + InGame.Dx(d) + InGame.Dx(d), y + InGame.Dy(d) + InGame.Dy(d)))
  }

  /** A move the field allows is one `Step` allows on the id vector the field stands for. */
  lemma CanStepHolds(field: array2<FieldId>, x: nat, y: nat, d: Direction)
    requires CanStepIn(field, x, y, d)
    ensures CanStep(Contents(field), field.Length0, (x, y), d)
  {
    var nextX, nextY := x + InGame.Dx(d), y + InGame.Dy(d);
    ContentsAt(field, x, y);
    ContentsAt(field, nextX, nextY);
    if IsBoxId(field[nextX, nextY]) {
      ContentsAt(field, nextX + InGame.Dx(d), nextY + InGame.Dy(d));
    }
  }

  /** A step onto an enterable cell: the player moves there. */
  lemma StepWalks(ids: seq<FieldId>, original: seq<FieldId>, w: nat, x: nat, y: nat, d: Direction)
    requires |original| == |ids| && CanStep(ids, w, (x, y), d)
    requires EnterableId(ids[Levels.FlatIndex(x + InGame.Dx(d), y + InGame.Dy(d), w)], d)
    ensures var from, to := Levels.FlatIndex(x, y, w), Levels.FlatIndex(x + InGame.Dx(d), y + InGame.Dy(d), w);
      && from < |ids| && to < |ids|
      && Step(ids, original, w, (x, y), d) == StepResult(Restore(ids, original, from)[to := Player], true, false)
  {
    InGame.CellsDiffer(w, (x, y), d);
  }

  /** A step onto a box: `moveBox` decides whether the player moves and whether the level is won. */
  lemma StepPushes(ids: seq<FieldId>, original: seq<FieldId>, w: nat, x: nat, y: nat, d: Direction)
    requires |original| == |ids| && CanStep(ids, w, (x, y), d)
    requires IsBoxId(ids[Levels.FlatIndex(x + InGame.Dx(d), y + InGame.Dy(d), w)])
    ensures x + InGame.Dx(d) + InGame.Dx(d) >= 0 && y + InGame.Dy(d) + InGame.Dy(d) >= 0
    ensures var from, to := Levels.FlatIndex(x, y, w), Levels.FlatIndex(x + InGame.Dx(d), y + InGame.Dy(d), w);
      var beyond := Levels.FlatIndex(x + InGame.Dx(d) + InGame.Dx(d), y + InGame.Dy(d) + InGame.Dy(d), w);
      var restored := Restore(ids, original, from);
      && from < |ids| && to < |ids| && beyond < |ids|
      && var p := Push(restored, original, to, beyond);
         Step(ids, original, w, (x, y), d)
         == if p.Pushed? then StepResult(p.ids[to := Player], true, p.won == Some(true))
            else StepResult(restored[from := Player], false, false)
  {
    InGame.CellsDiffer(w, (x, y), d);
  }

  /** A step onto anything else: the player stays. */
  lemma StepStays(ids: seq<FieldId>, original: seq<FieldId>, w: nat, x: nat, y: nat, d: Direction)
    requires |original| == |ids| && CanStep(ids, w, (x, y), d)
    requires var t := ids[Levels.FlatIndex(x + InGame.Dx(d), y + InGame.Dy(d), w)];
      !EnterableId(t, d) && !IsBoxId(t)
    ensures var from := Levels.FlatIndex(x, y, w);
      && from < |ids|
      && Step(ids, original, w, (x, y), d) == StepResult(Restore(ids, original, from)[from := Player], false, false)
  {
    InGame.CellsDiffer(w, (x, y), d);
  }

  class Game {
    /** The levels of the pack as read from the file, and the index of the one being played. */
    var levels: seq<array2<FieldId>>
    var level: nat
    var levelNow: array2<FieldId>
    var levelNowLastStep: array2<FieldId>
    var levelNowTmpStep: array2<FieldId>
    var playerPosX: nat
    var playerPosY: nat
    var playerPosXOld: nat
    var playerPosYOld: nat
    var moves: int
    var oldMoves: int
    /** Set together when the level is won; the first is cleared by ENTER or `r`, the second once the win is recorded. */
    var continueFlag: bool
    var continueLevelAddFlag: bool

    /** The field being played is shaped like the level of the pack it plays, and is not that level. */
    ghost predicate Playing()
      reads this`levels, this`level, this`levelNow
    {
      level < |levels| && levels[level] != levelNow && SameShape(levelNow, levels[level])
    }

    /**
     * A level is being played: three distinct fields, none of them a level of the pack, all
     * shaped like the level, and a win is never left to record after it was acknowledged.
     */
    ghost predicate Valid()
      reads this`levels, this`level, this`levelNow, this`levelNowLastStep, this`levelNowTmpStep
      reads this`continueFlag, this`continueLevelAddFlag
    {
      && Playing()
      && levelNow !in levels && levelNowLastStep !in levels && levelNowTmpStep !in levels
      && levelNow != levelNowLastStep && levelNow != levelNowTmpStep && levelNowLastStep != levelNowTmpStep
      && SameShape(levelNow, levels[level]) && SameShape(levelNowLastStep, levels[level])
      && SameShape(levelNowTmpStep, levels[level])
      && (continueLevelAddFlag ==> continueFlag)
    }

    /**
     * The win scan of `moveBox` (main.c:667-693), run after a box landed on a goal: both flags
     * end set exactly when no cell is GOAL and the level's original cell at the pushed-from
     * position is neither GOAL nor BOX_IN_GOAL. The `break` on a GOAL leaves only the inner
     * loop, so the scan goes on with the next column, but the flags are already cleared then.
     */
    method CheckWin(posX: nat, posY: nat)
      requires Playing() && InField(levelNow, posX, posY)
      modifies this`continueFlag, this`continueLevelAddFlag
      ensures continueFlag == continueLevelAddFlag
      ensures continueFlag <==> NoGoalIn(levelNow) && !IsGoalId(levels[level][posX, posY])
    {
      continueFlag := true;
      continueLevelAddFlag := true;
      var breakFlag := false;
      var original := levels[level];
      var i := 0;
      while i < levelNow.Length0
        invariant 0 <= i <= levelNow.Length0
        invariant continueFlag == continueLevelAddFlag && !breakFlag
        invariant continueFlag <==> NoGoalBefore(levelNow, i, 0) && (posX < i ==> !IsGoalId(original[posX, posY]))
      {
        var j := 0;
        while j < levelNow.Length1
          invariant 0 <= j <= levelNow.Length1
          invariant continueFlag == continueLevelAddFlag && !breakFlag
          invariant continueFlag <==>
            NoGoalBefore(levelNow, i, j) && (posX < i || (posX == i && posY < j) ==> !IsGoalId(original[posX, posY]))
        {
          if levelNow[i, j] == Goal {
            continueFlag := false;
            continueLevelAddFlag := false;
            break;
          }
          if i == posX && j == posY && (original[i, j] == Goal || original[i, j] == BoxInGoal) {
            continueFlag := false;
            continueLevelAddFlag := false;
            breakFlag := true;
            break;
          }
          j := j + 1;
        }
        if breakFlag {
          break;
        }
        i := i + 1;
      }
    }

    /**
     * The write to the target cell of `moveBox` (main.c:662-697): BOX_IN_GOAL on a goal, BOX
     * on an empty cell; when the box lands on a goal, the win scan, whose verdict is
     * `WinsAfterPush`.
     */
    method Land(posX: nat, posY: nat, toX: nat, toY: nat, ghost ids: seq<FieldId>, ghost original: seq<FieldId>)
      requires Playing() && InField(levelNow, posX, posY) && InField(levelNow, toX, toY) && (posX != toX || posY != toY)
      requires Contents(levelNow) == ids && Contents(levels[level]) == original
      requires levelNow[toX, toY] == Empty || levelNow[toX, toY] == Goal
      modifies levelNow, this`continueFlag, this`continueLevelAddFlag
      ensures var from, to := Levels.FlatIndex(posX, posY, old(levelNow.Length0)), Levels.FlatIndex(toX, toY, old(levelNow.Length0));
        && from < |ids| && to < |ids| && from != to
        && Contents(levelNow) == ids[to := if ids[to] == Goal then BoxInGoal else Box]
        && if ids[to] == Goal then continueFlag == continueLevelAddFlag == WinsAfterPush(ids, original, from, to)
           else continueFlag == old(continueFlag) && continueLevelAddFlag == old(continueLevelAddFlag)
    {
      ghost var from, to := Levels.FlatIndex(posX, posY, levelNow.Length0), Levels.FlatIndex(toX, toY, levelNow.Length0);
      ContentsAt(levelNow, posX, posY);
      ContentsAt(levelNow, toX, toY);
      ContentsAt(levels[level], posX, posY);
      if from == to {
        Levels.FlatIndexInjective(posX, posY, toX, toY, levelNow.Length0);
      }
      if levelNow[toX, toY] == Goal {
        SetCell(levelNow, toX, toY, BoxInGoal);
        CheckWin(posX, posY);
        NoGoalContents(levelNow);
        WinAfterLanding(ids, original, from, to);
      } else {
        SetCell(levelNow, toX, toY, Box);
      }
    }

    /** The write to the pushed-from cell of `moveBox` (main.c:699-702): EMPTY where a BOX stood, GOAL otherwise. */
    method Vacate(posX: nat, posY: nat, ghost ids: seq<FieldId>)
      requires InField(levelNow, posX, posY) && Contents(levelNow) == ids
      modifies levelNow
      ensures var from := Levels.FlatIndex(posX, posY, old(levelNow.Length0));
        from < |ids| && Contents(levelNow) == ids[from := if ids[from] == Box then Empty else Goal]
    {
      ContentsAt(levelNow, posX, posY);
      if levelNow[posX, posY] == Box {
        SetCell(levelNow, posX, posY, Empty);
      } else {
        SetCell(levelNow, posX, posY, Goal);
      }
    }

    /**
     * `moveBox` (main.c:660-707): pushes the box at (posX, posY) one cell by (moveX, moveY).
     * It is `Push` on the id vectors the field and the level stand for: refused with the field
     * unchanged unless the target is EMPTY or GOAL, or the two cells written; and when the box
     * lands on a goal both flags hold the win. By `PushAsRust` this is `move_box_or_key`.
     */
    method MoveBox(posX: nat, posY: nat, moveX: int, moveY: int, ghost ids: seq<FieldId>, ghost original: seq<FieldId>)
      returns (moved: bool)
      requires Playing() && InField(levelNow, posX, posY) && InField(levelNow, posX + moveX, posY + moveY)
      requires moveX != 0 || moveY != 0
      requires Contents(levelNow) == ids && Contents(levels[level]) == original
      ensures var from, to := Levels.FlatIndex(posX, posY, old(levelNow.Length0)), Levels.FlatIndex(posX + moveX, posY + moveY, old(levelNow.Length0));
        && from < |ids| && to < |ids| && |original| == |ids|
        && var p := Push(ids, original, from, to);
        && moved == p.Pushed?
        && Contents(levelNow) == (if moved then p.ids else ids)
        && if moved && p.won.Some? then continueFlag == p.won.value && continueLevelAddFlag == p.won.value
           else continueFlag == old(continueFlag) && continueLevelAddFlag == old(continueLevelAddFlag)
      modifies levelNow, this`continueFlag, this`continueLevelAddFlag
    {
      var toX, toY: nat := posX + moveX, posY + moveY;
      ghost var from, to := Levels.FlatIndex(posX, posY, levelNow.Length0), Levels.FlatIndex(toX, toY, levelNow.Length0);
      if from == to {
        Levels.FlatIndexInjective(posX, posY, toX, toY, levelNow.Length0);
      }
      ContentsAt(levelNow, posX, posY);
      ContentsAt(levelNow, toX, toY);
      ContentsAt(levels[level], posX, posY);
      if levelNow[toX, toY] == Empty || levelNow[toX, toY] == Goal {
        Land(posX, posY, toX, toY, ids, original);
        ghost var landed := ids[to := if ids[to] == Goal then BoxInGoal else Box];
        Vacate(posX, posY, landed);
        moved := true;
      } else {
        moved := false;
      }
    }

    /**
     * Lines 464-469 of the key handler: the player's cell gets the level's original cell
     * without the player or box on it, as `Restore` does.
     */
    method RestorePlayerCell(ghost ids: seq<FieldId>, ghost original: seq<FieldId>)
      requires Playing() && InField(levelNow, playerPosX, playerPosY)
      requires Contents(levelNow) == ids && Contents(levels[level]) == original
      modifies levelNow
      ensures Levels.FlatIndex(old(playerPosX), old(playerPosY), old(levelNow.Length0)) < |ids|
      ensures Contents(levelNow) == Restore(ids, original, Levels.FlatIndex(old(playerPosX), old(playerPosY), old(levelNow.Length0)))
    {
      ContentsAt(levels[level], playerPosX, playerPosY);
      var tmp := levels[level][playerPosX, playerPosY];
      if tmp == Player || tmp == Box {
        tmp := Empty;
      }
      if tmp == BoxInGoal {
        tmp := Goal;
      }
      SetCell(levelNow, playerPosX, playerPosY, tmp);
    }

    /** The field, the player's position and the flags are the outcome `s` of a step from (x, y) in direction `d`. */
    ghost predicate Shows(s: StepResult, x: nat, y: nat, d: Direction)
      reads this`levelNow, levelNow, this`playerPosX, this`playerPosY, this`continueFlag, this`continueLevelAddFlag
    {
      && Contents(levelNow) == s.ids
      && (if s.moved then playerPosX == x + InGame.Dx(d) && playerPosY == y + InGame.Dy(d)
          else playerPosX == x && playerPosY == y)
      && continueFlag == s.hasWon && continueLevelAddFlag == s.hasWon
    }

    /**
     * The field, the player's position and the flags are what `Step` makes of `ids` when the
     * player at (x, y) steps in direction `d`.
     */
    ghost predicate Stepped(ids: seq<FieldId>, original: seq<FieldId>, w: nat, x: nat, y: nat, d: Direction)
      reads this`levelNow, levelNow, this`playerPosX, this`playerPosY, this`continueFlag, this`continueLevelAddFlag
    {
      && |original| == |ids| && CanStep(ids, w, (x, y), d)
      && Shows(Step(ids, original, w, (x, y), d), x, y, d)
    }

    /**
     * The end of the switch (main.c:474-543) and the stamp of line 546: the player steps in
     * direction `d` when the switch let it move, and is stamped where it then stands.
     */
    method Advance(d: Direction, x: nat, y: nat, moved: bool, ghost cur: seq<FieldId>, ghost s: StepResult)
      requires x == playerPosX && y == playerPosY && InField(levelNow, x, y)
      requires InField(levelNow, x + InGame.Dx(d), y + InGame.Dy(d)) && Contents(levelNow) == cur
      requires var w := levelNow.Length0;
        var at := if moved then Levels.FlatIndex(x + InGame.Dx(d), y + InGame.Dy(d), w) else Levels.FlatIndex(x, y, w);
        at < |cur| && s.ids == cur[at := Player]
      requires s.moved == moved && continueFlag == s.hasWon && continueLevelAddFlag == s.hasWon
      modifies levelNow, this`playerPosX, this`playerPosY
      ensures Shows(s, x, y, d)
      ensures continueLevelAddFlag == continueFlag
    {
      if moved {
        playerPosX, playerPosY := x + InGame.Dx(d), y + InGame.Dy(d);
      }
      SetCell(levelNow, playerPosX, playerPosY, Player);
    }

    /**
     * The BOX and BOX_IN_GOAL cases of the switch (main.c:474-543): the player pushes with
     * `moveBox` and moves when the push succeeds.
     */
    method PushNext(d: Direction, x: nat, y: nat, ghost restored: seq<FieldId>, ghost original: seq<FieldId>, ghost s: StepResult)
      requires Playing() && !continueFlag && !continueLevelAddFlag && x == playerPosX && y == playerPosY
      requires InField(levelNow, x, y) && InField(levelNow, x + InGame.Dx(d), y + InGame.Dy(d))
      requires InField(levelNow, x + InGame.Dx(d) + InGame.Dx(d), y + InGame.Dy(d) + InGame.Dy(d))
      requires Contents(levelNow) == restored && Contents(levels[level]) == original
      requires var w := levelNow.Length0;
        var from, to := Levels.FlatIndex(x, y, w), Levels.FlatIndex(x + InGame.Dx(d), y + InGame.Dy(d), w);
        var beyond := Levels.FlatIndex(x + InGame.Dx(d) + InGame.Dx(d), y + InGame.Dy(d) + InGame.Dy(d), w);
        && from < |restored| && to < |restored| && beyond < |restored| && |original| == |restored|
        && var p := Push(restored, original, to, beyond);
           s == if p.Pushed? then StepResult(p.ids[to := Player], true, p.won == Some(true))
                else StepResult(restored[from := Player], false, false)
      modifies levelNow, this`playerPosX, this`playerPosY, this`continueFlag, this`continueLevelAddFlag
      ensures Shows(s, x, y, d)
      ensures continueLevelAddFlag == continueFlag
    {
      var dx, dy := InGame.Dx(d), InGame.Dy(d);
      ghost var w := levelNow.Length0;
      ghost var p := Push(restored, original, Levels.FlatIndex(x + dx, y + dy, w), Levels.FlatIndex(x + dx + dx, y + dy + dy, w));
      var moved := MoveBox(x + dx, y + dy, dx, dy, restored, original);
      if moved {
        Advance(d, x, y, true, p.ids, s);
      } else {
        Advance(d, x, y, false, restored, s);
      }
    }

    /**
     * The switch on the cell ahead (main.c:474-543) and the stamp of line 546, on a field
     * whose player cell is already restored: the player walks, pushes a box with `moveBox`,
     * or stays. On the vectors this is `Step`.
     */
    method Switch(d: Direction, x: nat, y: nat, ghost ids: seq<FieldId>, ghost original: seq<FieldId>, ghost restored: seq<FieldId>)
      requires Playing() && !continueFlag && !continueLevelAddFlag && x == playerPosX && y == playerPosY
      requires InField(levelNow, x, y) && InField(levelNow, x + InGame.Dx(d), y + InGame.Dy(d))
      requires |original| == |ids| && CanStep(ids, levelNow.Length0, (x, y), d)
      requires Levels.FlatIndex(x, y, levelNow.Length0) < |ids|
      requires restored == Restore(ids, original, Levels.FlatIndex(x, y, levelNow.Length0))
      requires Contents(levelNow) == restored && Contents(levels[level]) == original
      requires IsBoxId(ids[Levels.FlatIndex(x + InGame.Dx(d), y + InGame.Dy(d), levelNow.Length0)]) ==>
        InField(levelNow, x + InGame.Dx(d) + InGame.Dx(d), y + InGame.Dy(d) + InGame.Dy(d))
      modifies levelNow, this`playerPosX, this`playerPosY, this`continueFlag, this`continueLevelAddFlag
      ensures Stepped(ids, original, old(levelNow.Length0), x, y, d)
      ensures continueLevelAddFlag == continueFlag
    {
      var nextX, nextY := x + InGame.Dx(d), y + InGame.Dy(d);
      InGame.CellsDiffer(levelNow.Length0, (x, y), d);
      ContentsAt(levelNow, nextX, nextY);
      var t := levelNow[nextX, nextY];
      if t == Empty || t == Goal || t == OneWayId(d) {
        Walk(d, x, y, ids, original, restored);
      } else if t == Box || t == BoxInGoal {
        PushAhead(d, x, y, ids, original, restored);
      } else {
        Stay(d, x, y, ids, original, restored);
      }
    }

    /** The EMPTY, GOAL and one-way cases of the switch: the player steps ahead. */
    method Walk(d: Direction, x: nat, y: nat, ghost ids: seq<FieldId>, ghost original: seq<FieldId>, ghost restored: seq<FieldId>)
      requires Playing() && !continueFlag && !continueLevelAddFlag && x == playerPosX && y == playerPosY
      requires InField(levelNow, x, y) && InField(levelNow, x + InGame.Dx(d), y + InGame.Dy(d))
      requires |original| == |ids| && CanStep(ids, levelNow.Length0, (x, y), d)
      requires Levels.FlatIndex(x, y, levelNow.Length0) < |ids|
      requires restored == Restore(ids, original, Levels.FlatIndex(x, y, levelNow.Length0))
      requires Contents(levelNow) == restored && Contents(levels[level]) == original
      requires EnterableId(ids[Levels.FlatIndex(x + InGame.Dx(d), y + InGame.Dy(d), levelNow.Length0)], d)
      modifies levelNow, this`playerPosX, this`playerPosY, this`continueFlag, this`continueLevelAddFlag
      ensures Stepped(ids, original, old(levelNow.Length0), x, y, d)
      ensures continueLevelAddFlag == continueFlag
    {
      ghost var w := levelNow.Length0;
      StepWalks(ids, original, w, x, y, d);
      Advance(d, x, y, true, restored, Step(ids, original, w, (x, y), d));
    }

    /** The BOX and BOX_IN_GOAL cases of the switch: the player steps ahead when `moveBox` pushes. */
    method PushAhead(d: Direction, x: nat, y: nat, ghost ids: seq<FieldId>, ghost original: seq<FieldId>, ghost restored: seq<FieldId>)
      requires Playing() && !continueFlag && !continueLevelAddFlag && x == playerPosX && y == playerPosY
      requires InField(levelNow, x, y) && InField(levelNow, x + InGame.Dx(d), y + InGame.Dy(d))
      requires |original| == |ids| && CanStep(ids, levelNow.Length0, (x, y), d)
      requires Levels.FlatIndex(x, y, levelNow.Length0) < |ids|
      requires restored == Restore(ids, original, Levels.FlatIndex(x, y, levelNow.Length0))
      requires Contents(levelNow) == restored && Contents(levels[level]) == original
      requires InField(levelNow, x + InGame.Dx(d) + InGame.Dx(d), y + InGame.Dy(d) + InGame.Dy(d))
      requires IsBoxId(ids[Levels.FlatIndex(x + InGame.Dx(d), y + InGame.Dy(d), levelNow.Length0)])
      modifies levelNow, this`playerPosX, this`playerPosY, this`continueFlag, this`continueLevelAddFlag
      ensures Stepped(ids, original, old(levelNow.Length0), x, y, d)
      ensures continueLevelAddFlag == continueFlag
    {
      ghost var w := levelNow.Length0;
      StepPushes(ids, original, w, x, y, d);
      PushNext(d, x, y, restored, original, Step(ids, original, w, (x, y), d));
    }

    /** Every other case of the switch: the player stays. */
    method Stay(d: Direction, x: nat, y: nat, ghost ids: seq<FieldId>, ghost original: seq<FieldId>, ghost restored: seq<FieldId>)
      requires Playing() && !continueFlag && !continueLevelAddFlag && x == playerPosX && y == playerPosY
      requires InField(levelNow, x, y) && InField(levelNow, x + InGame.Dx(d), y + InGame.Dy(d))
      requires |original| == |ids| && CanStep(ids, levelNow.Length0, (x, y), d)
      requires Levels.FlatIndex(x, y, levelNow.Length0) < |ids|
      requires restored == Restore(ids, original, Levels.FlatIndex(x, y, levelNow.Length0))
      requires Contents(levelNow) == restored && Contents(levels[level]) == original
      requires var t := ids[Levels.FlatIndex(x + InGame.Dx(d), y + InGame.Dy(d), levelNow.Length0)];
        !EnterableId(t, d) && !IsBoxId(t)
      modifies levelNow, this`playerPosX, this`playerPosY, this`continueFlag, this`continueLevelAddFlag
      ensures Stepped(ids, original, old(levelNow.Length0), x, y, d)
      ensures continueLevelAddFlag == continueFlag
    {
      ghost var w := levelNow.Length0;
      StepStays(ids, original, w, x, y, d);
      Advance(d, x, y, false, restored, Step(ids, original, w, (x, y), d));
    }

    /**
     * Lines 464-546 of the key handler: restores the player's cell, then the switch and the
     * stamp. On the vectors this is `Step`.
     */
    method MovePlayer(d: Direction, x: nat, y: nat, ghost ids: seq<FieldId>, ghost original: seq<FieldId>)
      requires Playing() && !continueFlag && !continueLevelAddFlag && x == playerPosX && y == playerPosY
      requires CanStepIn(levelNow, x, y, d)
      requires Contents(levelNow) == ids && Contents(levels[level]) == original
      modifies levelNow, this`playerPosX, this`playerPosY, this`continueFlag, this`continueLevelAddFlag
      ensures Stepped(ids, original, old(levelNow.Length0), x, y, d)
      ensures continueLevelAddFlag == continueFlag
    {
      ghost var w := levelNow.Length0;
      CanStepHolds(levelNow, x, y, d);
      ContentsAt(levelNow, x + InGame.Dx(d), y + InGame.Dy(d));
      ghost var boxAhead := IsBoxId(ids[Levels.FlatIndex(x + InGame.Dx(d), y + InGame.Dy(d), w)]);
      assert boxAhead ==> InField(levelNow, x + InGame.Dx(d) + InGame.Dx(d), y + InGame.Dy(d) + InGame.Dy(d));
      ghost var restored := Restore(ids, original, Levels.FlatIndex(x, y, w));
      RestorePlayerCell(ids, original);
      Switch(d, x, y, ids, original, restored);
    }

    /**
     * Lines 549-558 of the key handler: when the player moved from (x, y), the move is
     * counted and the copy kept before the step becomes the last step.
     */
    method RecordMove(x: nat, y: nat, ghost ids: seq<FieldId>)
      requires Valid() && Contents(levelNowTmpStep) == ids
      modifies levelNowLastStep, this`moves, this`oldMoves, this`playerPosXOld, this`playerPosYOld
      ensures if playerPosX != x || playerPosY != y then
          && playerPosXOld == x && playerPosYOld == y
          && oldMoves == old(moves) && moves == old(moves) + 1
          && Contents(levelNowLastStep) == ids
        else
          && playerPosXOld == old(playerPosXOld) && playerPosYOld == old(playerPosYOld)
          && moves == old(moves) && oldMoves == old(oldMoves)
          && Contents(levelNowLastStep) == old(Contents(levelNowLastStep))
    {
      if playerPosX != x || playerPosY != y {
        oldMoves := moves;
        moves := moves + 1;
        playerPosXOld := x;
        playerPosYOld := y;
        CopyField(levelNowTmpStep, levelNowLastStep);
      }
    }

    /**
     * Lines 464-558 of the key handler, once the field is copied to the scratch field: the
     * step, then the bookkeeping of a move.
     */
    method StepAndRecord(d: Direction, ghost ids: seq<FieldId>, ghost original: seq<FieldId>)
      requires Valid() && !continueFlag
      requires CanStepIn(levelNow, playerPosX, playerPosY, d)
      requires Contents(levelNow) == ids && Contents(levels[level]) == original
      requires Contents(levelNowTmpStep) == ids
      modifies levelNow, levelNowLastStep, this`moves, this`oldMoves
      modifies this`playerPosX, this`playerPosY, this`playerPosXOld, this`playerPosYOld, this`continueFlag, this`continueLevelAddFlag
      ensures Valid()
      ensures Stepped(ids, original, old(levelNow.Length0), old(playerPosX), old(playerPosY), d)
      ensures Contents(levelNowTmpStep) == ids
      ensures if playerPosX != old(playerPosX) || playerPosY != old(playerPosY) then
          && playerPosXOld == old(playerPosX) && playerPosYOld == old(playerPosY)
          && oldMoves == old(moves) && moves == old(moves) + 1
          && Contents(levelNowLastStep) == ids
        else
          && playerPosXOld == old(playerPosXOld) && playerPosYOld == old(playerPosYOld)
          && moves == old(moves) && oldMoves == old(oldMoves)
          && Contents(levelNowLastStep) == old(Contents(levelNowLastStep))
    {
      var playerPosXTmp, playerPosYTmp := playerPosX, playerPosY;
      MovePlayer(d, playerPosXTmp, playerPosYTmp, ids, original);
      RecordMove(playerPosXTmp, playerPosYTmp, ids);
    }

    /**
     * An arrow key (main.c:455-559): keeps a copy of the field, restores the player's cell,
     * steps, and when the player moved counts the move and makes the copy the last step. On
     * the vectors the fields stand for this is `Step`, which `StepAsRust` relates to the
     * Rust game's step.
     */
    method OnArrowKey(d: Direction, ghost ids: seq<FieldId>, ghost original: seq<FieldId>)
      requires Valid() && !continueFlag
      requires CanStepIn(levelNow, playerPosX, playerPosY, d)
      requires Contents(levelNow) == ids && Contents(levels[level]) == original
      modifies levelNow, levelNowLastStep, levelNowTmpStep, this`moves, this`oldMoves
      modifies this`playerPosX, this`playerPosY, this`playerPosXOld, this`playerPosYOld, this`continueFlag, this`continueLevelAddFlag
      ensures Valid()
      ensures Stepped(ids, original, old(levelNow.Length0), old(playerPosX), old(playerPosY), d)
      ensures Contents(levelNowTmpStep) == ids
      ensures if playerPosX != old(playerPosX) || playerPosY != old(playerPosY) then
          && playerPosXOld == old(playerPosX) && playerPosYOld == old(playerPosY)
          && oldMoves == old(moves) && moves == old(moves) + 1
          && Contents(levelNowLastStep) == ids
        else
          && playerPosXOld == old(playerPosXOld) && playerPosYOld == old(playerPosYOld)
          && moves == old(moves) && oldMoves == old(oldMoves)
          && Contents(levelNowLastStep) == old(Contents(levelNowLastStep))
    {
      CopyField(levelNow, levelNowTmpStep);
      StepAndRecord(d, ids, original);
    }
  }
}

=== FILE: selection.dfy ===
/**
 * The level-pack and level selection screens (`ScreenSelectLevelPack` and `ScreenSelectLevel`
 * in src/game/screen.rs) and the cursor of their C forerunners (`updateKeySelectLevelPack` and
 * `updateKeySelectLevel` in game/level/level.c, the SELECT_LEVEL_PACK and SELECT_LEVEL
 * branches of `updateKey` in main.c). The entries are laid out 24 to a row.
 */
module Selection {
  import opened Text
  import opened Keys
  import opened LevelPacks
  import opened GameStates

  const ROW_LENGTH: nat := 24

  /** The move an arrow key asks of the cursor: one entry sideways, or one row up or down. */
  function Offset(d: Direction): int {
    match d
    case Left => -1
    case Right => 1
    case Up => -(ROW_LENGTH as int)
    case Down => ROW_LENGTH as int
  }

  function Opposite(d: Direction): Direction {
    match d
    case Left => Right
    case Right => Left
    case Up => Down
    case Down => Up
  }

  /**
   * The cursor of the level selection after an arrow key, `count` being the number of
   * entries: no move off the first entry, the first row, the last entry or the last row.
   */
  function Cursor(selected: nat, count: nat, d: Direction): (r: nat)
    ensures selected < count ==> r < count
  {
    match d
    case Left => if selected == 0 then selected else selected - 1
    case Up => if selected < ROW_LENGTH then selected else selected - ROW_LENGTH
    case Right => if selected + 1 >= count then selected else selected + 1
    case Down => if selected + ROW_LENGTH >= count then selected else selected + ROW_LENGTH
  }

  /** The cursor takes the key's move when it lands on an entry, and stays put otherwise. */
  lemma CursorMeaning(selected: nat, count: nat, d: Direction)
    requires selected < count
    ensures Cursor(selected, count, d)
         == if 0 <= selected + Offset(d) < count then selected + Offset(d) else selected
  {
  }

  /** A move the cursor makes is undone by the opposite key. */
  lemma CursorBack(selected: nat, count: nat, d: Direction)
    requires selected < count && Cursor(selected, count, d) != selected
    ensures Cursor(Cursor(selected, count, d), count, Opposite(d)) == selected
  {
    CursorMeaning(selected, count, d);
    CursorMeaning(Cursor(selected, count, d), count, Opposite(d));
  }

  /**
   * The cursor of the level-pack selection as written: UP stays put up to and including
   * entry 24, which has a row above it.
   */
  function PackCursorAsWritten(selected: nat, count: nat, d: Direction): (r: nat)
    ensures d != Up ==> r == Cursor(selected, count, d)
  {
    if d == Up then (if selected <= ROW_LENGTH then selected else selected - ROW_LENGTH)
    else Cursor(selected, count, d)
  }

  /** UP on entry 24 does not reach entry 0 of the row above, which the level selection's cursor does. */
  lemma PackUpAsWrittenStuck()
    ensures PackCursorAsWritten(24, 25, Up) == 24
    ensures Cursor(24, 25, Up) == 0 && 0 <= 24 + Offset(Up) < 25
  {
  }

  /** The C cursor, on `int`s: UP and DOWN take the step and then undo it when it leaves the entries. */
  function CCursor(selected: int, count: int, d: Direction): int {
    match d
    case Left => if selected == 0 then selected else selected - 1
    case Up => var s := selected - 24; if s < 0 then s + 24 else s
    case Right => if selected == count - 1 then selected else selected + 1
    case Down => var s := selected + 24; if s >= count then s - 24 else s
  }

  /** On a cursor among the entries, the C cursor moves exactly as the level selection's does. */
  lemma CCursorAgrees(selected: nat, count: nat, d: Direction)
    requires selected < count
    ensures CCursor(selected, count, d) == Cursor(selected, count, d)
  {
  }

  /** The level ENTER on a pack selects: the first uncompleted one, or the first level when all are completed. */
  function FirstLevelToPlay(pack: LevelPack): (r: nat)
    reads pack
    ensures r == 0 || r == pack.minLevelNotCompleted
    ensures pack.minLevelNotCompleted < |pack.levels| ==> r == pack.minLevelNotCompleted
    ensures pack.minLevelNotCompleted == |pack.levels| ==> r == 0
  {
    if pack.minLevelNotCompleted == |pack.levels| then 0 else pack.minLevelNotCompleted
  }

  /** The entry under a mouse click at (`column`, `row`): three columns per entry, two rows per line below the title. */
  function EntryAt(column: nat, row: nat): (r: nat)
    requires row > 0
    ensures column < 3 * ROW_LENGTH ==> r % ROW_LENGTH == column / 3 && r / ROW_LENGTH == (row - 1) / 2
  {
    column / 3 + (row - 1) / 2 * ROW_LENGTH
  }

  // ----- the level-pack selection -----

  /**
   * `ScreenSelectLevelPack::on_key_pressed` (the screen has no fields: it moves the game's
   * pack index): ESC goes back to the start menu, F1 opens the help page, the arrow keys move
   * the cursor over the packs and ENTER selects the pack's first level to play and goes on to
   * the level selection.
   */
  method SelectLevelPackKey(game: GameState, key: Key)
    requires |game.levelPacks| < USIZE_LIMIT
    requires key == Enter ==> game.levelPackIndex < |game.levelPacks|
    modifies game`screen, game`helpOpen, game`levelPackIndex, game`levelIndex
    ensures key == Esc ==> game.screen == StartMenu && game.levelPackIndex == old(game.levelPackIndex)
    ensures key == F1 ==> game.helpOpen && game.screen == old(game.screen) && game.levelPackIndex == old(game.levelPackIndex)
    ensures key.Arrow? ==> game.levelPackIndex == Cursor(old(game.levelPackIndex), |game.levelPacks|, key.dir)
    ensures key.Arrow? ==> game.screen == old(game.screen) && game.levelIndex == old(game.levelIndex)
    ensures key == Enter ==>
      && game.screen == SelectLevel && game.levelPackIndex == old(game.levelPackIndex)
      && game.levelIndex == FirstLevelToPlay(game.levelPacks[game.levelPackIndex])
    ensures !(key in {Esc, F1, Enter} || key.Arrow?) ==>
      game.screen == old(game.screen) && game.levelPackIndex == old(game.levelPackIndex)
      && game.levelIndex == old(game.levelIndex) && game.helpOpen == old(game.helpOpen)
    ensures key in {Esc, F1} ==> game.levelIndex == old(game.levelIndex)
    ensures key != F1 ==> game.helpOpen == old(game.helpOpen)
  {
    if key == Esc {
      game.screen := StartMenu;
      return;
    }
    if key == F1 {
      game.helpOpen := true;
      return;
    }
    match key
    case Arrow(d) =>
      game.levelPackIndex := Cursor(game.levelPackIndex, |game.levelPacks|, d);
    case Enter =>
      var pack := game.levelPacks[game.levelPackIndex];
      game.levelIndex := if pack.minLevelNotCompleted == |pack.levels| then 0 else pack.minLevelNotCompleted;
      game.screen := SelectLevel;
    case _ =>
  }

  /** `ScreenSelectLevelPack::on_mouse_pressed`: a click on a pack selects it and acts as ENTER. */
  method SelectLevelPackMouse(game: GameState, column: nat, row: nat)
    requires |game.levelPacks| < USIZE_LIMIT
    modifies game`screen, game`helpOpen, game`levelPackIndex, game`levelIndex
    ensures row > 0 && EntryAt(column, row) < |game.levelPacks| ==>
      && game.levelPackIndex == EntryAt(column, row) && game.screen == SelectLevel
      && game.levelIndex == FirstLevelToPlay(game.levelPacks[game.levelPackIndex])
    ensures !(row > 0 && EntryAt(column, row) < |game.levelPacks|) ==>
      game.screen == old(game.screen) && game.levelPackIndex == old(game.levelPackIndex)
      && game.levelIndex == old(game.levelIndex)
    ensures game.helpOpen == old(game.helpOpen)
  {
    if row == 0 {
      return;
    }
    var index := column / 3 + (row - 1) / 2 * ROW_LENGTH;
    if index < |game.levelPacks| {
      game.levelPackIndex := index;
      SelectLevelPackKey(game, Enter);
    }
  }

  // ----- the level selection -----

  /** `ScreenSelectLevel`: the level under the cursor. */
  class ScreenSelectLevel {
    var selectedLevel: USize

    /** `ScreenSelectLevel::new`. */
    constructor()
      ensures selectedLevel == 0
    {
      selectedLevel := 0;
    }

    /** `on_set_screen`: the cursor starts on the game's selected level. */
    method OnSetScreen(game: GameState)
      modifies this
      ensures selectedLevel == game.levelIndex
    {
      selectedLevel := game.levelIndex;
    }

    /**
     * `on_key_pressed`: ESC goes back to the pack selection, F1 opens the help page, the arrow
     * keys move the cursor over the levels of the current pack and ENTER plays the level under
     * the cursor when it is completed or is the first uncompleted one.
     */
    method OnKeyPressed(game: GameState, key: Key)
      requires key == Arrow(Right) || key == Arrow(Down) || key == Enter ==>
        && game.levelPackIndex < |game.levelPacks|
        && |game.levelPacks[game.levelPackIndex].levels| < USIZE_LIMIT
      modifies this, game`screen, game`helpOpen, game`levelIndex
      ensures key == Esc ==> game.screen == SelectLevelPack && selectedLevel == old(selectedLevel)
      ensures key == F1 ==> game.helpOpen && game.screen == old(game.screen) && selectedLevel == old(selectedLevel)
      ensures key == Arrow(Left) || key == Arrow(Up) ==>
        selectedLevel == Cursor(old(selectedLevel), 0, key.dir) && game.screen == old(game.screen)
      ensures key == Arrow(Right) || key == Arrow(Down) ==>
        && selectedLevel == Cursor(old(selectedLevel), |game.levelPacks[game.levelPackIndex].levels|, key.dir)
        && game.screen == old(game.screen)
      ensures key.Arrow? ==> game.levelIndex == old(game.levelIndex)
      ensures key == Enter ==>
        var pack := game.levelPacks[game.levelPackIndex];
        && selectedLevel == old(selectedLevel)
        && if selectedLevel <= pack.minLevelNotCompleted then
             game.levelIndex == selectedLevel && game.screen == InGame
           else
             game.levelIndex == old(game.levelIndex) && game.screen == old(game.screen)
      ensures !(key in {Esc, F1, Enter} || key.Arrow?) ==>
        && selectedLevel == old(selectedLevel) && game.screen == old(game.screen)
        && game.levelIndex == old(game.levelIndex) && game.helpOpen == old(game.helpOpen)
      ensures key in {Esc, F1} ==> game.levelIndex == old(game.levelIndex)
      ensures key != F1 ==> game.helpOpen == old(game.helpOpen)
    {
      if key == Esc {
        game.screen := SelectLevelPack;
        return;
      }
      if key == F1 {
        game.helpOpen := true;
        return;
      }
      match key
      case Arrow(d) =>
        if d == Left || d == Up {
          selectedLevel := Cursor(selectedLevel, 0, d);
        } else {
          var pack := game.levelPacks[game.levelPackIndex];
          selectedLevel := Cursor(selectedLevel, |pack.levels|, d);
        }
      case Enter =>
        var pack := game.levelPacks[game.levelPackIndex];
        if selectedLevel <= pack.minLevelNotCompleted {
          game.levelIndex := selectedLevel;
          game.screen := InGame;
        }
      case _ =>
    }

    /** `on_mouse_pressed`: a click on a level of the current pack puts the cursor there and acts as ENTER. */
    method OnMousePressed(game: GameState, column: nat, row: nat)
      requires row > 0 ==>
        && game.levelPackIndex < |game.levelPacks|
        && |game.levelPacks[game.levelPackIndex].levels| < USIZE_LIMIT
      modifies this, game`screen, game`helpOpen, game`levelIndex
      ensures row == 0 ==>
        selectedLevel == old(selectedLevel) && game.screen == old(game.screen) && game.levelIndex == old(game.levelIndex)
      ensures row > 0 ==>
        var pack := game.levelPacks[game.levelPackIndex];
        if EntryAt(column, row) < |pack.levels| then
          && selectedLevel == EntryAt(column, row)
          && if selectedLevel <= pack.minLevelNotCompleted then
               game.levelIndex == selectedLevel && game.screen == InGame
             else
               game.levelIndex == old(game.levelIndex) && game.screen == old(game.screen)
        else
          selectedLevel == old(selectedLevel) && game.screen == old(game.screen) && game.levelIndex == old(game.levelIndex)
      ensures game.helpOpen == old(game.helpOpen)
    {
      if row == 0 {
        return;
      }
      var index := column / 3 + (row - 1) / 2 * ROW_LENGTH;
      if index < |game.levelPacks[game.levelPackIndex].levels| {
        selectedLevel := index;
        OnKeyPressed(game, Enter);
      }
    }
  }
}

=== FILE: text.dfy ===
/**
 * The pieces of Rust's `str` API that the level-pack and save-game formats are read with:
 * `lines`, `trim`, `starts_with`, `find`, `split` and unsigned integer `from_str`, and the
 * decimal formatting (`{}`) that writes numbers back. Text is a sequence of `char`.
 */
module Text {
  import opened Wrappers

  /** Largest values plus one of `u32` and `u64`; `usize` is taken to be 64 bits wide. */
  const U32_LIMIT: nat := 0x1_0000_0000
  const U64_LIMIT: nat := 0x1_0000_0000_0000_0000
  const USIZE_LIMIT: nat := U64_LIMIT

  /** Rust's `u32`, `u64` and `usize` (a 64-bit target). */
  type U32 = n: nat | n < U32_LIMIT
  type U64 = n: nat | n < U64_LIMIT
  type USize = n: nat | n < USIZE_LIMIT

  /** The characters with the Unicode White_Space property, which `str::trim` removes. */
  predicate IsWhitespace(c: char) {
    ('\t' <= c <= '\r') || c == ' ' || c == '\U{0085}' || c == '\U{00A0}' || c == '\U{1680}'
    || ('\U{2000}' <= c <= '\U{200A}') || c == '\U{2028}' || c == '\U{2029}' || c == '\U{202F}'
    || c == '\U{205F}' || c == '\U{3000}'
  }

  /** `str::trim_start`: drops the leading whitespace; what is left is a suffix. */
  function TrimStart(s: string): string
  {
    if s != [] && IsWhitespace(s[0]) then TrimStart(s[1..]) else s
  }

  /** `str::trim_end`: drops the trailing whitespace; what is left is a prefix. */
  function TrimEnd(s: string): string
  {
    if s != [] && IsWhitespace(s[|s| - 1]) then TrimEnd(s[..|s| - 1]) else s
  }

  /** `TrimStart` removes exactly the leading whitespace: all of it and nothing more. */
  lemma {:induction false} TrimStartSpec(s: string)
    ensures var r := TrimStart(s);
      && |r| <= |s| && r == s[|s| - |r|..]
      && (r == [] || !IsWhitespace(r[0]))
      && forall i | 0 <= i < |s| - |r| :: IsWhitespace(s[i])
  {
    if s != [] && IsWhitespace(s[0]) {
      var t := s[1..];
      TrimStartSpec(t);
      var r := TrimStart(t);
      assert r == s[|s| - |r|..];
      forall i | 0 <= i < |s| - |r| ensures IsWhitespace(s[i]) {
        if i > 0 {
          assert s[i] == t[i - 1];
        }
      }
    }
  }

  /** `TrimEnd` removes exactly the trailing whitespace: all of it and nothing more. */
  lemma {:induction false} TrimEndSpec(s: string)
    ensures var r := TrimEnd(s);
      && |r| <= |s| && r == s[..|r|]
      && (r == [] || !IsWhitespace(r[|r| - 1]))
      && forall i | |r| <= i < |s| :: IsWhitespace(s[i])
  {
    if s != [] && IsWhitespace(s[|s| - 1]) {
      TrimEndSpec(s[..|s| - 1]);
    }
  }

  /** `str::trim`. */
  function Trim(s: string): string {
    TrimEnd(TrimStart(s))
  }

  /** A trimmed string is empty exactly when the string is all whitespace. */
  lemma TrimEmptyIffBlank(s: string)
    ensures Trim(s) == [] <==> forall i | 0 <= i < |s| :: IsWhitespace(s[i])
  {
    var t := TrimStart(s);
    TrimStartSpec(s);
    TrimEndSpec(t);
    if Trim(s) == [] {
      assert t == [];
    } else if forall i | 0 <= i < |s| :: IsWhitespace(s[i]) {
      TrimStartOfBlank(s);
    }
  }

  lemma {:induction false} TrimStartOfBlank(s: string)
    requires forall i | 0 <= i < |s| :: IsWhitespace(s[i])
    ensures TrimStart(s) == []
  {
    if s != [] {
      TrimStartOfBlank(s[1..]);
    }
  }

  /** A string that neither starts nor ends with whitespace is its own trim. */
  lemma TrimUnchanged(s: string)
    requires s == [] || (!IsWhitespace(s[0]) && !IsWhitespace(s[|s| - 1]))
    ensures Trim(s) == s
  {
    assert TrimStart(s) == s;
  }

  /** Index of the first `c` in `s`, or `|s|` when there is none. */
  function IndexOf(s: string, c: char): (i: nat)
    ensures i <= |s| && (i < |s| ==> s[i] == c)
    ensures forall j | 0 <= j < i :: s[j] != c
  {
    if s == [] || s[0] == c then 0 else 1 + IndexOf(s[1..], c)
  }

  /** `pat` occurs in `s` starting at index `j`. */
  predicate OccursAt(s: string, pat: string, j: nat) {
    j + |pat| <= |s| && s[j..j + |pat|] == pat
  }

  /** First occurrence of `pat` at or after `k`. */
  function FindFrom(s: string, pat: string, k: nat): (r: Option<nat>)
    requires k <= |s|
    ensures r.Some? ==> k <= r.value && OccursAt(s, pat, r.value)
    ensures r.Some? ==> forall j | k <= j < r.value :: !OccursAt(s, pat, j)
    ensures r.None? ==> forall j | k <= j :: !OccursAt(s, pat, j)
    decreases |s| - k
  {
    if k + |pat| > |s| then None
    else if OccursAt(s, pat, k) then Some(k)
    else FindFrom(s, pat, k + 1)
  }

  /** `str::find` with a string pattern; `str::contains` is `Find(s, pat).Some?`. */
  function Find(s: string, pat: string): Option<nat> {
    FindFrom(s, pat, 0)
  }

  /** `Find` returns the first position where the pattern occurs. */
  lemma FindFirstOccurrence(s: string, pat: string, k: nat)
    requires OccursAt(s, pat, k)
    requires forall j | 0 <= j < k :: !OccursAt(s, pat, j)
    ensures Find(s, pat) == Some(k)
  {
  }

  /** Removes one '\r' before a line's '\n', as `str::lines` does. */
  function StripCarriageReturn(l: string): string {
    if |l| > 0 && l[|l| - 1] == '\r' then l[..|l| - 1] else l
  }

  /**
   * `str::lines`: split at '\n', drop a '\r' right before each '\n', and produce no empty
   * line after a final '\n'. A '\r' at the very end (no '\n' after it) is kept.
   */
  function Lines(s: string): (r: seq<string>)
    ensures forall i | 0 <= i < |r| :: '\n' !in r[i]
    ensures s == [] <==> r == []
    decreases |s|
  {
    if s == [] then []
    else
      var i := IndexOf(s, '\n');
      if i == |s| then [s]
      else [StripCarriageReturn(s[..i])] + Lines(s[i + 1..])
  }

  /** `[&str]::join(sep)`. */
  function Join(ls: seq<string>, sep: string): string {
    if ls == [] then [] else if |ls| == 1 then ls[0] else ls[0] + sep + Join(ls[1..], sep)
  }

  /**
   * Joining lines with "\n" and splitting them again gives them back when no line holds a
   * '\n', no line but the last ends in '\r', and the last line is not empty.
   */
  lemma {:induction false} LinesOfJoin(ls: seq<string>)
    requires |ls| > 0 && ls[|ls| - 1] != []
    requires forall i | 0 <= i < |ls| :: '\n' !in ls[i]
    requires forall i | 0 <= i < |ls| - 1 :: ls[i] == [] || ls[i][|ls[i]| - 1] != '\r'
    ensures Lines(Join(ls, "\n")) == ls
  {
    if |ls| == 1 {
      LinesOfOneLine(ls[0]);
    } else {
      var rest := Join(ls[1..], "\n");
      assert Join(ls, "\n") == ls[0] + "\n" + rest;
      LinesOfLineThen(ls[0], rest);
      JoinableTail(ls);
      LinesOfJoin(ls[1..]);
      assert [ls[0]] + ls[1..] == ls;
    }
  }

  /** A non-empty text without '\n' is a single line. */
  lemma LinesOfOneLine(l: string)
    requires l != [] && '\n' !in l
    ensures Lines(l) == [l]
  {
    assert IndexOf(l, '\n') == |l|;
  }

  /** The lines after the first keep the conditions of `LinesOfJoin`. */
  lemma JoinableTail(ls: seq<string>)
    requires |ls| > 1 && ls[|ls| - 1] != []
    requires forall i | 0 <= i < |ls| :: '\n' !in ls[i]
    requires forall i | 0 <= i < |ls| - 1 :: ls[i] == [] || ls[i][|ls[i]| - 1] != '\r'
    ensures forall i | 0 <= i < |ls| - 1 :: '\n' !in ls[1..][i]
    ensures forall i | 0 <= i < |ls| - 2 :: ls[1..][i] == [] || ls[1..][i][|ls[1..][i]| - 1] != '\r'
    ensures |ls[1..]| > 0 && ls[1..][|ls[1..]| - 1] != []
  {
    forall i | 0 <= i < |ls| - 1
      ensures ls[1..][i] == ls[i + 1]
    {
    }
  }

  /** A line that ends at a '\n' is the first line, followed by the lines after it. */
  lemma LinesOfLineThen(line: string, rest: string)
    requires '\n' !in line && (line == [] || line[|line| - 1] != '\r')
    ensures Lines(line + "\n" + rest) == [line] + Lines(rest)
  {
    var s := line + "\n" + rest;
    assert IndexOf(s, '\n') == |line| by {
      assert s[|line|] == '\n';
      forall j | 0 <= j < |line| ensures s[j] != '\n' {
        assert s[j] == line[j];
      }
      IndexOfFirst(s, '\n', |line|);
    }
    assert s[..|line|] == line;
    assert s[|line| + 1..] == rest;
  }

  /** Text written line by line, each line followed by "\n" (`writeln!`, `"{}\n"`). */
  function Unlines(ls: seq<string>): string {
    if ls == [] then [] else ls[0] + "\n" + Unlines(ls[1..])
  }

  /** `str::lines` reads back the lines of a text written line by line. */
  lemma {:induction false} LinesOfUnlines(ls: seq<string>)
    requires forall i | 0 <= i < |ls| :: '\n' !in ls[i]
    requires forall i | 0 <= i < |ls| :: ls[i] == [] || ls[i][|ls[i]| - 1] != '\r'
    ensures Lines(Unlines(ls)) == ls
  {
    if ls != [] {
      var tail := Unlines(ls[1..]);
      assert Unlines(ls) == ls[0] + "\n" + tail;
      LinesOfLineThen(ls[0], tail);
      UnlinableTail(ls);
      LinesOfUnlines(ls[1..]);
      assert [ls[0]] + ls[1..] == ls;
    }
  }

  /** The lines after the first keep the conditions of `LinesOfUnlines`. */
  lemma UnlinableTail(ls: seq<string>)
    requires |ls| > 0
    requires forall i | 0 <= i < |ls| :: '\n' !in ls[i]
    requires forall i | 0 <= i < |ls| :: ls[i] == [] || ls[i][|ls[i]| - 1] != '\r'
    ensures forall i | 0 <= i < |ls| - 1 :: '\n' !in ls[1..][i]
    ensures forall i | 0 <= i < |ls| - 1 :: ls[1..][i] == [] || ls[1..][i][|ls[1..][i]| - 1] != '\r'
  {
    forall i | 0 <= i < |ls| - 1
      ensures ls[1..][i] == ls[i + 1]
    {
    }
  }

  /** `IndexOf` is the first position holding `c`. */
  lemma IndexOfFirst(s: string, c: char, k: nat)
    requires k < |s| && s[k] == c
    requires forall j | 0 <= j < k :: s[j] != c
    ensures IndexOf(s, c) == k
  {
  }

  /** `str::split` on a single character: the pieces between the separators, at least one. */
  function Split(s: string, c: char): (r: seq<string>)
    ensures |r| > 0
    ensures forall i | 0 <= i < |r| :: c !in r[i]
    decreases |s|
  {
    var k := IndexOf(s, c);
    if k == |s| then [s] else [s[..k]] + Split(s[k + 1..], c)
  }

  /** Two pieces around a single separator split back into those two pieces. */
  lemma SplitPair(a: string, b: string, c: char)
    requires c !in a && c !in b
    ensures Split(a + [c] + b, c) == [a, b]
  {
    var s := a + [c] + b;
    IndexOfFirst(s, c, |a|);
    assert s[..|a|] == a;
    assert s[|a| + 1..] == b;
    assert IndexOf(b, c) == |b|;
  }

  predicate IsDigit(c: char) {
    '0' <= c <= '9'
  }

  predicate AllDigits(s: string) {
    forall i | 0 <= i < |s| :: IsDigit(s[i])
  }

  /** The value of a string of decimal digits, most significant first; None if any is not a digit. */
  function DecimalValue(s: string): Option<nat>
  {
    if s == [] then Some(0)
    else if !IsDigit(s[|s| - 1]) then None
    else match DecimalValue(s[..|s| - 1])
      case None => None
      case Some(v) => Some(10 * v + ((s[|s| - 1] as int) - ('0' as int)))
  }

  /**
   * Unsigned `from_str` (`usize`, `u64`, `u32`): an optional '+', then one or more decimal
   * digits whose value is below `limit`; anything else (empty, a '-', a space, overflow) fails.
   */
  function ParseUnsigned(s: string, limit: nat): (r: Option<nat>)
    ensures r.Some? ==> r.value < limit
    ensures r.Some? ==> s != [] && s != "+"
  {
    var digits := if |s| > 0 && s[0] == '+' then s[1..] else s;
    if digits == [] then None
    else match DecimalValue(digits)
      case None => None
      case Some(v) => if v < limit then Some(v) else None
  }

  function DigitChar(d: nat): (c: char)
    requires d < 10
    ensures IsDigit(c)
  {
    (('0' as int) + d) as char
  }

  /** Decimal formatting of a natural number (`{}` on an unsigned integer). */
  function NatToDecimal(n: nat): (r: string)
    ensures |r| > 0 && AllDigits(r)
  {
    if n < 10 then [DigitChar(n)] else NatToDecimal(n / 10) + [DigitChar(n % 10)]
  }

  /** Decimal formatting of an integer (`{}` on a signed integer): a '-' before a negative one. */
  function IntToDecimal(i: int): (r: string)
    ensures i >= 0 ==> r == NatToDecimal(i)
    ensures i < 0 ==> r == "-" + NatToDecimal(-i)
  {
    if i < 0 then "-" + NatToDecimal(-i) else NatToDecimal(i)
  }

  /** Reading the digits that `NatToDecimal` writes gives the number back. */
  lemma {:induction false} DecimalValueOfDecimal(n: nat)
    ensures DecimalValue(NatToDecimal(n)) == Some(n)
  {
    var s := NatToDecimal(n);
    if n >= 10 {
      DecimalValueOfDecimal(n / 10);
      assert s[..|s| - 1] == NatToDecimal(n / 10);
    }
  }

  /** `from_str` inverts `{}` formatting on every value the integer type can hold. */
  lemma ParseDecimal(n: nat, limit: nat)
    requires n < limit
    ensures ParseUnsigned(NatToDecimal(n), limit) == Some(n)
  {
    DecimalValueOfDecimal(n);
  }

  /** A string with a non-digit anywhere in it has no decimal value. */
  lemma {:induction false} DecimalValueOfNonDigit(s: string, i: nat)
    requires i < |s| && !IsDigit(s[i])
    ensures DecimalValue(s) == None
  {
    if i < |s| - 1 {
      DecimalValueOfNonDigit(s[..|s| - 1], i);
    }
  }

  /** A formatted negative number never parses as an unsigned one. */
  lemma ParseNegativeFails(i: int, limit: nat)
    requires i < 0
    ensures ParseUnsigned(IntToDecimal(i), limit) == None
  {
    DecimalValueOfNonDigit(IntToDecimal(i), 0);
  }
}

=== FILE: tiles.dfy ===
/**
 * The tiles of a level grid (src/game/level.rs) and the one-character codes a level file
 * stores them as.
 */
module Tiles {
  import opened Wrappers

  datatype Tile =
    | Empty
    | OneWayLeft | OneWayUp | OneWayRight | OneWayDown
    | Wall
    | Player
    | Key | KeyInGoal | LockedDoor
    | Box | BoxInGoal | Goal
    | Secret

  const INVALID_TILE: string := "Invalid tile"

  /** The fourteen characters a level file may use, one per tile. */
  predicate IsTileChar(c: char) {
    c == '-' || c == '<' || c == '^' || c == '>' || c == 'v' || c == '#' || c == 'P'
    || c == '*' || c == '~' || c == '=' || c == '@' || c == '+' || c == 'x' || c == 's'
  }

  /** `Tile::from_ascii`: decodes one character of a level row. */
  function FromAscii(c: char): (r: Result<Tile, string>)
    ensures r.Err? ==> r.error == INVALID_TILE
  {
    match c
    case '-' => Ok(Empty)
    case '<' => Ok(OneWayLeft)
    case '^' => Ok(OneWayUp)
    case '>' => Ok(OneWayRight)
    case 'v' => Ok(OneWayDown)
    case '#' => Ok(Wall)
    case 'P' => Ok(Player)
    case '*' => Ok(Key)
    case '~' => Ok(KeyInGoal)
    case '=' => Ok(LockedDoor)
    case '@' => Ok(Box)
    case '+' => Ok(BoxInGoal)
    case 'x' => Ok(Goal)
    case 's' => Ok(Secret)
    case _ => Err(INVALID_TILE)
  }

  /** The character a level file stores for a tile: the inverse of `FromAscii`. */
  function ToAscii(t: Tile): (c: char)
    ensures IsTileChar(c)
  {
    match t
    case Empty => '-'
    case OneWayLeft => '<'
    case OneWayUp => '^'
    case OneWayRight => '>'
    case OneWayDown => 'v'
    case Wall => '#'
    case Player => 'P'
    case Key => '*'
    case KeyInGoal => '~'
    case LockedDoor => '='
    case Box => '@'
    case BoxInGoal => '+'
    case Goal => 'x'
    case Secret => 's'
  }

  /** `FromAscii` accepts exactly the fourteen level-file characters. */
  lemma FromAsciiAccepts(c: char)
    ensures FromAscii(c).Ok? <==> IsTileChar(c)
  {
  }

  /** Every tile has a character, and decoding it gives the tile back. */
  lemma FromAsciiOfToAscii(t: Tile)
    ensures FromAscii(ToAscii(t)) == Ok(t)
  {
  }

  /** Decoding is one-to-one: the character that decodes to a tile is that tile's character. */
  lemma FromAsciiInjective(c: char)
    requires FromAscii(c).Ok?
    ensures ToAscii(FromAscii(c).value) == c
  {
  }

  /** A box, on a goal or not. */
  predicate IsBox(t: Tile) {
    t == Box || t == BoxInGoal
  }

  /** A tile the player pushes instead of entering: a box or a key, on a goal or not. */
  predicate IsPushable(t: Tile) {
    t == Box || t == BoxInGoal || t == Key || t == KeyInGoal
  }

  /** A tile with a goal underneath. */
  predicate IsGoalDerived(t: Tile) {
    t == Goal || t == BoxInGoal || t == KeyInGoal
  }

  /** A goal that still lacks a box: an empty goal or one holding a key. */
  predicate IsOpenGoal(t: Tile) {
    t == Goal || t == KeyInGoal
  }
}

=== FILE: undo_history.dfy ===
/**
 * `UndoHistory<T>` (src/collections.rs): a bounded history of values with a cursor.
 * `history` holds at most `capacity` values, oldest first, and `nextIndex` is one past the
 * current value, so the current value is `history[nextIndex - 1]` and the values after it
 * can be redone. src/utils.rs holds an earlier revision of the same struct that differs only
 * in `clear`; it is modelled here as `ClearKeepingOldest`.
 */
module UndoHistories {
  import opened Wrappers

  /** The fields of an `UndoHistory`, as a value. */
  datatype History<T> = History(history: seq<T>, nextIndex: nat, capacity: nat)
  {
    /** The cursor points into a non-empty history that is within capacity. */
    predicate Valid() {
      capacity > 0 && 1 <= nextIndex <= |history| <= capacity
    }

    /** `current`: the value at the cursor. */
    function Current(): T
      requires Valid()
    {
      history[nextIndex - 1]
    }
  }

  /** `UndoHistory::new`; the source panics on a zero capacity. */
  function Init<T>(capacity: nat, initial: T): (h: History<T>)
    requires capacity > 0
    ensures h.Valid() && h.Current() == initial && |h.history| == 1
  {
    History([initial], 1, capacity)
  }

  /** `undo`: moves the cursor back one value and returns the value now current. */
  function Undone<T>(h: History<T>): (r: (History<T>, Option<T>))
    requires h.Valid()
    ensures r.0.Valid() && r.0.history == h.history && r.0.capacity == h.capacity
    ensures h.nextIndex <= 1 <==> r.1.None?
    ensures h.nextIndex <= 1 ==> r.0 == h
    ensures h.nextIndex > 1 ==> r.0.nextIndex == h.nextIndex - 1 && r.1 == Some(r.0.Current())
  {
    if h.nextIndex <= 1 then (h, None)
    else
      var undone := h.(nextIndex := h.nextIndex - 1);
      (undone, Some(undone.history[undone.nextIndex - 1]))
  }

  /** `redo`: returns the value after the cursor and moves the cursor onto it. */
  function Redone<T>(h: History<T>): (r: (History<T>, Option<T>))
    requires h.Valid()
    ensures r.0.Valid() && r.0.history == h.history && r.0.capacity == h.capacity
    ensures h.nextIndex == |h.history| <==> r.1.None?
    ensures h.nextIndex == |h.history| ==> r.0 == h
    ensures h.nextIndex < |h.history| ==> r.0.nextIndex == h.nextIndex + 1 && r.1 == Some(r.0.Current())
  {
    if h.nextIndex == |h.history| then (h, None)
    else (h.(nextIndex := h.nextIndex + 1), Some(h.history[h.nextIndex]))
  }

  /**
   * `commit_change`: drops the values after the cursor, drops the oldest value when the
   * history is full, and appends `value` as the new current value.
   */
  function Committed<T>(h: History<T>, value: T): (r: History<T>)
    requires h.Valid()
  {
    var kept := h.history[..h.nextIndex];
    if |kept| == h.capacity then History(kept[1..] + [value], h.nextIndex, h.capacity)
    else History(kept + [value], h.nextIndex + 1, h.capacity)
  }

  /** `clear_with_new_initial`: the history holds only `initial`. */
  function ClearedWithNewInitial<T>(h: History<T>, initial: T): (r: History<T>)
    requires h.Valid()
    ensures r.Valid() && r.history == [initial] && r.nextIndex == 1 && r.capacity == h.capacity
  {
    History([initial], 1, h.capacity)
  }

  /**
   * `VecDeque::swap_remove_back(i)`: removes element `i`, moving the last element into its
   * place; nothing happens when `i` is out of range.
   */
  function SwapRemoveBack<T>(s: seq<T>, i: nat): (r: seq<T>)
    ensures i < |s| ==> |r| == |s| - 1
    ensures i >= |s| ==> r == s
  {
    if i >= |s| then s
    else if i == |s| - 1 then s[..i]
    else s[..i] + [s[|s| - 1]] + s[i + 1..|s| - 1]
  }

  /** `VecDeque::truncate(n)`. */
  function Truncate<T>(s: seq<T>, n: nat): (r: seq<T>)
    ensures |r| == if n < |s| then n else |s|
  {
    if n < |s| then s[..n] else s
  }

  /** `clear` as the current revision writes it: `swap_remove_back(0)`, then `truncate(1)`. */
  function ClearAsWritten<T>(h: History<T>): History<T> {
    History(Truncate(SwapRemoveBack(h.history, 0), 1), 1, h.capacity)
  }

  /** `clear` of the current revision as intended: the last value becomes the only one. */
  function Cleared<T>(h: History<T>): (r: History<T>)
    requires h.Valid()
  {
    History([h.history[|h.history| - 1]], 1, h.capacity)
  }

  /** `clear` of the earlier revision (src/utils.rs): `truncate(1)` keeps the oldest value. */
  function ClearedKeepingOldest<T>(h: History<T>): (r: History<T>)
    requires h.Valid()
  {
    History(Truncate(h.history, 1), 1, h.capacity)
  }

  class UndoHistory<T> {
    var history: seq<T>
    var nextIndex: nat
    const capacity: nat

    function State(): History<T>
      reads this
    {
      History(history, nextIndex, capacity)
    }

    ghost predicate Valid()
      reads this
    {
      State().Valid()
    }

    /** `UndoHistory::new`. */
    constructor(capacity: nat, initial: T)
      requires capacity > 0
      ensures State() == Init(capacity, initial) && Valid()
    {
      this.capacity := capacity;
      history := [initial];
      nextIndex := 1;
    }

    /** `undo`. */
    method Undo() returns (r: Option<T>)
      requires Valid()
      modifies this
      ensures (State(), r) == Undone(old(State())) && Valid()
    {
      if nextIndex <= 1 {
        return None;
      }
      nextIndex := nextIndex - 1;
      return Some(history[nextIndex - 1]);
    }

    /** `redo`. */
    method Redo() returns (r: Option<T>)
      requires Valid()
      modifies this
      ensures (State(), r) == Redone(old(State())) && Valid()
    {
      if nextIndex == |history| {
        return None;
      }
      var value := history[nextIndex];
      nextIndex := nextIndex + 1;
      return Some(value);
    }

    /** `commit_change`. */
    method CommitChange(value: T)
      requires Valid()
      modifies this
      ensures State() == Committed(old(State()), value) && Valid()
    {
      history := Truncate(history, nextIndex);
      if |history| == capacity {
        history := history[1..];
      } else {
        nextIndex := nextIndex + 1;
      }
      history := history + [value];
      CommitKeepsValid(old(State()), value);
    }

    /** `current`. */
    function Current(): T
      requires Valid()
      reads this
    {
      history[nextIndex - 1]
    }

    /** `clear` of the current revision, with the last value kept also when it is the only one. */
    method Clear()
      requires Valid()
      modifies this
      ensures State() == Cleared(old(State())) && Valid()
    {
      history := [history[|history| - 1]];
      nextIndex := 1;
    }

    /** `clear` of the earlier revision (src/utils.rs). */
    method ClearKeepingOldest()
      requires Valid()
      modifies this
      ensures State() == ClearedKeepingOldest(old(State())) && Valid()
    {
      history := Truncate(history, 1);
      nextIndex := 1;
    }

    /** `clear_with_new_initial`. */
    method ClearWithNewInitial(initial: T)
      requires Valid()
      modifies this
      ensures State() == ClearedWithNewInitial(old(State()), initial) && Valid()
    {
      history := [initial];
      nextIndex := 1;
    }
  }

  // ----- properties -----

  /**
   * After a commit the committed value is current, nothing is left to redo, the history
   * stays within capacity, and the values before it are the last ones up to the old cursor.
   */
  lemma CommitKeepsValid<T>(h: History<T>, value: T)
    requires h.Valid()
    ensures var r := Committed(h, value);
      && r.Valid() && r.capacity == h.capacity
      && r.Current() == value
      && r.nextIndex == |r.history|
      && r.history[..|r.history| - 1] == h.history[h.nextIndex - (|r.history| - 1)..h.nextIndex]
  {
    var r := Committed(h, value);
    assert r.history[..|r.history| - 1] == h.history[h.nextIndex - (|r.history| - 1)..h.nextIndex];
  }

  /** Only a full history drops its oldest value; otherwise the cursor moves forward. */
  lemma CommitEvictsOnlyWhenFull<T>(h: History<T>, value: T)
    requires h.Valid()
    ensures h.nextIndex == h.capacity ==> Committed(h, value).history == h.history[1..h.nextIndex] + [value]
    ensures h.nextIndex < h.capacity ==> Committed(h, value).history == h.history[..h.nextIndex] + [value]
    ensures h.nextIndex < h.capacity <==> Committed(h, value).nextIndex == h.nextIndex + 1
  {
    if h.nextIndex == h.capacity {
      assert h.history[..h.nextIndex][1..] == h.history[1..h.nextIndex];
    }
  }

  /** A commit after an undo discards what could have been redone. */
  lemma CommitDiscardsRedo<T>(h: History<T>, value: T)
    requires h.Valid()
    ensures Redone(Committed(h, value)).1 == None
  {
    CommitKeepsValid(h, value);
  }

  /** Redoing an undo restores the history exactly. */
  lemma RedoUndoes<T>(h: History<T>)
    requires h.Valid() && h.nextIndex > 1
    ensures Redone(Undone(h).0).0 == h && Redone(Undone(h).0).1 == Some(h.Current())
  {
  }

  /** Undoing a redo restores the history exactly. */
  lemma UndoRedoes<T>(h: History<T>)
    requires h.Valid() && h.nextIndex < |h.history|
    ensures Undone(Redone(h).0).0 == h && Undone(Redone(h).0).1 == Some(h.Current())
  {
  }

  /** `n` undos in a row move the cursor back `n` values, but never before the first one. */
  function UndoTimes<T>(h: History<T>, n: nat): (r: History<T>)
    requires h.Valid()
    ensures r.Valid() && r.history == h.history && r.capacity == h.capacity
    ensures r.nextIndex == if n < h.nextIndex then h.nextIndex - n else 1
    decreases n
  {
    if n == 0 then h else UndoTimes(Undone(h).0, n - 1)
  }

  /** The states that `commit_change` reaches from `new(capacity, first)` with `values`, one by one. */
  function CommitAll<T>(h: History<T>, values: seq<T>): (r: History<T>)
    requires h.Valid()
    ensures r.Valid() && r.capacity == h.capacity
    decreases |values|
  {
    if values == [] then h else CommitAll(Committed(h, values[0]), values[1..])
  }

  /**
   * Committing without undoing keeps the last `capacity` values: the history is the trailing
   * window of everything committed, and the cursor is at its end.
   */
  lemma {:induction false} CommitAllWindow<T>(h: History<T>, values: seq<T>)
    requires h.Valid() && h.nextIndex == |h.history|
    ensures var all := h.history + values;
      var n := if |all| < h.capacity then |all| else h.capacity;
      && CommitAll(h, values).history == all[|all| - n..]
      && CommitAll(h, values).nextIndex == n
    decreases |values|
  {
    if values != [] {
      var next := Committed(h, values[0]);
      CommitKeepsValid(h, values[0]);
      CommitEvictsOnlyWhenFull(h, values[0]);
      assert h.history[..h.nextIndex] == h.history;
      CommitAllWindow(next, values[1..]);
      var all := h.history + values;
      var nextAll := next.history + values[1..];
      var n := if |all| < h.capacity then |all| else h.capacity;
      if |h.history| == h.capacity {
        assert next.history == h.history[1..] + [values[0]];
        assert nextAll == all[1..];
      } else {
        assert next.history == h.history + [values[0]];
        assert nextAll == all;
      }
    }
  }

  /** The window test: committing 2..7 into a history of capacity 5 leaves [3, 4, 5, 6, 7]. */
  lemma CommitSlidingWindow()
    ensures CommitAll(Init(5, 1), [2, 3, 4, 5, 6, 7]) == History([3, 4, 5, 6, 7], 5, 5)
  {
    CommitAllWindow(Init(5, 1), [2, 3, 4, 5, 6, 7]);
    assert ([1] + [2, 3, 4, 5, 6, 7])[2..] == [3, 4, 5, 6, 7];
  }

  /**
   * The clear test of the current revision: after 1..5 and two undos the current value is 3,
   * and `clear` keeps the last value 5, not the current one.
   */
  lemma ClearKeepsLast()
    ensures var h := UndoTimes(CommitAll(Init(5, 1), [2, 3, 4, 5]), 2);
      && h.Current() == 3
      && Cleared(h) == History([5], 1, 5)
      && Cleared(h).Current() == 5
  {
    CommitAllWindow(Init(5, 1), [2, 3, 4, 5]);
    assert [1] + [2, 3, 4, 5] == [1, 2, 3, 4, 5];
  }

  /** The clear test of the earlier revision: the same steps leave the oldest value 1. */
  lemma ClearKeepingOldestKeepsFirst()
    ensures var h := UndoTimes(CommitAll(Init(5, 1), [2, 3, 4, 5]), 2);
      && ClearedKeepingOldest(h) == History([1], 1, 5)
  {
    CommitAllWindow(Init(5, 1), [2, 3, 4, 5]);
    assert [1] + [2, 3, 4, 5] == [1, 2, 3, 4, 5];
  }

  /** Both `clear`s leave one value, with nothing to undo or redo. */
  lemma ClearLeavesOneValue<T>(h: History<T>)
    requires h.Valid()
    ensures Cleared(h).Valid() && |Cleared(h).history| == 1 && Cleared(h).Current() == h.history[|h.history| - 1]
    ensures ClearedKeepingOldest(h).Valid() && |ClearedKeepingOldest(h).history| == 1
    ensures ClearedKeepingOldest(h).Current() == h.history[0]
    ensures Undone(Cleared(h)).1 == None && Redone(Cleared(h)).1 == None
    ensures Undone(ClearedKeepingOldest(h)).1 == None && Redone(ClearedKeepingOldest(h)).1 == None
  {
  }

  /** As written, `clear` keeps the last value only when there are at least two. */
  lemma ClearAsWrittenKeepsLast<T>(h: History<T>)
    requires h.Valid() && |h.history| >= 2
    ensures ClearAsWritten(h) == Cleared(h)
  {
    var s := h.history;
    assert SwapRemoveBack(s, 0) == [s[|s| - 1]] + s[1..|s| - 1];
  }

  /**
   * As written, `clear` on a history of one value empties it: `swap_remove_back(0)` removes
   * the only value, so the history no longer has a current value.
   */
  lemma ClearAsWrittenEmptiesSingleValue<T>(capacity: nat, initial: T)
    requires capacity > 0
    ensures ClearAsWritten(Init(capacity, initial)).history == []
    ensures !ClearAsWritten(Init(capacity, initial)).Valid()
  {
  }

  /** After `clear_with_new_initial` there is nothing to undo or redo. */
  lemma ClearWithNewInitialHasNoSteps<T>(h: History<T>, initial: T)
    requires h.Valid()
    ensures Undone(ClearedWithNewInitial(h, initial)).1 == None
    ensures Redone(ClearedWithNewInitial(h, initial)).1 == None
    ensures ClearedWithNewInitial(h, initial).Current() == initial
  {
  }
}

=== FILE: wrappers.dfy ===
/** Option and Result, the shapes of Rust's `Option<T>` and `Result<T, E>`. */
module Wrappers {

  datatype Option<+T> = None | Some(value: T)

  datatype Result<+T, +E> = Ok(value: T) | Err(error: E)
}
